=== FILE: README.md ===
# A verified model of a one-shot article pipeline

The pipeline reads Reddit Atom feeds and picks one new, unblocked entry that is not a near duplicate. It has a language model write an article about that entry, parses the reply into a title and a sanitised HTML body, and prepends the article to a JSON archive. It records the entry's link in a processed-links file and rebuilds a static site. That site has a sitemap, an RSS feed, related articles and cached Open Graph images. The repository refuses to run twice.

This project models that decision logic in Dafny as pure functions over immutable data. It proves what the code promises.

| file | module | models |
|---|---|---|
| `wrappers.dfy` | `Wrappers` | `Option` and `Result` |
| `text.dfy` | `Text` | Python's `str.isspace`, `strip`/`lstrip`/`rstrip`, `lower`, `in`, `startswith`/`endswith`, and the letter equivalence of `re.IGNORECASE` |
| `sorting.dfy` | `Sorting` | `sorted(..., reverse=True)` as a stable insertion sort, list comprehensions, slicing `[:k]`, and the flattening of the feed loop |
| `util.py` → `util.dfy` | `Util` | `normalize_url`, `simple_tokens`, `jaccard` as an exact ratio, `sanitize_llm_html` |
| `reddit.py` → `reddit.dfy` | `Reddit` | `_extract_first_img_from_html`, `_safe_image`, the per-entry shaping and the cap of `fetch_rss_entries` |
| `processed.dfy` | `Processed` | `load_processed` and `append_processed` on the text of `processed_urls.txt` |
| `archive.dfy` | `Archive` | the article record, `compute_rankings`, `related_articles` |
| `selection.dfy` | `Selection` | `is_blocked` and `pick_candidate` |
| `article_output.dfy` | `ArticleOutput` | the parse of the model's reply in `deepseek_article` |
| `feed.dfy` | `Feed` | the item list and the description fallback of `write_rss_feed` |
| `site.dfy` | `Site` | `_guess_ext_from_url`, `cache_og_image`, the sitemap URL list |
| `run.dfy` | `Run` | `main`: the run-once guard and the two outcomes of a run |

Values the code gets from outside become inputs:
- The feeds are given as parsed entries, one list per configured URL.
- `random.choice` becomes an index `pick` into the survivors.
- The model's reply is a string.
- The clock is a `Moment`: the date, the ISO stamp and the epoch seconds as text.
- `slugify`, `html.unescape` and `urlparse(...).path` are function or value parameters.
- Whether a cached image exists is a `bool`, and the download outcome is a `Download`.

The persistent files are the fields of a `Store`: the run flag, the processed-links text, the archive and `last_run.json`.

Jaccard similarity is an exact `Ratio(num, den)`. The thresholds `>= 0.78` and `> 0.05` are compared by cross-multiplication: `100 * num >= 78 * den` and `20 * num > den`. Python's whitespace (`\s`, `str.split()`, `str.strip()`) is the `str.isspace()` set, written out in `Text.IsSpace`.

## Model

| member | source | states |
|---|---|---|
| Util.NormalizeUrl | pipeline/util.py:26-30 | The result is a prefix of the stripped link, never ends in `/`, and is cut at the first `?` or `#` of the last line. For one-line input it contains no `?` and no `#`. |
| Util.NormalizeUrlDropsQuery | pipeline/util.py:27-29 | A link `a/` followed by a query or fragment marker and any one-line tail normalises to `a`, as in `https://x.com/a/?q=1#frag` giving `https://x.com/a`. |
| Util.NormalizeUrlIdempotent | pipeline/util.py:26-30 | Normalising twice equals normalising once when the first result is empty or ends in a non-space. |
| Util.NormalizeUrlNotIdempotent | pipeline/util.py:27-29 | Without that condition idempotence fails: `"a /"` gives `"a "`, and `"a "` gives `"a"`. |
| Util.SimpleTokens | pipeline/util.py:32-36 | Every token has at least 3 characters, and every character is in `[a-z0-9]`. |
| Util.WordsAreRuns | pipeline/util.py:35 | A string is one of the words `str.split()` returns exactly when it is a maximal run of non-whitespace characters. |
| Util.SimpleTokensAreRuns | pipeline/util.py:32-36 | A string is a token exactly when it is longer than two characters and is a maximal non-whitespace run of the lower-cased title with every stretch outside `[a-z0-9\s]` made one space. |
| Util.SimpleTokensIgnoreAsciiCase | pipeline/util.py:33 | Upper-casing the ASCII letters of a title does not change its token set. |
| Util.Jaccard | pipeline/util.py:38-45 | The ratio lies in [0, 1]. It is 1 for two empty sets and 0 when exactly one set is empty. Otherwise it equals the size of the intersection over the size of the union. |
| Util.JaccardSymmetric | pipeline/util.py:43-45 | `jaccard(a, b) == jaccard(b, a)`. |
| Util.JaccardOneIffEqual | pipeline/util.py:38-45 | The similarity is 1 exactly when the two sets are equal. |
| Util.JaccardExample | pipeline/util.py:43-45 | `jaccard({x, y}, {y, z})` is 1/3 for distinct x, y and z. |
| Util.SanitizeRemovesOpeners | pipeline/util.py:47-50 | No `<`, optional whitespace, case-insensitive `script` and a word boundary remain in the output. |
| Util.SanitizeKeepsClean | pipeline/util.py:47-50 | A string with no such opener comes back unchanged. |
| Util.SanitizeFixedIff | pipeline/util.py:47-50 | The sanitiser leaves a string unchanged exactly when it has no opener. Sanitising twice equals sanitising once. |
| Util.SanitizeRewritesTag | pipeline/util.py:49 | `< SCRIPT>` becomes `&lt;script>`: case and the spaces after `<` do not matter. |
| Util.SanitizeKeepsLongerWord | pipeline/util.py:49 | The `\b` after `script` keeps `<scripta` and `<script\u00e4` unchanged. |
| Reddit.ExtractFirstImg | pipeline/reddit.py:15-31 | Empty input gives `""`. An unescaped text without an `<img ... src="...">` gives `""`. Any result has no `"` and no surrounding whitespace. The value for a match is stated by `Reddit.ExtractLeftmost`. |
| Reddit.FirstImgFound | pipeline/reddit.py:27 | A match the search reports is the leftmost position at which the pattern matches. |
| Reddit.ExtractLeftmost | pipeline/reddit.py:21-31 | When the unescaped text first matches the pattern at position `i`, the image is that match's captured `src` value, with `&amp;` decoded and then stripped. |
| Reddit.FirstImgNone | pipeline/reddit.py:27 | The search for `<img[^>]+src="([^"]+)"` reports no match exactly when the pattern matches at no position. |
| Reddit.ExtractSingleTag | pipeline/reddit.py:12-31 | For a single `<img src="u">` tag, the result is `u` with `&amp;` replaced by `&` and then stripped. |
| Reddit.NoImgTagNoImage | pipeline/reddit.py:27-29 | Text with no case-insensitive `<img` anywhere yields no image. |
| Reddit.ReplaceAmpUndoesEscape | pipeline/reddit.py:30 | `.replace("&amp;", "&")` inverts escaping every `&` as `&amp;`. |
| Reddit.ReplaceAmpNoEntity | pipeline/reddit.py:30 | Text with no `&amp;` is unchanged. |
| Reddit.SafeImage | pipeline/reddit.py:34-47 | The result is `""` or the stripped input. It is non-empty exactly when the stripped input contains `i.redd.it/` or `preview.redd.it/`. |
| Reddit.SafeImageIdempotent | pipeline/reddit.py:34-47 | Passing an accepted URL through the allowlist again leaves it unchanged. |
| Reddit.SafeImageAcceptsAnyHost | pipeline/reddit.py:43-44 | The allowlist is a substring test: a stripped URL with `i.redd.it/` anywhere, on any host, is accepted. |
| Reddit.KindOf | pipeline/reddit.py:118 | The kind is `reddit_image` exactly when the image contains `i.redd.it/`. It is `reddit_preview` exactly when the image contains `preview.redd.it/` but not `i.redd.it/`. An empty image has kind `none`. |
| Reddit.KindOfSafeImage | pipeline/reddit.py:105-118 | After the allowlist, the kind is `none` exactly when the image is empty. |
| Reddit.ImageSource | pipeline/reddit.py:96-103 | An image in the content wins over one in the summary, which wins over the stripped thumbnail URL. |
| Reddit.Shape | pipeline/reddit.py:85-120 | An entry is dropped exactly when its stripped title or link is empty. A kept entry has those stripped values, a non-empty title and link, and `rss` equal to the feed URL. |
| Reddit.ShapeImage | pipeline/reddit.py:97-118 | A kept entry's image is the allowlisted image source. Its kind is `none` exactly when that image is empty. |
| Reddit.ShapeAll | pipeline/reddit.py:78-120 | The shaped list is no longer than the raw list, and every entry in it is well shaped for the feed. |
| Reddit.Cap | pipeline/reddit.py:122-123 | The effective cap is at least 1, and equals `max_items` when `max_items` is at least 1. |
| Reddit.FetchEntries | pipeline/reddit.py:76-125 | The loop returns the first `Cap(max_items)` shaped entries, in feed order, each well shaped. |
| Processed.LinesSetIff | pipeline/generate.py:64-67 | A value is in the set built from the lines exactly when some line contributes it. |
| Processed.AllSpaceLoadsNothing | pipeline/generate.py:66 | For any per-line builder that ignores whitespace, text made only of whitespace loads nothing. |
| Processed.AllSpaceLoadsNoLinks | pipeline/generate.py:64-67 | A processed file made only of whitespace loads no links. |
| Processed.LoadIgnoresRStrip | pipeline/generate.py:64-75 | Right-stripping the file text does not change the loaded set. |
| Processed.AppendNewLine | pipeline/generate.py:70-79 | Appending a link whose normal form is new and is one line (`requires OneLine(NormalizeUrl(url))`) keeps every existing line of the right-stripped text and adds exactly one line, that normal form. |
| Processed.AppendThenLoad | pipeline/generate.py:64-79 | After appending a new one-line link, the loaded set is the old set plus the normal form of the appended line. |
| Processed.AppendRecordsLink | pipeline/generate.py:64-79 | For a one-line normal form ending in a non-space, the loaded set after the append is the old set plus that normal form. |
| Processed.AppendIdempotent | pipeline/generate.py:70-79 | Appending the same link twice gives the same text as appending it once, for a one-line normal form ending in a non-space. |
| Archive.StrLeTotal | pipeline/generate.py:91 | String order on `published_ts` is total. |
| Archive.StrLeTransitive | pipeline/generate.py:91 | String order on `published_ts` is transitive. |
| Archive.StrLeAntisymmetric | pipeline/generate.py:91 | String order on `published_ts` is antisymmetric. |
| Archive.ComputeRankingsCorrect | pipeline/generate.py:90-91 | The ranking is a permutation of the archive with non-increasing `published_ts`. Articles with equal stamps keep their archive order. |
| Archive.RelatedArticlesCorrect | pipeline/generate.py:94-103 | See the note after the table. |
| Sorting.SortDescCorrect | pipeline/generate.py:90-103 | Python's stable `sort(reverse=True)` under any total preorder gives a sorted permutation that keeps ties in input order. |
| Sorting.FilterMembers | pipeline/generate.py:103 | A list comprehension with a condition keeps only members of its input that pass the test, and it keeps every member that passes. |
| Sorting.ChooseFlat | pipeline/generate.py:154-178 | The choice is `None` exactly when no entry survives. Otherwise it is a surviving entry: the first in feed-then-entry order, or survivor number `pick mod n`. |
| Selection.IsBlockedIff | pipeline/generate.py:82-87 | A title is blocked exactly when some lower-cased keyword is a substring of the lower-cased title. |
| Selection.EmptyKeywordBlocksAll | pipeline/generate.py:84-86 | An empty keyword blocks every title. |
| Selection.IsBlockedIgnoresAsciiCase | pipeline/generate.py:83 | Upper-casing the ASCII letters of a title does not change whether it is blocked. |
| Selection.PickCandidate | pipeline/generate.py:142-178 | See the note after the table. |
| Selection.EverySurvivorCanBePicked | pipeline/generate.py:175-176 | With `pick_random`, every survivor is chosen for some random index. |
| ArticleOutput.MatchFollowsRegex | pipeline/generate.py:234 | The match fails exactly when no split of the stripped reply fits `TITLE:\s*(.+?)\s*\n\s*\n(.*)`. Otherwise it reports the stripped groups of the split the engine prefers: the greedy `\s*` longest, then the lazy title shortest. |
| ArticleOutput.ParseFollowsRegex | pipeline/generate.py:232-243 | With no fitting split, the title is the item's stripped title and the body the sanitised stripped reply. With the preferred split, they are its stripped title group and its sanitised stripped body group. |
| ArticleOutput.FirstTwoBreaksSpec | pipeline/generate.py:234 | The lazy search of the regex finds the least position passing the test, or `None` exactly when none does. |
| ArticleOutput.ParseShape | pipeline/generate.py:232-243 | Either way, the returned body has no `<script` opener and the returned title is stripped. |
| ArticleOutput.ParseRoundTrip | pipeline/generate.py:232-243 | `"TITLE:" + spaces + t + "\n\n" + b` parses back to `t` and the sanitised `b`, for a one-line stripped `t` and a stripped `b`. |
| ArticleOutput.ParseTagOnly | pipeline/generate.py:234-242 | `"TITLE:\n\n" + b`, for a one-line `b`, does not match and falls back to the item's title and the whole reply. |
| ArticleOutput.ParseBlankTitle | pipeline/generate.py:234-237 | `"TITLE:\n\n\n" + b` matches with an empty title and body `b`. |
| Feed.FeedItemsNewest | pipeline/generate.py:254 | The RSS items are `min(limit, n)` archive articles with non-increasing `published_ts`. No article left out is newer than one listed. |
| Feed.StripTagsTagless | pipeline/generate.py:275 | After replacing `<[^>]+>` with a space, no `<` is followed later by a `>` except in an empty `<>`. |
| Feed.StripTagsFixed | pipeline/generate.py:275 | Text without tags passes through unchanged. |
| Feed.CollapseSingleSpaced | pipeline/generate.py:275 | After replacing `\s+` with one space, no whitespace is left except single spaces between non-spaces. |
| Feed.CollapseFixed | pipeline/generate.py:275 | Text that is already single-spaced is unchanged. |
| Feed.DescriptionSpec | pipeline/generate.py:273-275 | A non-empty summary is the description as it is. Without one, the description has at most 240 characters, no tags, single spaces only and no leading whitespace. |
| Feed.DescriptionFallback | pipeline/generate.py:273-275 | The fallback description has at most 240 characters, no tags, single spaces only, and no leading whitespace. |
| Feed.DescriptionOfPlainText | pipeline/generate.py:275 | A stripped, tagless, single-spaced body of at most 240 characters is its own description. |
| Site.ExtOfSpec | pipeline/generate.py:109-114 | The extension for a lower-cased path is the one it ends with, or `.jpg` when it ends with none. |
| Site.GuessExtSpec | pipeline/generate.py:106-114 | The guess is one of `.jpg`, `.jpeg`, `.png` and `.webp`: the one the lower-cased path ends with, or `.jpg` when it ends with none. |
| Site.ExtsExclusive | pipeline/generate.py:111-113 | No path ends with two of the extensions, so their order does not matter. |
| Site.GuessExtIgnoresAsciiCase | pipeline/generate.py:108 | Upper-casing the ASCII letters of a path does not change the guess. |
| Site.CacheOgImageSpec | pipeline/generate.py:117-136 | The image URL is empty exactly when the source is blank or an uncached fetch failed. Otherwise it is `base/og/<id><ext>` for one of the four extensions. |
| Site.CachedNeverDownloads | pipeline/generate.py:126 | A cached image is neither fetched nor rewritten. The download outcome does not affect the URL. |
| Site.EmptyDownloadStillLinked | pipeline/generate.py:132-136 | A fetch that returns no bytes writes nothing, yet the page still links the file. |
| Site.PageOgImageSpec | pipeline/generate.py:371-379 | A page has an Open Graph image exactly when caching is on, the hero image is not blank and it was cached or fetched. The image is then `base/og/<id><ext>`, with `article` for a missing id. |
| Site.SitemapCoversArchive | pipeline/generate.py:309 | The sitemap has the home page first, then one URL per article. Every URL lies under the site root, and every article is listed. |
| Run.SlugSpec | pipeline/generate.py:429 | The slug is non-empty. It is either at most 80 characters of the slugified title, taken from its start, or `post-<epoch>`. |
| Run.NewArticleSpec | pipeline/generate.py:426-444 | See the note after the table. |
| Run.RunOnce | pipeline/generate.py:403-454 | See the note after the table. |
| Run.CreatedLinkNotPickedAgain | pipeline/generate.py:70-79 | After the append, the created entry's link is in the processed set, so the entry is no longer eligible. This needs a one-line normal form ending in a non-space. |
| Run.RunTwice | pipeline/generate.py:403-454 | After a successful run, a second run fails with `AlreadyRan`. After a run that failed before writing, a second run fails the same way. After a failed site build, the flag is unset and a second run is not refused. |

Notes on rows whose contract is too long for one cell:

- **Archive.RelatedArticlesCorrect** states:
  - At most `k` articles are returned.
  - Each one is from the archive.
  - None has the current article's id.
  - Each has similarity `> 0.05`.
  - Similarity does not increase along the list.
  - The code takes the first `k` and then filters. This equals taking the first `k` of the filtered sorted scores, which are a stable permutation of the scores.
- **Selection.PickCandidate** states:
  - It fails exactly when the feed list is empty.
  - It returns `None` exactly when no entry is eligible. An entry is eligible when its normalised link is non-empty and unprocessed, its title is not blocked, and its title is below 0.78 similarity to every non-empty archive title.
  - Without `pick_random`, it returns the first eligible entry in feed order.
  - With `pick_random`, it returns survivor number `pick mod n`.
- **Run.NewArticleSpec** states that the new record has:
  - the id `<ymd>-<slug>`, where the slug is `Run.Slug` of the record's own title, and the path `/articles/<id>.html`;
  - the parsed title, or the entry's title when that is empty;
  - the run's timestamp;
  - the entry's link, feed, summary and image;
  - a sanitised body.
- **Run.RunOnce** states:
  - A set flag fails with `AlreadyRan`, exactly.
  - A `config.json` that is missing or does not parse fails with `MissingConfig`, exactly, once the flag is clear.
  - A blank base URL fails with `MissingBaseUrl`, exactly.
  - An empty feed list fails with `NoFeeds`, exactly.
  - A candidate with a model call that raises fails with `GenerationFailed`, exactly.
  - A site build that raises fails with `SiteBuildFailed`, exactly when the run got that far.
  - Otherwise the run succeeds, sets the flag, and records the home page.
  - Every failure but `SiteBuildFailed` leaves the store unchanged.
  - `SiteBuildFailed` leaves the flag and `last_run.json` unchanged. Without a candidate, nothing changes. With one, the archive and the processed text have been written as for a created article, from the same picked entry.
  - When nothing is created, the archive and the processed text are unchanged, the note is recorded, and no entry was eligible.
  - When an article is created, the archive grows by exactly the new article at index 0, with the old ones after it in order. The new article is built from the entry `pick_candidate` returns (`Selection.IsPick`): the first eligible entry in feed order, or, with `pick_random`, survivor number `pick mod n`. That entry's link is appended to the processed text, and `last_run` names its source, title and URL.

## Left out

- `pipeline/deepseek.py`, `pipeline/render.py` and the file helpers of `pipeline/util.py` (`read_text`, `write_text`, `read_json`, `write_json`) are not part of this model. They are an HTTP client, template rendering and file I/O with no decisions of their own.
- The network and XML parsing of `fetch_rss_entries`: `requests.get`, `ET.fromstring` and the namespace lookups. A raw entry is given as optional title, link, summary, published, content and thumbnail texts. A transport error, which propagates, is not modelled.
- `html.unescape`, `urlparse` and `slugify` are parameters and are not modelled. The exception branch of `_guess_ext_from_url` is the `None` path.
- The clock (`now_utc_iso`, `datetime.now`), the RFC-822 date formatting and `updated_utc` in `last_run.json`: the run takes a `Moment`, and no date is formatted.
- `random.choice` is an index into the survivors, so uniformity is not modelled.
- The template rendering of `build_site` is not modelled: the index, static pages, robots.txt, asset copies, the XML text of the sitemap and feed, and the `ranking`/`new_articles` lists of the page context. `new_articles` is the same list as `Feed.FeedItems(articles, 10)`.
- Image downloads and the `og/` directory are inputs: whether the cached file exists, and what the fetch returned. The user agent header is not modelled.
- Run.RunOnce: the configuration is an input, present or absent; a `config.json` that parses but has the wrong shape (a non-object `site`, say) is not modelled. The model call of `deepseek_article` is its reply, or its absence when the call raises (no API key, a failed request). `build_site` is only whether it returns normally; its causes (a missing `contact_email`, a malformed `published_ts` in `rfc822`) are not told apart. A failure of `write_json` or of the flag write is not modelled.
- Run.RunTwice: after `SiteBuildFailed` the processed text and archive are already written and the flag is unset, so the second run may create another article; the contract says only that it is not refused with `AlreadyRan`.
- Util.SanitizeRemovesOpeners: `\w` in `\bscript\b` is exact up to U+00FF. Above it, every non-space character counts as a word character except U+2000 to U+206F and U+3001 to U+3003, because the Unicode category table is not modelled.
- Util.SanitizeKeepsClean: uses the same approximation of `\w` above U+00FF.
- Util.SanitizeFixedIff: uses the same approximation of `\w` above U+00FF.
- ArticleOutput.ParseShape: the body's freedom from openers uses the same approximation of `\w` above U+00FF.
- Run.NewArticleSpec: the sanitised body uses the same approximation of `\w` above U+00FF.
- Python's `lower()` and regex case folding are modelled for ASCII, Latin-1 and the special letters named in `Text`. The case mappings of every other character are not modelled, including Latin letters outside Latin-1 such as U+0100 and U+0178.
- Util.Jaccard: compared as an exact ratio, not a float. For the small set sizes of titles, the 0.78 and 0.05 thresholds decide the same way.
- Processed.LinesSetIff: the characterisation is stated for the generic per-line set builder. It is not restated for `load_processed` with `Strip` and `NormalizeUrl` plugged in.
- Processed.AppendThenLoad: the link's normal form must be one line. `NormalizeUrl` is not idempotent, so the loaded value is the normal form of the normal form.
- Processed.AppendRecordsLink: needs a one-line normal form ending in a non-space. Other links may be recorded under a different form. `Util.NormalizeUrlNotIdempotent` shows one.
- Run.CreatedLinkNotPickedAgain: carries the same condition as `Processed.AppendRecordsLink`.
- A missing `path` key makes `write_rss_feed` and `build_site` raise `KeyError`. Every modelled article has a path, so that error is not modelled.
- A missing `published_ts` key sorts as `""`. It is not modelled, because every modelled article carries a timestamp.
- The host allowlist of `_safe_image` is a substring test on the whole URL, not a check of the host. The model follows the code: see `Reddit.SafeImageAcceptsAnyHost`.
- A feed capped with `max_items <= 0` still returns its first shaped entry, because the cap is checked after the append. The model follows the code: see `Reddit.Cap`.

=== FILE: archive.dfy ===
/** The article archive of `pipeline/generate.py` (`articles.json`) and the two orderings
    computed over it: `compute_rankings` (newest first) and `related_articles` (most
    similar title first, above a cutoff, at most `k`). */
module Archive {
  import opened Wrappers
  import opened Util
  import opened Sorting
  import opened Reddit

  /** One archive record. The fields the code reads with `.get(key, "")` are plain strings
      ("" when the key is absent); `id` is read with `.get("id")`, so an absent id is
      `None`. */
  datatype Article = Article(
    id: Option<string>,
    title: string,
    path: string,
    publishedTs: string,
    sourceUrl: string,
    rss: string,
    summary: string,
    bodyHtml: string,
    heroImage: string,
    heroKind: HeroKind)

  // ---------------------------------------------------------------------------
  // Python string comparison
  // ---------------------------------------------------------------------------

  /** `a <= b` on Python strings: lexicographic by code point, a prefix first. */
  predicate StrLe(a: string, b: string) {
    if |a| == 0 then true
    else if |b| == 0 then false
    else if a[0] != b[0] then a[0] < b[0]
    else StrLe(a[1..], b[1..])
  }

  lemma {:induction false} StrLeTotal(a: string, b: string)
    ensures StrLe(a, b) || StrLe(b, a)
  {
    if |a| > 0 && |b| > 0 && a[0] == b[0] {
      StrLeTotal(a[1..], b[1..]);
    }
  }

  lemma {:induction false} StrLeTransitive(a: string, b: string, c: string)
    requires StrLe(a, b) && StrLe(b, c)
    ensures StrLe(a, c)
  {
    if |a| > 0 && |b| > 0 && |c| > 0 && a[0] == b[0] && b[0] == c[0] {
      StrLeTransitive(a[1..], b[1..], c[1..]);
    }
  }

  /** Two strings that compare both ways are equal. */
  lemma {:induction false} StrLeAntisymmetric(a: string, b: string)
    requires StrLe(a, b) && StrLe(b, a)
    ensures a == b
  {
    if |a| > 0 {
      StrLeAntisymmetric(a[1..], b[1..]);
      assert a == [a[0]] + a[1..];
      assert b == [b[0]] + b[1..];
    }
  }

  // ---------------------------------------------------------------------------
  // compute_rankings
  // ---------------------------------------------------------------------------

  /** The key order of `sorted(..., key=published_ts, reverse=True)`: `x` may come
      before `y`. */
  predicate NewerOrSame(x: Article, y: Article) {
    StrLe(y.publishedTs, x.publishedTs)
  }

  lemma NewerOrSameTotalPreorder()
    ensures TotalPreorder(NewerOrSame)
  {
    forall x: Article, y: Article
      ensures NewerOrSame(x, y) || NewerOrSame(y, x)
    {
      StrLeTotal(x.publishedTs, y.publishedTs);
    }
    forall x: Article, y: Article, z: Article | NewerOrSame(x, y) && NewerOrSame(y, z)
      ensures NewerOrSame(x, z)
    {
      StrLeTransitive(z.publishedTs, y.publishedTs, x.publishedTs);
    }
  }

  /** Two articles tie under the ranking order exactly when their timestamps are equal. */
  lemma NewerOrSameTie(x: Article, y: Article)
    ensures Tie(x, y, NewerOrSame) <==> x.publishedTs == y.publishedTs
  {
    if Tie(x, y, NewerOrSame) {
      StrLeAntisymmetric(x.publishedTs, y.publishedTs);
    } else {
      StrLeTotal(x.publishedTs, x.publishedTs);
    }
  }

  /** `compute_rankings(articles)`: newest first, by the `published_ts` string. */
  function ComputeRankings(articles: seq<Article>): seq<Article> {
    SortDesc(articles, NewerOrSame)
  }

  /** The ranking is the archive reordered, newest first, with articles of equal
      timestamp in archive order. */
  lemma ComputeRankingsCorrect(articles: seq<Article>)
    ensures var r := ComputeRankings(articles);
            && multiset(r) == multiset(articles)
            && (forall i, j :: 0 <= i < j < |r| ==> StrLe(r[j].publishedTs, r[i].publishedTs))
            && (forall y :: Tied(r, y, NewerOrSame) == Tied(articles, y, NewerOrSame))
  {
    NewerOrSameTotalPreorder();
    SortDescCorrect(articles, NewerOrSame);
  }

  // ---------------------------------------------------------------------------
  // related_articles
  // ---------------------------------------------------------------------------

  /** A `(similarity, article)` pair of the `scored` list. */
  datatype Scored = Scored(sim: Ratio, article: Article)

  /** The key order of `scored.sort(key=similarity, reverse=True)`. */
  predicate MoreSimilar(x: Scored, y: Scored) {
    RatioGe(x.sim, y.sim)
  }

  lemma MoreSimilarTotalPreorder()
    ensures TotalPreorder(MoreSimilar)
  {
    forall x: Scored, y: Scored
      ensures MoreSimilar(x, y) || MoreSimilar(y, x)
    {
      RatioGeTotal(x.sim, y.sim);
    }
    forall x: Scored, y: Scored, z: Scored | MoreSimilar(x, y) && MoreSimilar(y, z)
      ensures MoreSimilar(x, z)
    {
      RatioGeTransitive(x.sim, y.sim, z.sim);
    }
  }

  predicate Related(s: Scored) {
    AboveRelatedCutoff(s.sim)
  }

  /** The filter `s > 0.05` keeps everything at least as similar as something it keeps. */
  lemma RelatedUpClosed()
    ensures UpClosed(Related, MoreSimilar)
  {
    forall x: Scored, y: Scored | Related(y) && MoreSimilar(x, y)
      ensures Related(x)
    {
      AboveRelatedCutoffUp(x.sim, y.sim);
    }
  }

  /** The similarity `related_articles` gives `a` against the current article. */
  function Similarity(current: Article, a: Article): Ratio {
    Jaccard(SimpleTokens(current.title), SimpleTokens(a.title))
  }

  /** The articles other than the current one, by id (`None == None` in Python, so two
      id-less articles count as the same). */
  function Others(current: Article, articles: seq<Article>): (r: seq<Article>)
    ensures forall i :: 0 <= i < |r| ==> r[i] in articles && r[i].id != current.id
    ensures forall a :: a in articles && a.id != current.id ==> a in r
  {
    var other := (a: Article) => a.id != current.id;
    FilterMembers(articles, other);
    Filter(articles, other)
  }

  /** The `scored` list before sorting: every other article with its similarity, in
      archive order. */
  function Scores(current: Article, articles: seq<Article>): (r: seq<Scored>)
    ensures |r| == |Others(current, articles)|
    ensures forall i :: 0 <= i < |r| ==> r[i].article == Others(current, articles)[i]
                                         && r[i].sim == Similarity(current, r[i].article)
  {
    var others := Others(current, articles);
    seq(|others|, i requires 0 <= i < |others| => Scored(Similarity(current, others[i]), others[i]))
  }

  /** The scored pairs `related_articles` returns, before dropping the similarities. */
  function RelatedScored(current: Article, articles: seq<Article>, k: nat): seq<Scored> {
    Filter(Take(SortDesc(Scores(current, articles), MoreSimilar), k), Related)
  }

  /** `related_articles(current, articles, k)`. */
  function RelatedArticles(current: Article, articles: seq<Article>, k: nat): (r: seq<Article>)
    ensures |r| == |RelatedScored(current, articles, k)|
    ensures forall i :: 0 <= i < |r| ==> r[i] == RelatedScored(current, articles, k)[i].article
  {
    var rs := RelatedScored(current, articles, k);
    seq(|rs|, i requires 0 <= i < |rs| => rs[i].article)
  }

  /** Everything returned is another archive article, similar enough, at most `k` of
      them, most similar first; and the result is exactly the first `k` of the pairs
      above the cutoff in the stable order, so a qualifying article is never crowded
      out by one below the cutoff. */
  lemma RelatedArticlesCorrect(current: Article, articles: seq<Article>, k: nat)
    ensures var r := RelatedArticles(current, articles, k);
            && |r| <= k
            && (forall i :: 0 <= i < |r| ==>
                  && r[i] in articles
                  && r[i].id != current.id
                  && AboveRelatedCutoff(Similarity(current, r[i])))
            && (forall i, j :: 0 <= i < j < |r| ==>
                  RatioGe(Similarity(current, r[i]), Similarity(current, r[j])))
    ensures var sorted := SortDesc(Scores(current, articles), MoreSimilar);
            && RelatedScored(current, articles, k) == Take(Filter(sorted, Related), k)
            && multiset(sorted) == multiset(Scores(current, articles))
            && (forall y :: Tied(sorted, y, MoreSimilar) == Tied(Scores(current, articles), y, MoreSimilar))
  {
    var scores := Scores(current, articles);
    var sorted := SortDesc(scores, MoreSimilar);
    MoreSimilarTotalPreorder();
    SortDescCorrect(scores, MoreSimilar);
    RelatedUpClosed();
    FilterTakeOfSorted(sorted, k, Related, MoreSimilar);
    var rs := RelatedScored(current, articles, k);
    var r := RelatedArticles(current, articles, k);
    FilterMembers(Take(sorted, k), Related);
    forall i | 0 <= i < |r|
      ensures r[i] in articles && r[i].id != current.id
      ensures rs[i].sim == Similarity(current, r[i]) && Related(rs[i])
    {
      ScoredIsScore(current, articles, sorted, rs[i]);
    }
    TakeSorted(sorted, k, MoreSimilar);
    FilterSorted(Take(sorted, k), Related, MoreSimilar);
    forall i, j | 0 <= i < j < |r|
      ensures RatioGe(Similarity(current, r[i]), Similarity(current, r[j]))
    {
      assert MoreSimilar(rs[i], rs[j]);
      ScoredIsScore(current, articles, sorted, rs[i]);
      ScoredIsScore(current, articles, sorted, rs[j]);
    }
  }

  /** A pair that survives sorting, truncation and filtering is one of the scores. */
  lemma ScoredIsScore(current: Article, articles: seq<Article>, sorted: seq<Scored>, s: Scored)
    requires multiset(sorted) == multiset(Scores(current, articles))
    requires s in sorted
    ensures s.article in articles && s.article.id != current.id
    ensures s.sim == Similarity(current, s.article)
  {
    var scores := Scores(current, articles);
    assert s in multiset(sorted);
    assert s in scores;
    var i :| 0 <= i < |scores| && scores[i] == s;
    assert s.article == Others(current, articles)[i];
  }
}

=== FILE: article_output.dfy ===
/** How `deepseek_article` in `pipeline/generate.py` splits the model's reply into a title
    and an HTML body. The reply is stripped and matched against
    `(?is)^\s*TITLE:\s*(.+?)\s*\n\s*\n(.*)$`; this module states the match the regex
    engine's backtracking finds, in terms of positions in the stripped reply `s`:

    - without a case-insensitive `TITLE:` at the start there is no match;
    - otherwise let `e` end the whitespace run after the tag. The engine first keeps all
      of that run and grows the lazy title from one character past `e` until the
      whitespace run at its end holds two newlines (`TwoBreaksAt`). The body is the text
      after that run;
    - when no such point exists, the engine hands characters of the run back: a
      title of one whitespace character needs two more newlines in the run, which is
      possible exactly when `s[7..e]` holds two of them. The title is then empty;
    - otherwise there is no match and the reply, stripped, is the body.

    In every case the body then goes through `sanitize_llm_html`. */
module ArticleOutput {
  import opened Wrappers
  import opened Text
  import opened Util

  /** The `(llm_title, llm_html)` pair `deepseek_article` returns. */
  datatype Parsed = Parsed(title: string, body: string)

  /** The regex's tag, in the lower case the ignore-case match compares against. */
  const Tag: string := "title:"

  /** `\s*\n\s*\n` matches at `b`: the whitespace run starting there holds two newlines. */
  predicate TwoBreaksAt(s: string, b: nat) {
    b <= |s| && NewlinesIn(s, b, SpaceRunEnd(s, b)) >= 2
  }

  /** The lazy group `(.+?)` ends at the first point at or after `i` where the break
      matches. */
  function FirstTwoBreaks(s: string, i: nat): (r: Option<nat>)
    requires i <= |s|
    ensures r.Some? ==> i <= r.value <= |s|
    decreases |s| - i
  {
    if TwoBreaksAt(s, i) then Some(i)
    else if i == |s| then None
    else FirstTwoBreaks(s, i + 1)
  }

  /** What `re.match` yields on the stripped reply `s`: no match, or the two groups,
      each stripped as the code strips them. The pattern's leading `\s*` matches nothing
      because `s` is stripped. */
  datatype Match = NoMatch | Match(title: string, body: string)

  function MatchReply(s: string): Match {
    if !FoldPrefix(s, Tag) then NoMatch else MatchAfterTag(s, SpaceRunEnd(s, |Tag|))
  }

  /** The match once the tag and the whitespace after it, up to `e`, are consumed. */
  function MatchAfterTag(s: string, e: nat): Match
    requires |Tag| <= e <= |s|
  {
    var m := if e < |s| then FirstTwoBreaks(s, e + 1) else None;
    if m.Some? then Match(Strip(s[e..m.value]), Strip(s[m.value..]))
    else if e > |Tag| && NewlinesIn(s, |Tag| + 1, e) >= 2 then Match("", Strip(s[e..]))
    else NoMatch
  }

  /** The title and body `deepseek_article` derives from the reply `out`; `itemTitle` is
      the feed entry's title, the fallback. */
  function ParseArticle(out: string, itemTitle: string): Parsed {
    var s := Strip(out);
    match MatchReply(s)
    case NoMatch => Parsed(Strip(itemTitle), Sanitize(s))
    case Match(t, h) => Parsed(t, Sanitize(h))
  }

  // ---------------------------------------------------------------------------
  // The lazy search
  // ---------------------------------------------------------------------------

  /** The lazy search finds the least point where the break matches, and finds none only
      when the break matches nowhere from `i` on. */
  lemma {:induction false} FirstTwoBreaksSpec(s: string, i: nat)
    requires i <= |s|
    ensures var r := FirstTwoBreaks(s, i);
            && (r.Some? ==> TwoBreaksAt(s, r.value) && forall j :: i <= j < r.value ==> !TwoBreaksAt(s, j))
            && (r.None? <==> forall j :: i <= j <= |s| ==> !TwoBreaksAt(s, j))
    decreases |s| - i
  {
    if !TwoBreaksAt(s, i) && i < |s| {
      FirstTwoBreaksSpec(s, i + 1);
    }
  }

  lemma {:induction false} FirstTwoBreaksIs(s: string, i: nat, b: nat)
    requires i <= b <= |s| && TwoBreaksAt(s, b)
    requires forall j :: i <= j < b ==> !TwoBreaksAt(s, j)
    ensures FirstTwoBreaks(s, i) == Some(b)
    decreases b - i
  {
    if i < b {
      FirstTwoBreaksIs(s, i + 1, b);
    }
  }

  lemma {:induction false} FirstTwoBreaksNone(s: string, i: nat)
    requires i <= |s|
    requires forall j :: i <= j <= |s| ==> !TwoBreaksAt(s, j)
    ensures FirstTwoBreaks(s, i) == None
    decreases |s| - i
  {
    if i < |s| {
      FirstTwoBreaksNone(s, i + 1);
    }
  }

  /** A point whose whitespace run stays inside newline-free text cannot match. */
  lemma NoBreakBetween(s: string, lo: nat, hi: nat, j: nat)
    requires lo <= j <= hi <= |s|
    requires forall m :: lo <= m < hi ==> s[m] != '\n'
    requires hi == |s| || !IsSpace(s[hi])
    ensures !TwoBreaksAt(s, j)
  {
    var r := SpaceRunEnd(s, j);
    SpaceRunEndSpaces(s, j);
    assert r <= hi;
    NewlinesInFree(s, j, r);
  }

  /** Leading whitespace in front of stripped text is what `strip` removes. */
  lemma StripLeading(w: string, x: string)
    requires forall j :: 0 <= j < |w| ==> IsSpace(w[j])
    requires x != [] && !IsSpace(x[0]) && !IsSpace(x[|x| - 1])
    ensures Strip(w + x) == x
  {
    var s := w + x;
    SpaceRunEndIs(s, 0, |w|);
    var r := Strip(s);
    assert s[|s| - 1] == x[|x| - 1];
    assert |w| + |r| == |s|;
    assert r == s[|w|..];
  }

  /** `\s*\n\s*\n` matches where two newlines open a whitespace run. */
  lemma NewlinePairMatches(s: string, b: nat)
    requires b + 2 < |s| && s[b] == '\n' && s[b + 1] == '\n' && !IsSpace(s[b + 2])
    ensures TwoBreaksAt(s, b)
  {
    SpaceRunEndIs(s, b, b + 2);
    assert NewlinesIn(s, b, b + 1) == 1;
  }

  /** In a reply laid out as the tag, whitespace up to `n`, a newline-free title up to
      `brk`, two newlines and more text, the lazy group ends exactly at `brk`. */
  lemma BreakAfterTitle(s: string, n: nat, brk: nat)
    requires 6 <= n < brk && brk + 2 < |s|
    requires forall j :: 6 <= j < n ==> IsSpace(s[j])
    requires !IsSpace(s[n]) && !IsSpace(s[brk - 1])
    requires forall m :: n <= m < brk ==> s[m] != '\n'
    requires s[brk] == '\n' && s[brk + 1] == '\n' && !IsSpace(s[brk + 2])
    ensures SpaceRunEnd(s, 6) == n
    ensures FirstTwoBreaks(s, n + 1) == Some(brk)
  {
    SpaceRunEndIs(s, 6, n);
    forall j | n + 1 <= j < brk
      ensures !TwoBreaksAt(s, j)
    {
      NoBreakBetween(s, n, brk - 1, j);
    }
    NewlinePairMatches(s, brk);
    FirstTwoBreaksIs(s, n + 1, brk);
  }

  /** After the tag and whitespace up to `n`, a single line to the end leaves the lazy
      group nowhere to stop. */
  lemma NoBreakAfter(s: string, n: nat)
    requires 6 <= n < |s|
    requires forall j :: 6 <= j < n ==> IsSpace(s[j])
    requires !IsSpace(s[n])
    requires forall m :: n <= m < |s| ==> s[m] != '\n'
    ensures SpaceRunEnd(s, 6) == n
    ensures FirstTwoBreaks(s, n + 1) == None
  {
    SpaceRunEndIs(s, 6, n);
    forall j | n + 1 <= j <= |s|
      ensures !TwoBreaksAt(s, j)
    {
      NoBreakBetween(s, n, |s|, j);
    }
    FirstTwoBreaksNone(s, n + 1);
  }

  /** A reply that begins with the upper-case tag carries the tag for the regex. */
  lemma TagAtStart(s: string)
    requires |s| >= 6 && s[..6] == "TITLE:"
    ensures FoldPrefix(s, Tag)
  {
    assert s[0] == s[..6][0] == 'T';
    assert s[1] == s[..6][1] == 'I';
    assert s[2] == s[..6][2] == 'T';
    assert s[3] == s[..6][3] == 'L';
    assert s[4] == s[..6][4] == 'E';
    assert s[5] == s[..6][5] == ':';
  }

  // ---------------------------------------------------------------------------
  // The match, case by case
  // ---------------------------------------------------------------------------

  /** The lazy group stops at `b`: the title runs from the end of the whitespace after the
      tag to `b`, the body is the rest. */
  lemma MatchTitled(s: string, e: nat, b: nat)
    requires FoldPrefix(s, Tag) && |Tag| <= e < |s| && SpaceRunEnd(s, |Tag|) == e
    requires FirstTwoBreaks(s, e + 1) == Some(b)
    ensures e < b <= |s| && MatchReply(s) == Match(Strip(s[e..b]), Strip(s[b..]))
  {
  }

  /** No stopping point after the whitespace, but two newlines inside it past its first
      character: the title is empty. */
  lemma MatchEmptyTitle(s: string, e: nat)
    requires FoldPrefix(s, Tag) && |Tag| < e <= |s| && SpaceRunEnd(s, |Tag|) == e
    requires e == |s| || FirstTwoBreaks(s, e + 1) == None
    requires NewlinesIn(s, |Tag| + 1, e) >= 2
    ensures MatchReply(s) == Match("", Strip(s[e..]))
  {
  }

  /** Neither: the regex fails although the tag is there. */
  lemma MatchFails(s: string, e: nat)
    requires FoldPrefix(s, Tag) && |Tag| <= e < |s| && SpaceRunEnd(s, |Tag|) == e
    requires FirstTwoBreaks(s, e + 1) == None
    requires e == |Tag| || NewlinesIn(s, |Tag| + 1, e) < 2
    ensures MatchReply(s) == NoMatch
  {
  }

  /** The layout the prompt asks for, stated by positions: the tag, whitespace up to `n`,
      a newline-free title up to `brk`, two newlines, then the body. */
  lemma MatchLayout(s: string, n: nat, brk: nat)
    requires |s| >= 6 && s[..6] == "TITLE:"
    requires 6 <= n < brk && brk + 2 < |s|
    requires forall j :: 6 <= j < n ==> IsSpace(s[j])
    requires !IsSpace(s[n]) && !IsSpace(s[brk - 1])
    requires forall m :: n <= m < brk ==> s[m] != '\n'
    requires s[brk] == '\n' && s[brk + 1] == '\n' && !IsSpace(s[brk + 2]) && !IsSpace(s[|s| - 1])
    ensures MatchReply(s) == Match(s[n..brk], s[brk + 2..])
  {
    TagAtStart(s);
    BreakAfterTitle(s, n, brk);
    MatchTitled(s, n, brk);
    StripSlice(s, n, brk);
    StripAfterBreak(s, brk);
  }

  /** A slice that starts and ends with a non-space is its own strip. */
  lemma StripSlice(s: string, lo: nat, hi: nat)
    requires lo < hi <= |s| && !IsSpace(s[lo]) && !IsSpace(s[hi - 1])
    ensures Strip(s[lo..hi]) == s[lo..hi]
  {
    var x := s[lo..hi];
    assert x[0] == s[lo] && x[|x| - 1] == s[hi - 1];
    StripFixed(x);
  }

  /** After two newlines, the rest stripped is the text past them. */
  lemma StripAfterBreak(s: string, brk: nat)
    requires brk + 2 < |s| && s[brk] == '\n' && s[brk + 1] == '\n'
    requires !IsSpace(s[brk + 2]) && !IsSpace(s[|s| - 1])
    ensures Strip(s[brk..]) == s[brk + 2..]
  {
    var x := s[brk..];
    assert x == x[..2] + x[2..];
    assert x[..2] == "\n\n";
    assert x[2..] == s[brk + 2..];
    assert x[2..][0] == s[brk + 2] && x[2..][|x| - 3] == s[|s| - 1];
    StripLeading(x[..2], x[2..]);
  }

  /** The tag, whitespace up to `n`, then one line: the lazy group finds no stopping
      point, so the result rests on the whitespace alone. */
  lemma MatchOneLine(s: string, n: nat)
    requires |s| >= 6 && s[..6] == "TITLE:"
    requires 6 <= n < |s|
    requires forall j :: 6 <= j < n ==> IsSpace(s[j])
    requires !IsSpace(s[n]) && !IsSpace(s[|s| - 1])
    requires forall m :: n <= m < |s| ==> s[m] != '\n'
    ensures n > 6 && NewlinesIn(s, 7, n) >= 2 ==> MatchReply(s) == Match("", s[n..])
    ensures n == 6 || NewlinesIn(s, 7, n) < 2 ==> MatchReply(s) == NoMatch
  {
    TagAtStart(s);
    NoBreakAfter(s, n);
    if n > 6 && NewlinesIn(s, 7, n) >= 2 {
      MatchEmptyTitle(s, n);
      StripFixed(s[n..]);
    } else {
      MatchFails(s, n);
    }
  }

  // ---------------------------------------------------------------------------
  // The match against the pattern itself
  // ---------------------------------------------------------------------------

  /** `s[b..c]` matches `\s*\n\s*\n`: whitespace holding two newlines that ends with one. */
  predicate SepAt(s: string, b: nat, c: nat) {
    && b < c <= |s|
    && (forall k :: b <= k < c ==> IsSpace(s[k]))
    && s[c - 1] == '\n'
    && NewlinesIn(s, b, c) >= 2
  }

  /** One way the whole pattern fits the stripped reply `s` (its leading `\s*` matching
      nothing): the tag, whitespace up to `a`, the title group `s[a..b]` of at least one
      character, the separator `s[b..c]` and the body group `s[c..]`. */
  predicate RegexSplit(s: string, a: nat, b: nat, c: nat) {
    && FoldPrefix(s, Tag)
    && |Tag| <= a < b
    && SepAt(s, b, c)
    && (forall k :: |Tag| <= k < a ==> IsSpace(s[k]))
  }

  /** The split at `a` and `b` comes first in the engine's search order among all that fit:
      the greedy `\s*` after the tag keeps as much as it can, and then the lazy title group
      is as short as it can be. */
  ghost predicate Preferred(s: string, a: nat, b: nat) {
    forall a': nat, b': nat, c': nat :: RegexSplit(s, a', b', c') ==> a' < a || (a' == a && b <= b')
  }

  /** The greatest `j` from `lo` up to `n` where the break matches, if any. */
  function LastTwoBreaks(s: string, lo: nat, n: nat): (r: Option<nat>)
    requires lo <= n <= |s|
    ensures r.Some? ==> lo <= r.value <= n
    decreases n - lo
  {
    if TwoBreaksAt(s, n) then Some(n)
    else if n == lo then None
    else LastTwoBreaks(s, lo, n - 1)
  }

  lemma {:induction false} LastTwoBreaksSpec(s: string, lo: nat, n: nat)
    requires lo <= n <= |s|
    ensures var r := LastTwoBreaks(s, lo, n);
            && (r.Some? ==> TwoBreaksAt(s, r.value) && forall j :: r.value < j <= n ==> !TwoBreaksAt(s, j))
            && (r.None? ==> forall j :: lo <= j <= n ==> !TwoBreaksAt(s, j))
    decreases n - lo
  {
    if !TwoBreaksAt(s, n) && n > lo {
      LastTwoBreaksSpec(s, lo, n - 1);
    }
  }

  /** Inside the whitespace run after the tag, every point's run ends where that run does. */
  lemma RunAfterTag(s: string, j: nat)
    requires |Tag| <= j <= |s| && j <= SpaceRunEnd(s, |Tag|)
    ensures SpaceRunEnd(s, j) == SpaceRunEnd(s, |Tag|)
  {
    SpaceRunEndSpaces(s, |Tag|);
    SpaceRunEndIs(s, j, SpaceRunEnd(s, |Tag|));
  }

  /** A whitespace run cannot start at its own end. */
  lemma NoBreakAtRunEnd(s: string, e: nat)
    requires e <= |s| && (e == |s| || !IsSpace(s[e]))
    ensures !TwoBreaksAt(s, e)
  {
    SpaceRunEndIs(s, e, e);
  }

  /** A separator at `b` is a point where `\s*\n\s*\n` matches. */
  lemma SepBreaks(s: string, b: nat, c: nat)
    requires SepAt(s, b, c)
    ensures TwoBreaksAt(s, b)
  {
    var r := SpaceRunEnd(s, b);
    assert c <= r;
    NewlinesInWithin(s, b, r, b, c);
  }

  /** Where `\s*\n\s*\n` matches at `b`, the separator can end just past the last newline
      of the run. */
  lemma SepFrom(s: string, b: nat) returns (c: nat)
    requires TwoBreaksAt(s, b)
    ensures SepAt(s, b, c) && c <= SpaceRunEnd(s, b)
  {
    var r := SpaceRunEnd(s, b);
    SpaceRunEndSpaces(s, b);
    c := LastNewline(s, b, r);
  }

  /** The stretch from `lo` up to and including its last newline holds all its newlines. */
  lemma {:induction false} LastNewline(s: string, lo: nat, hi: nat) returns (c: nat)
    requires lo <= hi <= |s| && NewlinesIn(s, lo, hi) >= 1
    ensures lo < c <= hi && s[c - 1] == '\n' && NewlinesIn(s, lo, c) == NewlinesIn(s, lo, hi)
    decreases hi - lo
  {
    if s[hi - 1] == '\n' {
      c := hi;
    } else {
      c := LastNewline(s, lo, hi - 1);
    }
  }

  /** Every split has its title start inside the run after the tag and its title end at a
      point where the break matches. */
  lemma SplitBounds(s: string, a: nat, b: nat, c: nat)
    requires RegexSplit(s, a, b, c)
    ensures a <= SpaceRunEnd(s, |Tag|) && TwoBreaksAt(s, b)
  {
    SepBreaks(s, b, c);
  }

  /** The first point after the run where the lazy group can stop. */
  lemma FirstBreakPastRun(s: string) returns (b: nat)
    requires |Tag| <= |s|
    requires SpaceRunEnd(s, |Tag|) < |s| && FirstTwoBreaks(s, SpaceRunEnd(s, |Tag|) + 1).Some?
    ensures b == FirstTwoBreaks(s, SpaceRunEnd(s, |Tag|) + 1).value
    ensures SpaceRunEnd(s, |Tag|) < b <= |s| && TwoBreaksAt(s, b)
    ensures forall j :: SpaceRunEnd(s, |Tag|) < j < b ==> !TwoBreaksAt(s, j)
  {
    var e := SpaceRunEnd(s, |Tag|);
    b := FirstTwoBreaks(s, e + 1).value;
    FirstTwoBreaksSpec(s, e + 1);
  }

  /** The lazy group stops after the run: the split is the run's end, the stopping point,
      and the last newline of the separator there. */
  lemma TitledSplit(s: string) returns (a: nat, b: nat, c: nat)
    requires FoldPrefix(s, Tag)
    requires SpaceRunEnd(s, |Tag|) < |s| && FirstTwoBreaks(s, SpaceRunEnd(s, |Tag|) + 1).Some?
    ensures RegexSplit(s, a, b, c) && Preferred(s, a, b)
    ensures MatchReply(s) == Match(Strip(s[a..b]), Strip(s[c..]))
  {
    a := SpaceRunEnd(s, |Tag|);
    b, c := TitledRegex(s);
    TitledGroups(s, b, c);
  }

  lemma TitledRegex(s: string) returns (b: nat, c: nat)
    requires FoldPrefix(s, Tag)
    requires SpaceRunEnd(s, |Tag|) < |s| && FirstTwoBreaks(s, SpaceRunEnd(s, |Tag|) + 1).Some?
    ensures b == FirstTwoBreaks(s, SpaceRunEnd(s, |Tag|) + 1).value
    ensures RegexSplit(s, SpaceRunEnd(s, |Tag|), b, c) && Preferred(s, SpaceRunEnd(s, |Tag|), b)
  {
    b := FirstBreakPastRun(s);
    c := SepFrom(s, b);
    SpaceRunEndSpaces(s, |Tag|);
    TitledPreferred(s, b);
  }

  lemma TitledGroups(s: string, b: nat, c: nat)
    requires FoldPrefix(s, Tag)
    requires SpaceRunEnd(s, |Tag|) < |s| && FirstTwoBreaks(s, SpaceRunEnd(s, |Tag|) + 1) == Some(b)
    requires SepAt(s, b, c)
    ensures MatchReply(s) == Match(Strip(s[SpaceRunEnd(s, |Tag|)..b]), Strip(s[c..]))
  {
    StripSkipsSpace(s, b, c);
    MatchTitled(s, SpaceRunEnd(s, |Tag|), b);
  }

  lemma TitledPreferred(s: string, b: nat)
    requires |Tag| <= |s| && SpaceRunEnd(s, |Tag|) < b <= |s|
    requires forall j :: SpaceRunEnd(s, |Tag|) < j < b ==> !TwoBreaksAt(s, j)
    ensures Preferred(s, SpaceRunEnd(s, |Tag|), b)
  {
    forall a': nat, b': nat, c': nat | RegexSplit(s, a', b', c')
      ensures a' < SpaceRunEnd(s, |Tag|) || (a' == SpaceRunEnd(s, |Tag|) && b <= b')
    {
      SplitBounds(s, a', b', c');
    }
  }

  /** No point after the run where the lazy group could stop. */
  lemma NoBreakPastRun(s: string)
    requires |Tag| <= |s|
    requires SpaceRunEnd(s, |Tag|) == |s| || FirstTwoBreaks(s, SpaceRunEnd(s, |Tag|) + 1) == None
    ensures forall j :: SpaceRunEnd(s, |Tag|) <= j <= |s| ==> !TwoBreaksAt(s, j)
  {
    var e := SpaceRunEnd(s, |Tag|);
    NoBreakAtRunEnd(s, e);
    if e < |s| {
      FirstTwoBreaksSpec(s, e + 1);
    }
  }

  /** The last point inside the run after the tag where the break matches. */
  lemma LastBreakInRun(s: string) returns (b: nat)
    requires |Tag| <= |s|
    requires SpaceRunEnd(s, |Tag|) > |Tag| && NewlinesIn(s, |Tag| + 1, SpaceRunEnd(s, |Tag|)) >= 2
    ensures |Tag| < b < SpaceRunEnd(s, |Tag|) && TwoBreaksAt(s, b)
    ensures SpaceRunEnd(s, b) == SpaceRunEnd(s, |Tag|)
    ensures forall j :: b < j <= SpaceRunEnd(s, |Tag|) ==> !TwoBreaksAt(s, j)
  {
    var e := SpaceRunEnd(s, |Tag|);
    RunAfterTag(s, |Tag| + 1);
    assert TwoBreaksAt(s, |Tag| + 1);
    LastTwoBreaksSpec(s, |Tag| + 1, e);
    b := LastTwoBreaks(s, |Tag| + 1, e).value;
    NoBreakAtRunEnd(s, e);
    RunAfterTag(s, b);
  }

  /** The lazy group finds no stopping point after the run, but the run holds two newlines
      past its first character: the engine gives back the run from its last matching point
      on, and the title is the one whitespace character before it. */
  lemma UntitledSplit(s: string) returns (a: nat, b: nat, c: nat)
    requires FoldPrefix(s, Tag)
    requires SpaceRunEnd(s, |Tag|) == |s| || FirstTwoBreaks(s, SpaceRunEnd(s, |Tag|) + 1) == None
    requires SpaceRunEnd(s, |Tag|) > |Tag| && NewlinesIn(s, |Tag| + 1, SpaceRunEnd(s, |Tag|)) >= 2
    ensures RegexSplit(s, a, b, c) && Preferred(s, a, b)
    ensures MatchReply(s) == Match(Strip(s[a..b]), Strip(s[c..]))
  {
    b := LastBreakInRun(s);
    a := b - 1;
    c := SepFrom(s, b);
    SpaceRunEndSpaces(s, |Tag|);
    UntitledStrips(s, b, c);
    MatchEmptyTitle(s, SpaceRunEnd(s, |Tag|));
    UntitledPreferred(s, b);
  }

  /** The one-character title strips to nothing, and the body stripped is the text after
      the whole run. */
  lemma UntitledStrips(s: string, b: nat, c: nat)
    requires |Tag| <= |s| && |Tag| < b < c <= SpaceRunEnd(s, |Tag|)
    ensures Strip(s[b - 1..b]) == "" && Strip(s[c..]) == Strip(s[SpaceRunEnd(s, |Tag|)..])
  {
    SpaceRunEndSpaces(s, |Tag|);
    StripOneSpace(s, b);
    StripSkipsSpace(s, c, SpaceRunEnd(s, |Tag|));
  }

  /** A single whitespace character strips to nothing. */
  lemma StripOneSpace(s: string, b: nat)
    requires 0 < b <= |s| && IsSpace(s[b - 1])
    ensures Strip(s[b - 1..b]) == ""
  {
    StripIs(s[b - 1..b], 0, 0);
  }

  lemma UntitledPreferred(s: string, b: nat)
    requires |Tag| <= |s|
    requires SpaceRunEnd(s, |Tag|) == |s| || FirstTwoBreaks(s, SpaceRunEnd(s, |Tag|) + 1) == None
    requires |Tag| < b < SpaceRunEnd(s, |Tag|)
    requires forall j :: b < j <= SpaceRunEnd(s, |Tag|) ==> !TwoBreaksAt(s, j)
    ensures Preferred(s, b - 1, b)
  {
    NoBreakPastRun(s);
    forall a': nat, b': nat, c': nat | RegexSplit(s, a', b', c')
      ensures a' < b - 1 || (a' == b - 1 && b <= b')
    {
      SplitBounds(s, a', b', c');
    }
  }

  /** When the regex matches, the groups it reports come from the preferred split. */
  lemma PreferredSplit(s: string) returns (a: nat, b: nat, c: nat)
    requires FoldPrefix(s, Tag)
    requires var e := SpaceRunEnd(s, |Tag|);
             || (e < |s| && FirstTwoBreaks(s, e + 1).Some?)
             || (e > |Tag| && NewlinesIn(s, |Tag| + 1, e) >= 2)
    ensures RegexSplit(s, a, b, c) && Preferred(s, a, b)
    ensures MatchReply(s) == Match(Strip(s[a..b]), Strip(s[c..]))
  {
    var e := SpaceRunEnd(s, |Tag|);
    if e < |s| && FirstTwoBreaks(s, e + 1).Some? {
      a, b, c := TitledSplit(s);
    } else {
      a, b, c := UntitledSplit(s);
    }
  }

  /** Any split that fits makes the regex match. */
  lemma SplitMatches(s: string, a: nat, b: nat, c: nat)
    requires RegexSplit(s, a, b, c)
    ensures MatchReply(s).Match?
  {
    var e := SpaceRunEnd(s, |Tag|);
    SplitBounds(s, a, b, c);
    if e < |s| && FirstTwoBreaks(s, e + 1).Some? {
      MatchTitled(s, e, FirstTwoBreaks(s, e + 1).value);
    } else {
      NoBreakPastRun(s);
      RunHoldsTwo(s, b);
      MatchEmptyTitle(s, e);
    }
  }

  /** With no stopping point past the run, a break at `b` lies inside the run, which then
      holds two newlines past its first character. */
  lemma RunHoldsTwo(s: string, b: nat)
    requires |Tag| < b < |s| && b < SpaceRunEnd(s, |Tag|) && TwoBreaksAt(s, b)
    ensures var e := SpaceRunEnd(s, |Tag|); e > |Tag| && NewlinesIn(s, |Tag| + 1, e) >= 2
  {
    var e := SpaceRunEnd(s, |Tag|);
    RunAfterTag(s, b);
    NewlinesInWithin(s, |Tag| + 1, e, b, e);
  }

  /** `MatchReply` is the pattern's match: it fails exactly when no split of `s` fits the
      pattern, and otherwise it reports the stripped groups of the split the engine
      prefers. */
  lemma MatchFollowsRegex(s: string)
    ensures MatchReply(s).NoMatch? <==> forall a: nat, b: nat, c: nat :: !RegexSplit(s, a, b, c)
    ensures MatchReply(s).Match? ==> exists a: nat, b: nat, c: nat ::
              && RegexSplit(s, a, b, c) && Preferred(s, a, b)
              && MatchReply(s) == Match(Strip(s[a..b]), Strip(s[c..]))
  {
    if FoldPrefix(s, Tag) {
      var e := SpaceRunEnd(s, |Tag|);
      if (e < |s| && FirstTwoBreaks(s, e + 1).Some?) || (e > |Tag| && NewlinesIn(s, |Tag| + 1, e) >= 2) {
        var a, b, c := PreferredSplit(s);
      }
    }
    forall a: nat, b: nat, c: nat | RegexSplit(s, a, b, c)
      ensures MatchReply(s).Match?
    {
      SplitMatches(s, a, b, c);
    }
  }

  /** Two preferred splits agree on the title and, once stripped, on the body. */
  lemma PreferredUnique(s: string, a: nat, b: nat, c: nat, a': nat, b': nat, c': nat)
    requires RegexSplit(s, a, b, c) && Preferred(s, a, b)
    requires RegexSplit(s, a', b', c') && Preferred(s, a', b')
    ensures a == a' && b == b' && Strip(s[c..]) == Strip(s[c'..])
  {
    StripSkipsSpace(s, b, c);
    StripSkipsSpace(s, b, c');
  }

  /** `deepseek_article` follows the pattern: with no split of the stripped reply that fits,
      the feed title stays and the stripped reply is the body; otherwise the preferred
      split's stripped groups become the title and the body. */
  lemma ParseFollowsRegex(out: string, itemTitle: string)
    ensures var s, r := Strip(out), ParseArticle(out, itemTitle);
            && ((forall a: nat, b: nat, c: nat :: !RegexSplit(s, a, b, c))
                ==> r == Parsed(Strip(itemTitle), Sanitize(s)))
            && (forall a: nat, b: nat, c: nat ::
                  (RegexSplit(s, a, b, c) && Preferred(s, a, b)
                   ==> r == Parsed(Strip(s[a..b]), Sanitize(Strip(s[c..])))))
  {
    var s := Strip(out);
    MatchFollowsRegex(s);
    forall a: nat, b: nat, c: nat | RegexSplit(s, a, b, c) && Preferred(s, a, b)
      ensures ParseArticle(out, itemTitle) == Parsed(Strip(s[a..b]), Sanitize(Strip(s[c..])))
    {
      SplitMatches(s, a, b, c);
      var a': nat, b': nat, c': nat :| RegexSplit(s, a', b', c') && Preferred(s, a', b')
                                    && MatchReply(s) == Match(Strip(s[a'..b']), Strip(s[c'..]));
      PreferredUnique(s, a, b, c, a', b', c');
    }
  }

  // ---------------------------------------------------------------------------
  // Properties of the parse
  // ---------------------------------------------------------------------------

  /** Whatever the reply, the body has no `<script` opener left and the title has no
      surrounding whitespace. */
  lemma ParseShape(out: string, itemTitle: string)
    ensures var r := ParseArticle(out, itemTitle);
            NoOpener(r.body) && Strip(r.title) == r.title
  {
    var s := Strip(out);
    StripFixed(Strip(itemTitle));
    match MatchReply(s)
    case NoMatch =>
      SanitizeRemovesOpeners(s);
    case Match(t, h) =>
      SanitizeRemovesOpeners(h);
      MatchTitleStripped(s);
  }

  /** The title group comes back stripped. */
  lemma MatchTitleStripped(s: string)
    requires MatchReply(s).Match?
    ensures Strip(MatchReply(s).title) == MatchReply(s).title
  {
    var e := SpaceRunEnd(s, |Tag|);
    var m := if e < |s| then FirstTwoBreaks(s, e + 1) else None;
    if m.Some? {
      StripFixed(Strip(s[e..m.value]));
    } else {
      StripFixed("");
    }
  }

  /** A reply without the tag keeps the feed title and becomes the body whole. */
  lemma ParseUntagged(out: string, itemTitle: string)
    requires !FoldPrefix(Strip(out), Tag)
    ensures ParseArticle(out, itemTitle) == Parsed(Strip(itemTitle), Sanitize(Strip(out)))
  {
  }

  /** When the regex matches, the groups become the title and the body. */
  lemma ParseMatched(out: string, itemTitle: string, t: string, h: string)
    requires MatchReply(Strip(out)) == Match(t, h)
    ensures ParseArticle(out, itemTitle) == Parsed(t, Sanitize(h))
  {
  }

  /** When it does not, the feed title stays and the stripped reply is the body. */
  lemma ParseUnmatched(out: string, itemTitle: string)
    requires MatchReply(Strip(out)) == NoMatch
    ensures ParseArticle(out, itemTitle) == Parsed(Strip(itemTitle), Sanitize(Strip(out)))
  {
  }

  /** The reply the prompt asks for, `TITLE: <title>`, a blank line, then the body, parses
      back into that title and (sanitised) body. Any whitespace may follow the tag, blank
      lines included, so a title placed on its own paragraph is found too. */
  lemma ParseRoundTrip(w: string, t: string, b: string, itemTitle: string)
    requires forall j :: 0 <= j < |w| ==> IsSpace(w[j])
    requires t != [] && !IsSpace(t[0]) && !IsSpace(t[|t| - 1]) && '\n' !in t
    requires b != [] && !IsSpace(b[0]) && !IsSpace(b[|b| - 1])
    ensures ParseArticle("TITLE:" + w + t + "\n\n" + b, itemTitle) == Parsed(t, Sanitize(b))
  {
    var s := "TITLE:" + w + t + "\n\n" + b;
    var n := 6 + |w|;
    var brk := n + |t|;
    RoundTripLayout(s, w, t, b, n, brk);
    MatchStrippedLayout(s, n, brk);
    ParseMatched(s, itemTitle, t, b);
  }

  /** The layout of the round trip holds its own strip and matches as laid out. */
  lemma MatchStrippedLayout(s: string, n: nat, brk: nat)
    requires |s| >= 6 && s[..6] == "TITLE:" && s[0] == 'T'
    requires 6 <= n < brk && brk + 2 < |s|
    requires forall j :: 6 <= j < n ==> IsSpace(s[j])
    requires !IsSpace(s[n]) && !IsSpace(s[brk - 1])
    requires forall m :: n <= m < brk ==> s[m] != '\n'
    requires s[brk] == '\n' && s[brk + 1] == '\n' && !IsSpace(s[brk + 2]) && !IsSpace(s[|s| - 1])
    ensures MatchReply(Strip(s)) == Match(s[n..brk], s[brk + 2..])
  {
    StripFixed(s);
    MatchLayout(s, n, brk);
  }

  /** The character facts of the round-trip layout. */
  lemma RoundTripLayout(s: string, w: string, t: string, b: string, n: nat, brk: nat)
    requires t != [] && b != [] && s == "TITLE:" + w + t + "\n\n" + b
    requires !IsSpace(t[0]) && !IsSpace(t[|t| - 1]) && '\n' !in t
    requires !IsSpace(b[0]) && !IsSpace(b[|b| - 1])
    requires forall j :: 0 <= j < |w| ==> IsSpace(w[j])
    requires n == 6 + |w| && brk == n + |t|
    ensures |s| >= 6 && s[..6] == "TITLE:" && s[0] == 'T'
    ensures 6 <= n < brk && brk + 2 < |s|
    ensures forall j :: 6 <= j < n ==> IsSpace(s[j])
    ensures !IsSpace(s[n]) && !IsSpace(s[brk - 1])
    ensures forall m :: n <= m < brk ==> s[m] != '\n'
    ensures s[brk] == '\n' && s[brk + 1] == '\n' && !IsSpace(s[brk + 2]) && !IsSpace(s[|s| - 1])
    ensures s[n..brk] == t && s[brk + 2..] == b
  {
    forall j | 6 <= j < n
      ensures IsSpace(s[j])
    {
      assert s[j] == w[j - 6];
    }
    forall m | n <= m < brk
      ensures s[m] != '\n'
    {
      assert s[m] == t[m - n];
    }
    assert s[n] == t[0] && s[brk - 1] == t[|t| - 1];
    assert s[brk + 2] == b[0] && s[|s| - 1] == b[|b| - 1];
  }

  /** With the title on a later paragraph and a single line after the tag, the regex has
      nothing to put in the title: the tag line stays in the body and the feed title is
      kept. */
  lemma ParseTagOnly(b: string, itemTitle: string)
    requires b != [] && !IsSpace(b[0]) && !IsSpace(b[|b| - 1]) && '\n' !in b
    ensures ParseArticle("TITLE:\n\n" + b, itemTitle)
            == Parsed(Strip(itemTitle), Sanitize("TITLE:\n\n" + b))
  {
    MatchTagOnly("TITLE:\n\n" + b, b);
    ParseUnmatched("TITLE:\n\n" + b, itemTitle);
  }

  lemma MatchTagOnly(s: string, b: string)
    requires s == "TITLE:\n\n" + b
    requires b != [] && !IsSpace(b[0]) && !IsSpace(b[|b| - 1]) && '\n' !in b
    ensures Strip(s) == s && MatchReply(s) == NoMatch
  {
    OneLineLayout(s, "\n\n", b);
    StripFixed(s);
    assert s[7..8] == "\n";
    MatchOneLine(s, 8);
  }

  /** Three newlines after the tag and then a single line: the title group is one of the
      newlines, so the title comes back empty and the rest is the body. */
  lemma ParseBlankTitle(b: string, itemTitle: string)
    requires b != [] && !IsSpace(b[0]) && !IsSpace(b[|b| - 1]) && '\n' !in b
    ensures ParseArticle("TITLE:\n\n\n" + b, itemTitle) == Parsed("", Sanitize(b))
  {
    MatchBlankTitle("TITLE:\n\n\n" + b, b);
    ParseMatched("TITLE:\n\n\n" + b, itemTitle, "", b);
  }

  lemma MatchBlankTitle(s: string, b: string)
    requires s == "TITLE:\n\n\n" + b
    requires b != [] && !IsSpace(b[0]) && !IsSpace(b[|b| - 1]) && '\n' !in b
    ensures MatchReply(Strip(s)) == Match("", b)
  {
    OneLineLayout(s, "\n\n\n", b);
    StripFixed(s);
    assert s[7] == '\n' && s[8] == '\n';
    assert NewlinesIn(s, 7, 8) == 1;
    MatchOneLine(s, 9);
  }

  /** The character facts of the tag, whitespace `w`, then one line `b`. */
  lemma OneLineLayout(s: string, w: string, b: string)
    requires b != [] && s == "TITLE:" + w + b && '\n' !in b
    requires forall j :: 0 <= j < |w| ==> IsSpace(w[j])
    ensures |s| == 6 + |w| + |b| && s[..6] == "TITLE:" && s[0] == 'T'
    ensures forall j :: 6 <= j < 6 + |w| ==> IsSpace(s[j])
    ensures forall m :: 6 + |w| <= m < |s| ==> s[m] != '\n'
    ensures s[6 + |w|..] == b && s[6 + |w|] == b[0] && s[|s| - 1] == b[|b| - 1]
    ensures forall j :: 6 <= j < 6 + |w| ==> s[j] == w[j - 6]
  {
    forall j | 6 <= j < 6 + |w|
      ensures s[j] == w[j - 6] && IsSpace(s[j])
    {
    }
    forall m | 6 + |w| <= m < |s|
      ensures s[m] != '\n'
    {
      assert s[m] == b[m - 6 - |w|];
    }
  }
}

=== FILE: feed.dfy ===
/** The choices `write_rss_feed` in `pipeline/generate.py` makes: which articles the feed
    lists, and the description an item gets when its article has no summary (the body
    with its tags blanked out, whitespace collapsed, stripped, cut to 240 characters). */
module Feed {
  import opened Text
  import opened Sorting
  import opened Archive

  // ---------------------------------------------------------------------------
  // The listed articles
  // ---------------------------------------------------------------------------

  /** `sorted(articles, key=published_ts, reverse=True)[:limit]`. */
  function FeedItems(articles: seq<Article>, limit: nat): seq<Article> {
    Take(ComputeRankings(articles), limit)
  }

  /** The feed lists `limit` articles of the archive (or all of them), newest first, and
      every archive article it leaves out is no newer than any it lists. */
  lemma FeedItemsNewest(articles: seq<Article>, limit: nat)
    ensures var r := FeedItems(articles, limit);
            && |r| == (if limit < |articles| then limit else |articles|)
            && multiset(r) <= multiset(articles)
            && (forall i, j :: 0 <= i < j < |r| ==> StrLe(r[j].publishedTs, r[i].publishedTs))
            && (forall y :: y in multiset(articles) - multiset(r) ==>
                  forall i :: 0 <= i < |r| ==> StrLe(y.publishedTs, r[i].publishedTs))
  {
    var sorted := ComputeRankings(articles);
    ComputeRankingsCorrect(articles);
    var r := FeedItems(articles, limit);
    var rest := sorted[|r|..];
    assert sorted == r + rest;
    assert multiset(sorted) == multiset(r) + multiset(rest);
    forall y | y in multiset(articles) - multiset(r)
      ensures forall i :: 0 <= i < |r| ==> StrLe(y.publishedTs, r[i].publishedTs)
    {
      assert y in multiset(rest);
      var k :| 0 <= k < |rest| && rest[k] == y;
      assert sorted[|r| + k] == y;
    }
  }

  // ---------------------------------------------------------------------------
  // re.sub(r"(?is)<[^>]+>", " ", ...)
  // ---------------------------------------------------------------------------

  /** `re.sub(r"(?is)<[^>]+>", " ", s)`: scanning from the left, a `<` that has another
      character and then a `>` after it opens a tag reaching to the first such `>`, and
      the whole tag becomes one space; everything else is copied. */
  function StripTags(s: string): string
    decreases |s|
  {
    if |s| == 0 then []
    else if s[0] == '<' && 1 < IndexFrom(s, '>', 1) < |s| then
      " " + StripTags(s[IndexFrom(s, '>', 1) + 1..])
    else [s[0]] + StripTags(s[1..])
  }

  /** The tag pattern matches nowhere in `r`: a `<` with a `>` anywhere after it is
      immediately followed by `>`. */
  predicate Tagless(r: string) {
    forall i, j :: 0 <= i < j < |r| && r[i] == '<' && r[j] == '>' ==> r[i + 1] == '>'
  }

  lemma TaglessSlice(s: string, a: nat, b: nat)
    requires a <= b <= |s| && Tagless(s)
    ensures Tagless(s[a..b])
  {
    var x := s[a..b];
    forall i, j | 0 <= i < j < |x| && x[i] == '<' && x[j] == '>'
      ensures x[i + 1] == '>'
    {
      assert s[a + i] == '<' && s[a + j] == '>';
    }
  }

  /** A character other than `<` in front of tagless text keeps it tagless. */
  lemma TaglessCons(c: char, r: string)
    requires c != '<' && Tagless(r)
    ensures Tagless([c] + r)
  {
    var x := [c] + r;
    forall i, j | 0 <= i < j < |x| && x[i] == '<' && x[j] == '>'
      ensures x[i + 1] == '>'
    {
      assert r[i - 1] == '<' && r[j - 1] == '>';
    }
  }

  /** A `<` in front of tagless text keeps it tagless when no `>` follows it, or when
      one follows it at once. */
  lemma TaglessOpen(r: string)
    requires Tagless(r)
    requires '>' !in r || (r != [] && r[0] == '>')
    ensures Tagless(['<'] + r)
  {
    var x := ['<'] + r;
    forall i, j | 0 <= i < j < |x| && x[i] == '<' && x[j] == '>'
      ensures x[i + 1] == '>'
    {
      if i > 0 {
        assert r[i - 1] == '<' && r[j - 1] == '>';
      } else {
        assert r[j - 1] == '>';
      }
    }
  }

  /** `StripTags` writes only characters of its input and spaces. */
  lemma {:induction false} StripTagsChars(s: string)
    ensures forall c :: c in StripTags(s) ==> c in s || c == ' '
    decreases |s|
  {
    if |s| > 0 {
      if s[0] == '<' && 1 < IndexFrom(s, '>', 1) < |s| {
        var j := IndexFrom(s, '>', 1);
        StripTagsChars(s[j + 1..]);
        forall c | c in s[j + 1..]
          ensures c in s
        {
          var k :| 0 <= k < |s[j + 1..]| && s[j + 1..][k] == c;
          assert s[j + 1 + k] == c;
        }
      } else {
        StripTagsChars(s[1..]);
        forall c | c in s[1..]
          ensures c in s
        {
          var k :| 0 <= k < |s[1..]| && s[1..][k] == c;
          assert s[1 + k] == c;
        }
      }
    }
  }

  /** After `StripTags`, the tag pattern matches nowhere. */
  lemma {:induction false} StripTagsTagless(s: string)
    ensures Tagless(StripTags(s))
    decreases |s|
  {
    if |s| > 0 {
      if s[0] == '<' && 1 < IndexFrom(s, '>', 1) < |s| {
        var j := IndexFrom(s, '>', 1);
        StripTagsTagless(s[j + 1..]);
        TaglessCons(' ', StripTags(s[j + 1..]));
      } else {
        var rest := StripTags(s[1..]);
        StripTagsTagless(s[1..]);
        if s[0] == '<' {
          StripTagsChars(s[1..]);
          if '>' in rest {
            assert '>' in s[1..];
            var k :| 0 <= k < |s[1..]| && s[1..][k] == '>';
            assert IndexFrom(s, '>', 1) <= 1 + k;
            assert s[1] == '>' && s[1..][0] == '>';
            assert rest[0] == '>';
          }
          TaglessOpen(rest);
        } else {
          TaglessCons(s[0], rest);
        }
      }
    }
  }

  /** Text where the pattern matches nowhere comes back unchanged; with
      `StripTagsTagless`, `StripTags(s) == s` exactly when `s` is tagless. */
  lemma {:induction false} StripTagsFixed(s: string)
    requires Tagless(s)
    ensures StripTags(s) == s
    decreases |s|
  {
    if |s| > 0 {
      var j := IndexFrom(s, '>', 1);
      if s[0] == '<' && 1 < j < |s| {
        assert false;
      }
      TaglessSlice(s, 1, |s|);
      StripTagsFixed(s[1..]);
      assert s == [s[0]] + s[1..];
    }
  }

  // ---------------------------------------------------------------------------
  // re.sub(r"\s+", " ", ...)
  // ---------------------------------------------------------------------------

  /** `re.sub(r"\s+", " ", s)`: every whitespace run becomes one space. */
  function Collapse(s: string): string
    decreases |s|
  {
    if |s| == 0 then []
    else if IsSpace(s[0]) then " " + Collapse(s[SpaceRunEnd(s, 0)..])
    else [s[0]] + Collapse(s[1..])
  }

  /** The only whitespace is single spaces. */
  predicate SingleSpaced(r: string) {
    forall i :: 0 <= i < |r| && IsSpace(r[i]) ==> r[i] == ' ' && (i + 1 < |r| ==> !IsSpace(r[i + 1]))
  }

  lemma SingleSpacedSlice(s: string, a: nat, b: nat)
    requires a <= b <= |s| && SingleSpaced(s)
    ensures SingleSpaced(s[a..b])
  {
    var x := s[a..b];
    forall i | 0 <= i < |x| && IsSpace(x[i])
      ensures x[i] == ' ' && (i + 1 < |x| ==> !IsSpace(x[i + 1]))
    {
      assert x[i] == s[a + i];
      if i + 1 < |x| {
        assert x[i + 1] == s[a + i + 1];
      }
    }
  }

  /** `Collapse` starts with the first character when that is not whitespace. */
  lemma CollapseHead(s: string)
    requires s != [] && !IsSpace(s[0])
    ensures Collapse(s) != [] && Collapse(s)[0] == s[0]
  {
  }

  /** `Collapse` writes only characters of its input and spaces. */
  lemma {:induction false} CollapseChars(s: string)
    ensures forall c :: c in Collapse(s) ==> c in s || c == ' '
    decreases |s|
  {
    if |s| > 0 {
      var k := if IsSpace(s[0]) then SpaceRunEnd(s, 0) else 1;
      CollapseChars(s[k..]);
      forall c | c in s[k..]
        ensures c in s
      {
        var m :| 0 <= m < |s[k..]| && s[k..][m] == c;
        assert s[k + m] == c;
      }
    }
  }

  lemma {:induction false} CollapseSingleSpaced(s: string)
    ensures SingleSpaced(Collapse(s))
    decreases |s|
  {
    if |s| > 0 {
      if IsSpace(s[0]) {
        var e := SpaceRunEnd(s, 0);
        var rest := Collapse(s[e..]);
        CollapseSingleSpaced(s[e..]);
        if e < |s| {
          CollapseHead(s[e..]);
        }
        var x := " " + rest;
        forall i | 0 <= i < |x| && IsSpace(x[i])
          ensures x[i] == ' ' && (i + 1 < |x| ==> !IsSpace(x[i + 1]))
        {
          if i > 0 {
            assert x[i] == rest[i - 1];
          }
        }
      } else {
        var rest := Collapse(s[1..]);
        CollapseSingleSpaced(s[1..]);
        var x := [s[0]] + rest;
        forall i | 0 <= i < |x| && IsSpace(x[i])
          ensures x[i] == ' ' && (i + 1 < |x| ==> !IsSpace(x[i + 1]))
        {
          assert x[i] == rest[i - 1];
        }
      }
    }
  }

  /** Text already single-spaced comes back unchanged; with `CollapseSingleSpaced`,
      `Collapse(s) == s` exactly when `s` is single-spaced. */
  lemma {:induction false} CollapseFixed(s: string)
    requires SingleSpaced(s)
    ensures Collapse(s) == s
    decreases |s|
  {
    if |s| > 0 {
      if IsSpace(s[0]) {
        assert s[0] == ' ';
        assert SpaceRunEnd(s, 0) == 1;
      }
      SingleSpacedSlice(s, 1, |s|);
      CollapseFixed(s[1..]);
      assert s == [s[0]] + s[1..];
    }
  }

  /** Collapsing whitespace does not create a tag. */
  lemma {:induction false} CollapseTagless(s: string)
    requires Tagless(s)
    ensures Tagless(Collapse(s))
    decreases |s|
  {
    if |s| > 0 {
      if IsSpace(s[0]) {
        var e := SpaceRunEnd(s, 0);
        TaglessSlice(s, e, |s|);
        CollapseTagless(s[e..]);
        TaglessCons(' ', Collapse(s[e..]));
      } else {
        var rest := Collapse(s[1..]);
        TaglessSlice(s, 1, |s|);
        CollapseTagless(s[1..]);
        if s[0] == '<' {
          CollapseChars(s[1..]);
          if '>' in rest {
            assert '>' in s[1..];
            var k :| 0 <= k < |s[1..]| && s[1..][k] == '>';
            assert s[1 + k] == '>';
            assert s[1] == '>';
            CollapseHead(s[1..]);
          }
          TaglessOpen(rest);
        } else {
          TaglessCons(s[0], rest);
        }
      }
    }
  }

  // ---------------------------------------------------------------------------
  // The item description
  // ---------------------------------------------------------------------------

  /** The most characters of body text a description keeps. */
  const DescriptionLimit: nat := 240

  /** The `<description>` text of a feed item: the summary, or when it is empty the body
      as plain text. */
  function Description(summary: string, bodyHtml: string): string {
    if summary != [] then summary
    else Take(Strip(Collapse(StripTags(bodyHtml))), DescriptionLimit)
  }

  /** Without a summary, the description is at most 240 characters of the body in which
      the tag pattern matches nowhere, whitespace is single spaces and nothing leads with
      whitespace. */
  lemma DescriptionFallback(bodyHtml: string)
    ensures var r := Description("", bodyHtml);
            && |r| <= DescriptionLimit
            && Tagless(r)
            && SingleSpaced(r)
            && (r == [] || !IsSpace(r[0]))
  {
    var t := StripTags(bodyHtml);
    StripTagsTagless(bodyHtml);
    CollapseTagless(t);
    CollapseSingleSpaced(t);
    StripKeepsPlain(Collapse(t));
    var st := Strip(Collapse(t));
    var r := Take(st, DescriptionLimit);
    TaglessSlice(st, 0, |r|);
    SingleSpacedSlice(st, 0, |r|);
  }

  /** Stripping keeps text tagless and single-spaced. */
  lemma StripKeepsPlain(c: string)
    requires Tagless(c) && SingleSpaced(c)
    ensures Tagless(Strip(c)) && SingleSpaced(Strip(c))
  {
    var a := SpaceRunEnd(c, 0);
    var st := Strip(c);
    assert st == c[a..a + |st|];
    TaglessSlice(c, a, a + |st|);
    SingleSpacedSlice(c, a, a + |st|);
  }

  /** A non-empty summary is used as it is; without one, the description is plain text
      cut to 240 characters, as `DescriptionFallback` states. */
  lemma DescriptionSpec(summary: string, bodyHtml: string)
    ensures var r := Description(summary, bodyHtml);
            && (summary != [] ==> r == summary)
            && (summary == [] ==>
                  && |r| <= DescriptionLimit
                  && Tagless(r)
                  && SingleSpaced(r)
                  && (r == [] || !IsSpace(r[0])))
  {
    if summary == [] {
      DescriptionFallback(bodyHtml);
    }
  }

  /** Body text that is already plain, single-spaced, stripped and short is its own
      description. */
  lemma DescriptionOfPlainText(bodyHtml: string)
    requires Tagless(bodyHtml) && SingleSpaced(bodyHtml) && |bodyHtml| <= DescriptionLimit
    requires bodyHtml == [] || (!IsSpace(bodyHtml[0]) && !IsSpace(bodyHtml[|bodyHtml| - 1]))
    ensures Description("", bodyHtml) == bodyHtml
  {
    StripTagsFixed(bodyHtml);
    CollapseFixed(bodyHtml);
    StripFixed(bodyHtml);
  }
}

=== FILE: processed.dfy ===
/** The processed-links file of `pipeline/generate.py`: `load_processed` reads it as the
    set of normalised non-blank lines, and `append_processed` adds one normalised link
    to it. The file is modelled by its text; a missing file reads as "". */
module Processed {
  import opened Text
  import opened Util

  // ---------------------------------------------------------------------------
  // str.splitlines
  // ---------------------------------------------------------------------------

  /** The first line boundary at or after `i`, or `|s|`. */
  function BreakFrom(s: string, i: nat): (k: nat)
    requires i <= |s|
    ensures i <= k <= |s|
    ensures k < |s| ==> IsLineBreak(s[k])
    decreases |s| - i
  {
    if i == |s| || IsLineBreak(s[i]) then i else BreakFrom(s, i + 1)
  }

  /** `BreakFrom` finds the first boundary: none comes before it. */
  lemma {:induction false} BreakFromFirst(s: string, i: nat)
    requires i <= |s|
    ensures forall j :: i <= j < BreakFrom(s, i) ==> !IsLineBreak(s[j])
    decreases |s| - i
  {
    if i < |s| && !IsLineBreak(s[i]) {
      BreakFromFirst(s, i + 1);
    }
  }

  /** A boundary is one character, except that `\r\n` counts as one boundary. */
  function BreakLength(s: string, k: nat): (n: nat)
    requires k < |s|
    ensures 1 <= n <= 2 && k + n <= |s|
  {
    if s[k] == '\r' && k + 1 < |s| && s[k + 1] == '\n' then 2 else 1
  }

  /** `s.splitlines()`: the lines without their boundaries; a boundary at the very end
      does not start another line. */
  function SplitLines(s: string): seq<string>
    decreases |s|
  {
    if |s| == 0 then []
    else
      var k := BreakFrom(s, 0);
      if k == |s| then [s]
      else [s[..k]] + SplitLines(s[k + BreakLength(s, k)..])
  }

  /** Lines joined back with `\n` after each one. */
  function JoinLines(lines: seq<string>): string {
    if |lines| == 0 then [] else lines[0] + "\n" + JoinLines(lines[1..])
  }

  /** Splitting undoes joining, for lines without a boundary character. */
  lemma {:induction false} SplitJoin(lines: seq<string>)
    requires forall i, j :: 0 <= i < |lines| && 0 <= j < |lines[i]| ==> !IsLineBreak(lines[i][j])
    ensures SplitLines(JoinLines(lines)) == lines
  {
    if |lines| > 0 {
      var x, rest := lines[0], JoinLines(lines[1..]);
      var s := x + "\n" + rest;
      assert JoinLines(lines) == s;
      BreakFromIs(s, 0, |x|);
      assert BreakLength(s, |x|) == 1;
      assert s[..|x|] == x;
      assert s[|x| + 1..] == rest;
      SplitJoin(lines[1..]);
      assert lines == [x] + lines[1..];
    }
  }

  lemma BreakFromIs(s: string, i: nat, k: nat)
    requires i <= k <= |s|
    requires forall j :: i <= j < k ==> !IsLineBreak(s[j])
    requires k == |s| || IsLineBreak(s[k])
    ensures BreakFrom(s, i) == k
    decreases k - i
  {
    if i < k {
      BreakFromIs(s, i + 1, k);
    }
  }

  /** A line that ends in a non-boundary character, then `\n`, splits as itself followed
      by the lines of what comes after. */
  lemma SplitAfterLine(x: string, rest: string)
    requires |x| > 0 && !IsLineBreak(x[|x| - 1])
    ensures SplitLines(x + "\n" + rest) == SplitLines(x) + SplitLines(rest)
  {
    var s := x + "\n" + rest;
    assert s[..|x|] == x && s[|x|] == '\n' && s[|x| + 1..] == rest;
    SplitAtNewline(s, |x|);
  }

  /** The same, for a `\n` at position `n` of `s`. */
  lemma {:induction false} SplitAtNewline(s: string, n: nat)
    requires 0 < n < |s| && s[n] == '\n' && !IsLineBreak(s[n - 1])
    ensures SplitLines(s) == SplitLines(s[..n]) + SplitLines(s[n + 1..])
    decreases n, 2
  {
    var k := BreakFrom(s, 0);
    BreakInPrefix(s, n);
    if k == n {
      SplitFirstLine(s, k);
      SplitOnlyLine(s[..n]);
    } else {
      PrefixFirstLine(s, n, k);
      SplitBeforeNewline(s, n, k, k + BreakLength(s, k));
    }
  }

  /** `SplitAtNewline` when `s` has an earlier boundary at `k`: both sides begin with the
      line before it, and the rest is the same split one line on. */
  lemma {:induction false} SplitBeforeNewline(s: string, n: nat, k: nat, m: nat)
    requires 0 < n < |s| && s[n] == '\n' && !IsLineBreak(s[n - 1])
    requires k == BreakFrom(s, 0) < n && m == k + BreakLength(s, k) < n
    requires SplitLines(s[..n]) == [s[..k]] + SplitLines(s[m..][..n - m])
    ensures SplitLines(s) == SplitLines(s[..n]) + SplitLines(s[n + 1..])
    decreases n, 1
  {
    SplitFirstLine(s, k);
    RestSplit(s, n, m);
    ConsRegroup(SplitLines(s), SplitLines(s[..n]), SplitLines(s[m..]),
                SplitLines(s[m..][..n - m]), SplitLines(s[n + 1..]), s[..k]);
  }

  /** `x` followed by `p + q`, against `x` followed by `p`, then `q`. */
  lemma ConsRegroup<T>(whole: seq<T>, front: seq<T>, rest: seq<T>, p: seq<T>, q: seq<T>, x: T)
    requires whole == [x] + rest && front == [x] + p && rest == p + q
    ensures whole == front + q
  {
    AppendAssoc([x], p, q);
  }

  lemma PrefixFirstLine(s: string, n: nat, k: nat)
    requires 0 < n < |s| && s[n] == '\n' && !IsLineBreak(s[n - 1])
    requires BreakFrom(s[..n], 0) == k < n
    requires k + BreakLength(s, k) < n && BreakLength(s[..n], k) == BreakLength(s, k)
    ensures SplitLines(s[..n]) == [s[..k]] + SplitLines(s[k + BreakLength(s, k)..][..n - k - BreakLength(s, k)])
  {
    var m := k + BreakLength(s, k);
    var x := s[..n];
    SplitFirstLine(x, k);
    assert x[..k] == s[..k];
    assert x[m..] == s[m..][..n - m];
  }

  lemma {:induction false} RestSplit(s: string, n: nat, m: nat)
    requires 0 < m < n < |s| && s[n] == '\n' && !IsLineBreak(s[n - 1])
    ensures SplitLines(s[m..]) == SplitLines(s[m..][..n - m]) + SplitLines(s[n + 1..])
    decreases n, 0
  {
    assert s[m..][n - m] == '\n' && s[m..][n - m - 1] == s[n - 1];
    SplitAtNewline(s[m..], n - m);
    assert s[m..][n - m + 1..] == s[n + 1..];
  }

  /** Cutting `s` at a `\n` that follows a non-boundary keeps its first boundary. */
  lemma BreakInPrefix(s: string, n: nat)
    requires 0 < n < |s| && s[n] == '\n' && !IsLineBreak(s[n - 1])
    ensures var k := BreakFrom(s, 0);
      && BreakFrom(s[..n], 0) == k <= n
      && (k < n ==> k + BreakLength(s, k) < n && BreakLength(s[..n], k) == BreakLength(s, k))
  {
    var k := BreakFrom(s, 0);
    var x := s[..n];
    BreakFromFirst(s, 0);
    assert forall j :: 0 <= j < n ==> x[j] == s[j];
    if k < n {
      BreakFromIs(x, 0, k);
    } else {
      BreakFromIs(x, 0, n);
    }
  }

  /** One step of `splitlines`: the first line, then the lines after its boundary. */
  lemma SplitFirstLine(s: string, k: nat)
    requires |s| > 0 && k == BreakFrom(s, 0) && k < |s|
    ensures SplitLines(s) == [s[..k]] + SplitLines(s[k + BreakLength(s, k)..])
  {
  }

  /** Text without a boundary is one line. */
  lemma SplitOnlyLine(s: string)
    requires |s| > 0 && BreakFrom(s, 0) == |s|
    ensures SplitLines(s) == [s]
  {
  }

  /** The text after the first line boundary of `s`. */
  function AfterFirst(s: string): (r: string)
    requires BreakFrom(s, 0) < |s|
    ensures |r| < |s|
  {
    var k := BreakFrom(s, 0);
    s[k + BreakLength(s, k)..]
  }

  // ---------------------------------------------------------------------------
  // Sets read line by line
  // ---------------------------------------------------------------------------

  predicate AllSpace(x: string) {
    forall j :: 0 <= j < |x| ==> IsSpace(x[j])
  }

  /** Non-empty and ending in a non-space: what `rstrip` leaves when it leaves anything. */
  predicate EndsInText(x: string) {
    x != [] && !IsSpace(x[|x| - 1])
  }

  /** The union of what each line contributes under `f`. */
  function LinesSet(lines: seq<string>, f: string -> set<string>): set<string> {
    if |lines| == 0 then {} else f(lines[0]) + LinesSet(lines[1..], f)
  }

  /** Every member comes from some line. */
  lemma {:induction false} LinesSetFrom(lines: seq<string>, f: string -> set<string>, u: string)
    requires u in LinesSet(lines, f)
    ensures exists i :: 0 <= i < |lines| && u in f(lines[i])
  {
    if u !in f(lines[0]) {
      LinesSetFrom(lines[1..], f, u);
      var i :| 0 <= i < |lines[1..]| && u in f(lines[1..][i]);
      assert lines[i + 1] == lines[1..][i];
    }
  }

  /** Every line contributes. */
  lemma {:induction false} LinesSetHas(lines: seq<string>, f: string -> set<string>, i: nat)
    requires i < |lines|
    ensures f(lines[i]) <= LinesSet(lines, f)
  {
    if i > 0 {
      LinesSetHas(lines[1..], f, i - 1);
      assert lines[1..][i - 1] == lines[i];
    }
  }

  lemma {:induction false} LinesSetAppend(a: seq<string>, b: seq<string>, f: string -> set<string>)
    ensures LinesSet(a + b, f) == LinesSet(a, f) + LinesSet(b, f)
  {
    if |a| == 0 {
      assert a + b == b;
    } else {
      assert (a + b)[0] == a[0];
      assert (a + b)[1..] == a[1..] + b;
      LinesSetAppend(a[1..], b, f);
    }
  }

  lemma LinesSetOne(x: string, f: string -> set<string>)
    ensures LinesSet([x], f) == f(x)
  {
    assert [x][1..] == [];
  }

  lemma LinesSetCons(x: string, rest: seq<string>, f: string -> set<string>)
    ensures LinesSet([x] + rest, f) == f(x) + LinesSet(rest, f)
  {
    assert ([x] + rest)[1..] == rest;
  }

  /** The lines of `content` under `f`. */
  function LoadWith(content: string, f: string -> set<string>): set<string> {
    LinesSet(SplitLines(content), f)
  }

  /** A value is in the union exactly when some line contributes it. */
  lemma LinesSetIff(lines: seq<string>, f: string -> set<string>, u: string)
    ensures u in LinesSet(lines, f) <==> exists i :: 0 <= i < |lines| && u in f(lines[i])
  {
    if u in LinesSet(lines, f) {
      LinesSetFrom(lines, f, u);
    } else {
      forall i | 0 <= i < |lines|
        ensures u !in f(lines[i])
      {
        LinesSetHas(lines, f, i);
      }
    }
  }

  /** The first line of `s` and what follows its boundary. */
  lemma LoadCons(s: string, f: string -> set<string>)
    requires |s| > 0
    ensures BreakFrom(s, 0) == |s| ==> LoadWith(s, f) == f(s)
    ensures BreakFrom(s, 0) < |s| ==>
              LoadWith(s, f) == f(s[..BreakFrom(s, 0)]) + LoadWith(AfterFirst(s), f)
  {
    var k := BreakFrom(s, 0);
    if k == |s| {
      assert SplitLines(s) == [s];
      LinesSetOne(s, f);
    } else {
      var rest := SplitLines(AfterFirst(s));
      assert SplitLines(s) == [s[..k]] + rest;
      LinesSetCons(s[..k], rest, f);
    }
  }

  /** `f` ignores whitespace: a line of spaces gives nothing, and spaces after the text of
      a line change nothing. */
  ghost predicate SpaceBlind(f: string -> set<string>) {
    && (forall x :: AllSpace(x) ==> f(x) == {})
    && (forall x, y :: EndsInText(x) && AllSpace(y) ==> f(x + y) == f(x))
  }

  /** Under such an `f`, a text of whitespace gives nothing. */
  lemma {:induction false} AllSpaceLoadsNothing(w: string, f: string -> set<string>)
    requires SpaceBlind(f) && AllSpace(w)
    ensures LoadWith(w, f) == {}
    decreases |w|
  {
    if |w| > 0 {
      var k := BreakFrom(w, 0);
      LoadCons(w, f);
      assert AllSpace(w[..k]);
      if k < |w| {
        var rest := AfterFirst(w);
        assert AllSpace(rest);
        AllSpaceLoadsNothing(rest, f);
      }
    }
  }

  /** Under such an `f`, whitespace after text ending in a non-space changes nothing. */
  lemma {:induction false} TrailingSpaceLoadsSame(p: string, w: string, f: string -> set<string>)
    requires SpaceBlind(f) && AllSpace(w)
    requires p == [] || EndsInText(p)
    ensures LoadWith(p + w, f) == LoadWith(p, f)
    decreases |p|
  {
    if p == [] {
      assert p + w == w;
      AllSpaceLoadsNothing(w, f);
    } else if BreakFrom(p, 0) == |p| {
      LastLineThenSpace(p, w, f);
    } else {
      EarlyBreak(p, w, f);
      TrailingSpaceLoadsSame(AfterFirst(p), w, f);
    }
  }

  /** `p` is a single line: the spaces up to the first boundary join it, and the lines
      after are whitespace. */
  lemma LastLineThenSpace(p: string, w: string, f: string -> set<string>)
    requires SpaceBlind(f) && AllSpace(w)
    requires EndsInText(p) && BreakFrom(p, 0) == |p|
    ensures LoadWith(p + w, f) == LoadWith(p, f)
  {
    var c := p + w;
    FirstBreakInTail(p, w);
    var k := BreakFrom(c, 0);
    LoadCons(c, f);
    LoadCons(p, f);
    FirstLineOfTail(p, w);
    if k < |c| {
      TailLoadsNothing(p, w, f);
    }
  }

  /** The first line of `p + w` is `p` and some of the whitespace `w`. */
  lemma FirstLineOfTail(p: string, w: string)
    requires AllSpace(w) && |p| <= BreakFrom(p + w, 0)
    ensures var k := BreakFrom(p + w, 0);
            (p + w)[..k] == p + w[..k - |p|] && AllSpace(w[..k - |p|])
  {
  }

  /** After that first line only whitespace is left, which loads nothing. */
  lemma TailLoadsNothing(p: string, w: string, f: string -> set<string>)
    requires SpaceBlind(f) && AllSpace(w)
    requires |p| <= BreakFrom(p + w, 0) < |p + w|
    ensures LoadWith(AfterFirst(p + w), f) == {}
  {
    var c := p + w;
    var k := BreakFrom(c, 0);
    assert AfterFirst(c) == w[k + BreakLength(c, k) - |p|..];
    AllSpaceLoadsNothing(AfterFirst(c), f);
  }

  lemma FirstBreakInTail(p: string, w: string)
    requires BreakFrom(p, 0) == |p|
    ensures |p| <= BreakFrom(p + w, 0)
  {
    var c := p + w;
    BreakFromFirst(p, 0);
    assert forall j :: 0 <= j < |p| ==> c[j] == p[j];
    assert forall j :: 0 <= j < |p| ==> !IsLineBreak(c[j]);
  }

  /** A boundary inside `p` splits `p + w` the way it splits `p`. */
  lemma EarlyBreak(p: string, w: string, f: string -> set<string>)
    requires EndsInText(p) && BreakFrom(p, 0) < |p|
    ensures EndsInText(AfterFirst(p))
    ensures LoadWith(p, f) == f(p[..BreakFrom(p, 0)]) + LoadWith(AfterFirst(p), f)
    ensures LoadWith(p + w, f) == f(p[..BreakFrom(p, 0)]) + LoadWith(AfterFirst(p) + w, f)
  {
    SameFirstBreak(p, w);
    SplitAppended(p, w);
    LoadCons(p, f);
    LoadCons(p + w, f);
  }

  lemma SplitAppended(p: string, w: string)
    requires EndsInText(p) && BreakFrom(p, 0) < |p|
    requires BreakFrom(p + w, 0) == BreakFrom(p, 0)
    requires BreakFrom(p, 0) + BreakLength(p, BreakFrom(p, 0)) < |p|
    requires BreakLength(p + w, BreakFrom(p, 0)) == BreakLength(p, BreakFrom(p, 0))
    ensures AfterFirst(p + w) == AfterFirst(p) + w
    ensures (p + w)[..BreakFrom(p, 0)] == p[..BreakFrom(p, 0)]
    ensures EndsInText(AfterFirst(p))
  {
    var c := p + w;
    var kp := BreakFrom(p, 0);
    assert c[..kp] == p[..kp];
    assert AfterFirst(p)[|AfterFirst(p)| - 1] == p[|p| - 1];
  }

  lemma SameFirstBreak(p: string, w: string)
    requires EndsInText(p) && BreakFrom(p, 0) < |p|
    ensures BreakFrom(p + w, 0) == BreakFrom(p, 0)
    ensures BreakFrom(p, 0) + BreakLength(p, BreakFrom(p, 0)) < |p|
    ensures BreakLength(p + w, BreakFrom(p, 0)) == BreakLength(p, BreakFrom(p, 0))
  {
    var c := p + w;
    var kp := BreakFrom(p, 0);
    BreakFromFirst(p, 0);
    assert forall j :: 0 <= j < |p| ==> c[j] == p[j];
    LineBreakNotLast(p);
    BreakFromIs(c, 0, kp);
  }

  lemma LineBreakNotLast(s: string)
    requires EndsInText(s)
    ensures !IsLineBreak(s[|s| - 1])
  {
    if IsLineBreak(s[|s| - 1]) {
      LineBreakIsSpace(s[|s| - 1]);
    }
  }

  // ---------------------------------------------------------------------------
  // load_processed / append_processed
  // ---------------------------------------------------------------------------

  predicate Blank(line: string) {
    Strip(line) == []
  }

  /** What one line contributes to `load_processed()`: its normal form, unless the line
      is blank. */
  function LineSet(line: string): set<string> {
    if Blank(line) then {} else {NormalizeUrl(line)}
  }

  /** `load_processed()` on the file's text: the normal forms of its non-blank lines. */
  function LoadProcessed(content: string): set<string> {
    LoadWith(content, LineSet)
  }

  /** A string of whitespace strips to nothing. */
  lemma AllSpaceIsBlank(x: string)
    requires AllSpace(x)
    ensures Blank(x)
  {
    StripIs(x, |x|, |x|);
  }

  /** A blank line ending in text cannot be: `rstrip` output is blank only when empty. */
  lemma BlankEndIsEmpty(x: string)
    requires x == [] || EndsInText(x)
    requires Blank(x)
    ensures x == []
  {
    SpaceRunEndSpaces(x, 0);
  }

  lemma StripIgnoresTrailingSpace(p: string, w: string)
    requires EndsInText(p) && AllSpace(w)
    ensures Strip(p + w) == Strip(p)
  {
    var c := p + w;
    var a := SpaceRunEnd(p, 0);
    SpaceRunEndSpaces(p, 0);
    assert a < |p|;
    SpaceRunEndPrefix(p, w, 0);
    TrailAfter(p, w, a);
    assert c[a..|p|] == p[a..];
  }

  /** Trailing whitespace after a non-space lands the strip point at the end of `p`. */
  lemma TrailAfter(p: string, w: string, a: nat)
    requires a < |p| && EndsInText(p) && AllSpace(w)
    ensures TrailStart(p + w, a, |p + w|) == |p| && TrailStart(p, a, |p|) == |p|
  {
    var c := p + w;
    assert c[|p| - 1] == p[|p| - 1];
    TrailStartIs(c, a, |c|, |p|);
    TrailStartIs(p, a, |p|, |p|);
  }

  lemma {:induction false} SpaceRunEndPrefix(p: string, w: string, i: nat)
    requires i <= |p| && SpaceRunEnd(p, i) < |p|
    ensures SpaceRunEnd(p + w, i) == SpaceRunEnd(p, i)
    decreases |p| - i
  {
    if IsSpace(p[i]) {
      SpaceRunEndPrefix(p, w, i + 1);
    }
  }

  /** `LineSet` ignores whitespace, as `x.strip()` and `normalize_url` do. */
  lemma LineSetSpaceBlind()
    ensures SpaceBlind(LineSet)
  {
    forall x | AllSpace(x)
      ensures LineSet(x) == {}
    {
      AllSpaceIsBlank(x);
    }
    forall x, y | EndsInText(x) && AllSpace(y)
      ensures LineSet(x + y) == LineSet(x)
    {
      StripIgnoresTrailingSpace(x, y);
    }
  }

  /** A processed file holding only whitespace records no links. */
  lemma AllSpaceLoadsNoLinks(content: string)
    requires AllSpace(content)
    ensures LoadProcessed(content) == {}
  {
    LineSetSpaceBlind();
    AllSpaceLoadsNothing(content, LineSet);
  }

  /** Loading ignores the whitespace `append_processed` strips from the end. */
  lemma LoadIgnoresRStrip(content: string)
    ensures LoadProcessed(RStrip(content)) == LoadProcessed(content)
  {
    var p := RStrip(content);
    var w := content[|p|..];
    assert content == p + w;
    assert AllSpace(w);
    LineSetSpaceBlind();
    TrailingSpaceLoadsSame(p, w, LineSet);
  }

  /** The text written for a new link `u` after the right-stripped old text `current`. */
  function NewText(current: string, u: string): string {
    (if !Blank(current) then current + "\n" else current) + u + "\n"
  }

  /** `append_processed(url)`: the new text of the file, which is the old text when the
      normalised link is already recorded (the file is then not written). */
  function AppendProcessed(content: string, url: string): string {
    var u := NormalizeUrl(url);
    if u in LoadProcessed(content) then content else NewText(RStrip(content), u)
  }

  /** A link already recorded leaves the file as it is. */
  lemma AppendKnownIsNoOp(content: string, url: string)
    requires NormalizeUrl(url) in LoadProcessed(content)
    ensures AppendProcessed(content, url) == content
  {
  }

  /** What may be appended as one line: a link without line boundaries, non-empty (the
      pipeline never appends an empty link). */
  predicate OneLine(u: string) {
    u != [] && forall j :: 0 <= j < |u| ==> !IsLineBreak(u[j])
  }

  /** The new link becomes exactly one more line after the old ones. */
  lemma NewTextLines(current: string, u: string)
    requires current == [] || EndsInText(current)
    requires OneLine(u)
    ensures SplitLines(NewText(current, u)) == SplitLines(current) + [u]
  {
    SplitOne(u);
    if !Blank(current) {
      LineBreakNotLast(current);
      SplitAfterLine(current, u + "\n");
      assert NewText(current, u) == current + "\n" + (u + "\n");
    } else {
      BlankEndIsEmpty(current);
      assert NewText(current, u) == u + "\n";
    }
  }

  lemma SplitOne(u: string)
    requires OneLine(u)
    ensures SplitLines(u + "\n") == [u]
  {
    var s := u + "\n";
    BreakFromIs(s, 0, |u|);
    assert s[..|u|] == u;
    assert s[|u| + 1..] == [];
  }

  /** A new link is added as exactly one line after the existing text, whose trailing
      whitespace is dropped. */
  lemma AppendNewLine(content: string, url: string)
    requires NormalizeUrl(url) !in LoadProcessed(content)
    requires OneLine(NormalizeUrl(url))
    ensures SplitLines(AppendProcessed(content, url)) == SplitLines(RStrip(content)) + [NormalizeUrl(url)]
  {
    NewTextLines(RStrip(content), NormalizeUrl(url));
  }

  /** After appending a new link, the loaded set is the old one plus the link as it
      reads back. */
  lemma AppendThenLoad(content: string, url: string)
    requires NormalizeUrl(url) !in LoadProcessed(content)
    requires OneLine(NormalizeUrl(url))
    ensures LoadProcessed(AppendProcessed(content, url))
              == LoadProcessed(content) + {NormalizeUrl(NormalizeUrl(url))}
  {
    var u := NormalizeUrl(url);
    var current := RStrip(content);
    AppendNewLine(content, url);
    LinesSetAppend(SplitLines(current), [u], LineSet);
    LinesSetOne(u, LineSet);
    LoadIgnoresRStrip(content);
    StripOfNormalized(url);
  }

  /** A non-empty normal form starts with a non-space, so it is not blank. */
  lemma StripOfNormalized(url: string)
    requires NormalizeUrl(url) != []
    ensures !Blank(NormalizeUrl(url))
  {
    var u := NormalizeUrl(url);
    assert u[0] == Strip(url)[0];
    assert SpaceRunEnd(u, 0) == 0;
    var t := TrailStart(u, 0, |u|);
    assert Strip(u) == u[..t];
    assert t > 0;
  }

  /** For a link whose normal form does not end in whitespace, appending records exactly
      that normal form: `load_processed` then contains it, and nothing else changes. */
  lemma AppendRecordsLink(content: string, url: string)
    requires OneLine(NormalizeUrl(url))
    requires !IsSpace(NormalizeUrl(url)[|NormalizeUrl(url)| - 1])
    ensures LoadProcessed(AppendProcessed(content, url)) == LoadProcessed(content) + {NormalizeUrl(url)}
  {
    NormalizeUrlIdempotent(url);
    if NormalizeUrl(url) !in LoadProcessed(content) {
      AppendThenLoad(content, url);
    }
  }

  /** Appending the same link twice writes the file once: the second call finds the link
      recorded by the first. */
  lemma AppendIdempotent(content: string, url: string)
    requires OneLine(NormalizeUrl(url))
    requires !IsSpace(NormalizeUrl(url)[|NormalizeUrl(url)| - 1])
    ensures AppendProcessed(AppendProcessed(content, url), url) == AppendProcessed(content, url)
  {
    AppendRecordsLink(content, url);
    AppendKnownIsNoOp(AppendProcessed(content, url), url);
  }
}

=== FILE: reddit.dfy ===
/** Feed-entry shaping from `pipeline/reddit.py`: the first `<img src="…">` in an entry's
    HTML, the image allowlist, the image-kind label, and the loop that turns the entries
    of an Atom feed into pipeline entries. The HTTP request and the XML parse are not
    modelled: a feed arrives as a sequence of `RawEntry` values, and `html.unescape`
    is a parameter. */
module Reddit {
  import opened Wrappers
  import opened Text
  import opened Sorting

  /** What the XML parse yields for one `<entry>`: `None` where the element (or the
      attribute) is missing, otherwise its text. */
  datatype RawEntry = RawEntry(
    title: Option<string>,
    link: Option<string>,
    summary: Option<string>,
    published: Option<string>,
    content: Option<string>,
    thumbnail: Option<string>)

  /** The `hero_image_kind` label. */
  datatype HeroKind = RedditImage | RedditPreview | NoImage

  /** One shaped feed entry, the dictionary that `fetch_rss_entries` appends. */
  datatype Entry = Entry(
    title: string,
    link: string,
    summary: string,
    published: string,
    rss: string,
    heroImage: string,
    heroKind: HeroKind)

  // ---------------------------------------------------------------------------
  // _extract_first_img_from_html
  // ---------------------------------------------------------------------------

  /** At `j` stands `src="`, ignoring case, followed by at least one non-quote
      character and then a closing quote: the tail of `<img[^>]+src="([^"]+)"`. */
  predicate SrcValueAt(s: string, j: nat) {
    && j + 5 < |s|
    && FoldAt(s, j, "src=\"")
    && s[j + 5] != '"'
    && IndexFrom(s, '"', j + 5) < |s|
  }

  /** The largest `j` in `[lo, hi)` at which `SrcValueAt` holds: the greedy `[^>]+`
      gives back as little as it has to. */
  function LastSrc(s: string, lo: nat, hi: nat): (r: Option<nat>)
    requires lo <= hi <= |s|
    ensures r.Some? ==> lo <= r.value < hi && SrcValueAt(s, r.value)
    decreases hi - lo
  {
    if lo == hi then None
    else if SrcValueAt(s, hi - 1) then Some(hi - 1)
    else LastSrc(s, lo, hi - 1)
  }

  /** No point after the one `LastSrc` finds qualifies, and it finds none only when no
      point qualifies. */
  lemma {:induction false} LastSrcSpec(s: string, lo: nat, hi: nat)
    requires lo <= hi <= |s|
    ensures var r := LastSrc(s, lo, hi);
            && (r.Some? ==> forall j :: r.value < j < hi ==> !SrcValueAt(s, j))
            && (r.None? ==> forall j :: lo <= j < hi ==> !SrcValueAt(s, j))
    decreases hi - lo
  {
    if lo < hi && !SrcValueAt(s, hi - 1) {
      LastSrcSpec(s, lo, hi - 1);
      assert LastSrc(s, lo, hi) == LastSrc(s, lo, hi - 1);
    }
  }

  /** Where the captured `src` begins (less five) when the pattern matches at `i`:
      `<img` ignoring case, then at least one character before the first `>`. */
  function ImgAt(s: string, i: nat): (r: Option<nat>)
    requires i <= |s|
    ensures r.Some? ==> i + 5 <= r.value && SrcValueAt(s, r.value)
  {
    if FoldAt(s, i, "<img") then
      var m := IndexFrom(s, '>', i + 4);
      if i + 5 <= m then LastSrc(s, i + 5, m) else None
    else None
  }

  /** `_IMG_RE.search(s)` from position `i` on: the leftmost match, as the position
      of its `src="`. */
  function FirstImg(s: string, i: nat): (r: Option<nat>)
    requires i <= |s|
    ensures r.Some? ==> SrcValueAt(s, r.value)
    decreases |s| - i
  {
    if i == |s| then None
    else if ImgAt(s, i).Some? then ImgAt(s, i)
    else FirstImg(s, i + 1)
  }

  /** A match the search reports starts at some position from `i` on, and the pattern
      matches at no position before it: it is the leftmost match. */
  lemma {:induction false} FirstImgFound(s: string, i: nat)
    requires i <= |s|
    ensures FirstImg(s, i).Some? ==>
              exists k :: i <= k < |s| && ImgAt(s, k) == FirstImg(s, i)
                          && forall k' :: i <= k' < k ==> ImgAt(s, k').None?
    decreases |s| - i
  {
    if i < |s| && ImgAt(s, i).None? {
      FirstImgFound(s, i + 1);
      assert FirstImg(s, i) == FirstImg(s, i + 1);
    } else if i < |s| {
      assert ImgAt(s, i) == FirstImg(s, i);
    }
  }

  /** When the search reports no match, the pattern matches at no position from `i` on. */
  lemma {:induction false} FirstImgMisses(s: string, i: nat)
    requires i <= |s|
    ensures FirstImg(s, i).None? ==> forall k :: i <= k < |s| ==> ImgAt(s, k).None?
    decreases |s| - i
  {
    if i < |s| && ImgAt(s, i).None? {
      FirstImgMisses(s, i + 1);
      assert FirstImg(s, i) == FirstImg(s, i + 1);
    }
  }

  /** The search reports no match exactly when the pattern matches at no position
      from `i` on. */
  lemma FirstImgNone(s: string, i: nat)
    requires i <= |s|
    ensures FirstImg(s, i).None? <==> forall k :: i <= k < |s| ==> ImgAt(s, k).None?
  {
    FirstImgFound(s, i);
    FirstImgMisses(s, i);
  }

  /** The leftmost position the pattern matches at is the match the search reports. */
  lemma {:induction false} FirstImgLeftmost(s: string, lo: nat, i: nat)
    requires lo <= i < |s| && ImgAt(s, i).Some?
    requires forall k :: lo <= k < i ==> ImgAt(s, k).None?
    ensures FirstImg(s, lo) == ImgAt(s, i)
    decreases i - lo
  {
    if lo < i {
      assert ImgAt(s, lo).None?;
      FirstImgLeftmost(s, lo + 1, i);
      assert FirstImg(s, lo) == FirstImg(s, lo + 1);
    }
  }

  /** The captured group `([^"]+)` of a match whose `src="` is at `j`. */
  function SrcValue(s: string, j: nat): (v: string)
    requires SrcValueAt(s, j)
    ensures |v| > 0 && '"' !in v
  {
    s[j + 5..IndexFrom(s, '"', j + 5)]
  }

  /** `&amp;` occurs at `i`. */
  predicate AmpAt(s: string, i: nat) {
    i + 5 <= |s| && s[i..i + 5] == "&amp;"
  }

  /** `s.replace("&amp;", "&")`: left-to-right and non-overlapping. */
  function ReplaceAmp(s: string): (r: string)
    ensures |r| <= |s|
  {
    if |s| == 0 then []
    else if AmpAt(s, 0) then "&" + ReplaceAmp(s[5..])
    else [s[0]] + ReplaceAmp(s[1..])
  }

  /** Replacing introduces no character other than `&`. */
  lemma {:induction false} ReplaceAmpChars(s: string, c: char)
    requires c != '&' && c !in s
    ensures c !in ReplaceAmp(s)
  {
    if |s| > 0 {
      if AmpAt(s, 0) {
        assert forall k :: 0 <= k < |s[5..]| ==> s[5..][k] == s[k + 5];
        ReplaceAmpChars(s[5..], c);
      } else {
        assert forall k :: 0 <= k < |s[1..]| ==> s[1..][k] == s[k + 1];
        ReplaceAmpChars(s[1..], c);
      }
    }
  }

  /** Each `&` written as `&amp;`, the escaping `ReplaceAmp` undoes. */
  function EscapeAmp(s: string): string {
    if |s| == 0 then [] else (if s[0] == '&' then "&amp;" else [s[0]]) + EscapeAmp(s[1..])
  }

  lemma {:induction false} ReplaceAmpUndoesEscape(s: string)
    ensures ReplaceAmp(EscapeAmp(s)) == s
  {
    if |s| > 0 {
      var e := EscapeAmp(s);
      var t := EscapeAmp(s[1..]);
      ReplaceAmpUndoesEscape(s[1..]);
      if s[0] == '&' {
        assert e == "&amp;" + t;
        assert e[..5] == "&amp;" && e[5..] == t;
        assert AmpAt(e, 0);
        assert ReplaceAmp(e) == "&" + ReplaceAmp(t);
      } else {
        assert e == [s[0]] + t;
        assert e[1..] == t;
        assert e[0] == s[0];
        assert !AmpAt(e, 0);
        assert ReplaceAmp(e) == [s[0]] + ReplaceAmp(t);
      }
      assert s == [s[0]] + s[1..];
    }
  }

  /** A string in which `&amp;` never occurs is left as it is. */
  lemma {:induction false} ReplaceAmpNoEntity(s: string)
    requires forall i :: 0 <= i < |s| ==> !AmpAt(s, i)
    ensures ReplaceAmp(s) == s
  {
    if |s| > 0 {
      assert !AmpAt(s, 0);
      forall i | 0 <= i < |s[1..]|
        ensures !AmpAt(s[1..], i)
      {
        assert !AmpAt(s, i + 1);
        if i + 5 <= |s[1..]| {
          assert s[1..][i..i + 5] == s[i + 1..i + 6];
        }
      }
      ReplaceAmpNoEntity(s[1..]);
      assert s == [s[0]] + s[1..];
    }
  }

  /** `_extract_first_img_from_html(raw)`, with `html.unescape` passed in. */
  function ExtractFirstImg(raw: string, unescape: string -> string): (r: string)
    ensures raw == [] ==> r == []
    ensures raw != [] && FirstImg(unescape(raw), 0).None? ==> r == []
    ensures '"' !in r
    ensures r == [] || (!IsSpace(r[0]) && !IsSpace(r[|r| - 1]))
  {
    if raw == [] then []
    else
      var s := unescape(raw);
      match FirstImg(s, 0)
      case None => []
      case Some(j) => ValueText(SrcValue(s, j))
  }

  /** The captured value with `&amp;` decoded, then stripped. */
  function ValueText(v: string): (r: string)
    requires '"' !in v
    ensures '"' !in r
    ensures r == [] || (!IsSpace(r[0]) && !IsSpace(r[|r| - 1]))
  {
    var d := ReplaceAmp(v);
    ReplaceAmpChars(v, '"');
    StripAddsNothing(d, '"');
    Strip(d)
  }

  /** When the unescaped text first matches the pattern at `i`, the image is that
      match's captured `src` value, with `&amp;` decoded and stripped. */
  lemma ExtractLeftmost(raw: string, unescape: string -> string, i: nat)
    requires raw != []
    requires i < |unescape(raw)| && ImgAt(unescape(raw), i).Some?
    requires forall k :: 0 <= k < i ==> ImgAt(unescape(raw), k).None?
    ensures ExtractFirstImg(raw, unescape)
            == ValueText(SrcValue(unescape(raw), ImgAt(unescape(raw), i).value))
  {
    FirstImgLeftmost(unescape(raw), 0, i);
  }

  /** A lone `<img src="u">` tag yields `u`, with `&amp;` decoded and stripped. */
  lemma ExtractSingleTag(raw: string, unescape: string -> string, u: string)
    requires raw != []
    requires unescape(raw) == "<img src=\"" + u + "\">"
    requires |u| > 0 && '"' !in u && '>' !in u
    ensures ExtractFirstImg(raw, unescape) == ValueText(u)
  {
    var s := unescape(raw);
    var n := |s|;
    assert s[..10] == "<img src=\"";
    assert forall k :: 10 <= k < n - 2 ==> s[k] == u[k - 10];
    assert s[n - 2] == '"' && s[n - 1] == '>';
    assert s[..4] == "<img";
    assert FoldAt(s, 0, "<img");
    assert IndexFrom(s, '>', 4) == n - 1 by {
      IndexFromIs(s, '>', 4, n - 1);
    }
    assert IndexFrom(s, '"', 10) == n - 2 by {
      IndexFromIs(s, '"', 10, n - 2);
    }
    assert s[5..10] == "src=\"";
    assert FoldAt(s, 5, "src=\"") by {
      assert forall i :: 0 <= i < 5 ==> s[5 + i] == s[5..10][i];
    }
    assert SrcValueAt(s, 5);
    assert LastSrc(s, 5, n - 1) == Some(5) by {
      NoSrcInValue(s, u);
      LastSrcIs(s, 5, n - 1);
    }
    assert ImgAt(s, 0) == Some(5);
    assert SrcValue(s, 5) == u;
    assert ExtractFirstImg(raw, unescape) == ValueText(u);
  }

  /** In `<img src="u">`, no later point starts another `src="` with a closed value. */
  lemma NoSrcInValue(s: string, u: string)
    requires s == "<img src=\"" + u + "\">"
    requires '"' !in u
    ensures forall j :: 5 < j < |s| - 1 ==> !SrcValueAt(s, j)
  {
    var n := |s|;
    assert forall k :: 10 <= k < n - 2 ==> s[k] == u[k - 10];
    assert s[n - 2] == '"' && s[n - 1] == '>';
    forall j | 5 < j < n - 1
      ensures !SrcValueAt(s, j)
    {
      if j + 5 < n && FoldAt(s, j, "src=\"") {
        assert "src=\""[4] == '"';
        assert FoldEq(s[j + 4], '"');
        assert j + 4 == n - 2;
        IndexFromIs(s, '"', n - 1, n);
      }
    }
  }

  lemma IndexFromIs(s: string, c: char, i: nat, k: nat)
    requires i <= k <= |s|
    requires forall j :: i <= j < k ==> s[j] != c
    requires k == |s| || s[k] == c
    ensures IndexFrom(s, c, i) == k
  {
  }

  lemma LastSrcIs(s: string, lo: nat, hi: nat)
    requires lo < hi <= |s|
    requires SrcValueAt(s, lo)
    requires forall j :: lo < j < hi ==> !SrcValueAt(s, j)
    ensures LastSrc(s, lo, hi) == Some(lo)
    decreases hi - lo
  {
    if lo + 1 < hi {
      LastSrcIs(s, lo, hi - 1);
    }
  }

  /** Text without an `<img` anywhere (ignoring case) yields no image. */
  lemma NoImgTagNoImage(raw: string, unescape: string -> string)
    requires forall k :: 0 <= k < |unescape(raw)| ==> !FoldAt(unescape(raw), k, "<img")
    ensures ExtractFirstImg(raw, unescape) == []
  {
    FirstImgNone(unescape(raw), 0);
  }

  // ---------------------------------------------------------------------------
  // _safe_image and hero_image_kind
  // ---------------------------------------------------------------------------

  /** `_safe_image(url)`: the stripped URL when it mentions one of Reddit's image
      hosts, and "" otherwise. The test is a substring test on the whole URL. */
  function SafeImage(url: string): (r: string)
    ensures r == [] || r == Strip(url)
    ensures r != [] <==> Contains(Strip(url), "i.redd.it/") || Contains(Strip(url), "preview.redd.it/")
  {
    if url == [] then []
    else
      var u := Strip(url);
      if Contains(u, "i.redd.it/") then u
      else if Contains(u, "preview.redd.it/") then u
      else []
  }

  /** Filtering an already filtered image changes nothing. */
  lemma SafeImageIdempotent(url: string)
    ensures SafeImage(SafeImage(url)) == SafeImage(url)
  {
    var r := SafeImage(url);
    if r != [] {
      var u := Strip(url);
      assert r == u;
      StripFixed(u);
      assert Strip(r) == r;
      assert SafeImage(r) == r;
    }
  }

  /** The filter checks where the text occurs, not which host serves the image: a
      link on any host whose path mentions `i.redd.it/` passes. */
  lemma SafeImageAcceptsAnyHost(url: string, k: nat)
    requires url == [] || (!IsSpace(url[0]) && !IsSpace(url[|url| - 1]))
    requires OccursAt(url, "i.redd.it/", k)
    ensures SafeImage(url) == url
  {
    StripFixed(url);
  }

  /** `hero_image_kind`. */
  function KindOf(img: string): (k: HeroKind)
    ensures k == RedditImage <==> Contains(img, "i.redd.it/")
    ensures k == RedditPreview <==> !Contains(img, "i.redd.it/") && Contains(img, "preview.redd.it/")
    ensures img == [] ==> k == NoImage
  {
    if Contains(img, "i.redd.it/") then RedditImage
    else if Contains(img, "preview.redd.it/") then RedditPreview
    else NoImage
  }

  /** For an image that went through the allowlist, the kind is `none` exactly when
      there is no image. */
  lemma KindOfSafeImage(url: string)
    ensures KindOf(SafeImage(url)) == NoImage <==> SafeImage(url) == []
  {
  }

  // ---------------------------------------------------------------------------
  // fetch_rss_entries
  // ---------------------------------------------------------------------------

  function StrippedText(t: Option<string>): (r: string)
    ensures r == Strip(t.GetOr([]))
  {
    Strip(t.GetOr([]))
  }

  /** The image source before the allowlist: the first image in the content, else the
      first in the summary (Python's `or` on strings), else the thumbnail URL. */
  function ImageSource(content: string, summary: string, thumbnail: Option<string>,
                       unescape: string -> string): (r: string)
    ensures ExtractFirstImg(content, unescape) != [] ==> r == ExtractFirstImg(content, unescape)
    ensures ExtractFirstImg(content, unescape) == [] && ExtractFirstImg(summary, unescape) != [] ==>
              r == ExtractFirstImg(summary, unescape)
    ensures ExtractFirstImg(content, unescape) == [] && ExtractFirstImg(summary, unescape) == [] ==>
              r == StrippedText(thumbnail)
  {
    var c := ExtractFirstImg(content, unescape);
    if c != [] then c
    else
      var s := ExtractFirstImg(summary, unescape);
      if s != [] then s else StrippedText(thumbnail)
  }

  /** What `fetch_rss_entries` promises of every entry it returns. */
  predicate WellShaped(e: Entry, rssUrl: string) {
    e.title != [] && e.link != [] && e.rss == rssUrl
  }

  /** One loop iteration of `fetch_rss_entries`: `None` when the entry is skipped. */
  function Shape(raw: RawEntry, rssUrl: string, unescape: string -> string): (r: Option<Entry>)
    ensures r.None? <==> StrippedText(raw.title) == [] || StrippedText(raw.link) == []
    ensures r.Some? ==> WellShaped(r.value, rssUrl)
    ensures r.Some? ==> r.value.title == StrippedText(raw.title) && r.value.link == StrippedText(raw.link)
  {
    var title := StrippedText(raw.title);
    var link := StrippedText(raw.link);
    if title == [] || link == [] then None
    else
      var summary := StrippedText(raw.summary);
      var content := StrippedText(raw.content);
      var img := SafeImage(ImageSource(content, summary, raw.thumbnail, unescape));
      Some(Entry(title, link, summary, StrippedText(raw.published), rssUrl, img, KindOf(img)))
  }

  /** The image of a shaped entry is the allowlisted source chosen by priority, and its
      kind is `none` exactly when there is no image. */
  lemma ShapeImage(raw: RawEntry, rssUrl: string, unescape: string -> string)
    requires Shape(raw, rssUrl, unescape).Some?
    ensures var e := Shape(raw, rssUrl, unescape).value;
            var src := ImageSource(StrippedText(raw.content), StrippedText(raw.summary), raw.thumbnail, unescape);
            && e.heroImage == SafeImage(src)
            && (e.heroKind == NoImage <==> e.heroImage == [])
  {
    var src := ImageSource(StrippedText(raw.content), StrippedText(raw.summary), raw.thumbnail, unescape);
    KindOfSafeImage(src);
  }

  /** Every entry of the feed that is kept, in feed order and without a cap. */
  function ShapeAll(raws: seq<RawEntry>, rssUrl: string, unescape: string -> string): (r: seq<Entry>)
    ensures |r| <= |raws|
    ensures forall k :: 0 <= k < |r| ==> WellShaped(r[k], rssUrl)
  {
    var shape := raw => Shape(raw, rssUrl, unescape);
    FilterMapAll(raws, shape, e => WellShaped(e, rssUrl));
    FilterMap(raws, shape)
  }

  /** The effective cap: the count is compared after an entry is appended, so a
      `max_items` of zero or less still lets one entry through. */
  function Cap(maxItems: int): (c: nat)
    ensures c >= 1 && (maxItems >= 1 ==> c == maxItems)
  {
    if maxItems >= 1 then maxItems else 1
  }

  /** The entry loop of `fetch_rss_entries`: shape each raw entry in feed order, skip
      those without a title or link, and stop once `max_items` have been kept. */
  method FetchEntries(rssUrl: string, raws: seq<RawEntry>, maxItems: int, unescape: string -> string)
    returns (r: seq<Entry>)
    ensures r == Take(ShapeAll(raws, rssUrl, unescape), Cap(maxItems))
    ensures forall k :: 0 <= k < |r| ==> WellShaped(r[k], rssUrl)
  {
    r := FilterMapUpTo(raws, raw => Shape(raw, rssUrl, unescape), Cap(maxItems));
  }
}

=== FILE: run.dfy ===
/** The one-shot run of `main` in `pipeline/generate.py`: refuse a second run, load the
    configuration, check the base URL, pick a candidate, and then either only rebuild the site or create one
    article, record its link as processed and put it at the front of the archive. The
    persistent files are the fields of a `Store`; the site rebuild renders templates from
    the archive and changes no stored state, so only whether it returns normally appears
    here. The configuration (absent when `config.json` is missing or does not parse),
    the clock, the model's reply, `slugify` and the random index are inputs. */
module Run {
  import opened Wrappers
  import opened Text
  import opened Util
  import opened Sorting
  import opened Reddit
  import opened Archive
  import opened Selection
  import opened Processed
  import opened ArticleOutput
  import opened Site

  /** The `last_run.json` payload: `created`, `article_url`, `article_path` (absent when
      nothing was created), `article_title`, `source_url`, `note` (present only when
      nothing was created) and `homepage_url`. The `updated_utc` stamp is left out. */
  datatype LastRun = LastRun(
    created: bool,
    articleUrl: string,
    articlePath: Option<string>,
    articleTitle: string,
    sourceUrl: string,
    note: Option<string>,
    homepageUrl: string)

  /** The state a run reads and writes: the one-shot flag file, the text of
      `processed_urls.txt`, `articles.json` and `last_run.json`. */
  datatype Store = Store(ranFlag: bool, processedText: string, articles: seq<Article>,
                         lastRun: Option<LastRun>)

  /** Why a run stops with an exception: the checks before any write, the model call
      inside `deepseek_article`, or `build_site`. */
  datatype RunError =
    | AlreadyRan
    | MissingConfig
    | MissingBaseUrl
    | PickFailed(cause: PickError)
    | GenerationFailed
    | SiteBuildFailed

  /** What `main` reads from the configuration: `site.base_url` (absent or `null` as
      `None`) and what `pick_candidate` reads. */
  datatype RunConfig = RunConfig(baseUrl: Option<string>, pick: Config)

  /** The moment of the run: `ts.strftime("%Y-%m-%d")`, `ts.isoformat(timespec="seconds")`
      and `int(ts.timestamp())` written out in decimal. */
  datatype Moment = Moment(ymd: string, iso: string, epoch: string)

  const NoCandidateNote: string := "No new candidate found. Site rebuilt."

  /** The most characters of `slugify`'s output a slug keeps. */
  const SlugLimit: nat := 80

  /** The slug of the new article: at most 80 characters of the slugified title, or
      `post-<epoch>` when that is empty. */
  function Slug(title: string, now: Moment, slugify: string -> string): string {
    var s := Take(slugify(title), SlugLimit);
    if s != [] then s else "post-" + now.epoch
  }

  /** The archive record `main` builds for the candidate `c` from the model's reply. */
  function NewArticle(c: Entry, reply: string, now: Moment, slugify: string -> string): Article {
    var parsed := ParseArticle(reply, c.title);
    var title := if parsed.title != [] then parsed.title else c.title;
    var id := now.ymd + "-" + Slug(title, now, slugify);
    Article(Some(id), title, "/articles/" + id + ".html", now.iso, c.link, c.rss, c.summary,
            parsed.body, c.heroImage, c.heroKind)
  }

  /** The new record carries an id made of the run's date and the slug of its own title,
      a path built from that id, the model's title unless that came back empty, the
      candidate's link, feed, summary and image, and a body the sanitiser has passed. */
  lemma NewArticleSpec(c: Entry, reply: string, now: Moment, slugify: string -> string)
    ensures var a := NewArticle(c, reply, now, slugify);
            var parsed := ParseArticle(reply, c.title);
            && a.id.Some?
            && a.id.value == now.ymd + "-" + Slug(a.title, now, slugify)
            && a.path == "/articles/" + a.id.value + ".html"
            && (a.title == parsed.title || (parsed.title == [] && a.title == c.title))
            && (c.title != [] ==> a.title != [])
            && a.publishedTs == now.iso
            && a.sourceUrl == c.link && a.rss == c.rss && a.summary == c.summary
            && a.heroImage == c.heroImage && a.heroKind == c.heroKind
            && NoOpener(a.bodyHtml)
  {
    ParseShape(reply, c.title);
  }

  /** The slug is never empty: at most 80 characters of the slugified title, or the
      fallback built from the clock. */
  lemma SlugSpec(title: string, now: Moment, slugify: string -> string)
    ensures var s := Slug(title, now, slugify);
            && s != []
            && ((|s| <= SlugLimit && |s| <= |slugify(title)| && s == slugify(title)[..|s|])
                || s == "post-" + now.epoch)
  {
  }

  /** The writes `main` makes before it rebuilds the site, for the eligible entry `e`:
      the article goes first in the archive and the entry's link is appended to the
      processed file. */
  predicate ArchivedFrom(st: Store, cfg: RunConfig, reply: string, now: Moment,
                         slugify: string -> string, e: Entry, next: Store)
  {
    && Eligible(e, LoadProcessed(st.processedText), cfg.pick.blockedKeywords, st.articles)
    && |next.articles| == |st.articles| + 1
    && next.articles[0] == NewArticle(e, reply, now, slugify)
    && next.articles[1..] == st.articles
    && next.processedText == AppendProcessed(st.processedText, e.link)
  }

  /** The store after a run that created the article for `e`: the writes above, then
      `last_run.json` naming the article, its source and its public URL. */
  predicate CreatedFrom(st: Store, cfg: RunConfig, reply: string, now: Moment,
                        slugify: string -> string, e: Entry, next: Store)
  {
    && ArchivedFrom(st, cfg, reply, now, slugify, e, next)
    && next.lastRun.Some?
    && next.lastRun.value.sourceUrl == e.link
    && next.lastRun.value.articleTitle == e.title
    && next.lastRun.value.articleUrl == SiteRoot(Strip(cfg.baseUrl.GetOr(""))) + next.articles[0].path
  }

  /** Some entry of the feeds passes every filter of `pick_candidate`. */
  predicate AnyEligible(st: Store, cfg: RunConfig, feeds: seq<seq<Entry>>) {
    exists e :: e in Flatten(feeds) && Eligible(e, LoadProcessed(st.processedText), cfg.pick.blockedKeywords, st.articles)
  }

  /** The checks `main` makes before it writes anything pass. */
  predicate CanStart(st: Store, config: Option<RunConfig>, feeds: seq<seq<Entry>>) {
    !st.ranFlag && config.Some? && Strip(config.value.baseUrl.GetOr("")) != [] && |feeds| > 0
  }

  /** `main()`. `config` is the parsed `config.json`, or `None` when `load_config` raises;
      `reply` is what the model returned, or `None` when the call raised;
      `siteBuilds` says whether `build_site` returns normally. The out-parameter `next` is
      the store afterwards and `failure` the exception, if any. Every failure but a failed
      site build leaves the store as it was, because the checks that raise come before
      the first write. A site build that fails after an article was created leaves the
      archive and processed file written, but neither the flag nor `last_run.json`. */
  method RunOnce(st: Store, config: Option<RunConfig>, feeds: seq<seq<Entry>>, pick: nat,
                 reply: Option<string>, siteBuilds: bool, now: Moment, slugify: string -> string)
    returns (next: Store, failure: Option<RunError>)
    ensures failure == Some(AlreadyRan) <==> st.ranFlag
    ensures failure == Some(MissingConfig) <==> !st.ranFlag && config.None?
    ensures failure == Some(MissingBaseUrl) <==>
              !st.ranFlag && config.Some? && Strip(config.value.baseUrl.GetOr("")) == []
    ensures failure == Some(PickFailed(NoFeeds)) <==>
              !st.ranFlag && config.Some? && Strip(config.value.baseUrl.GetOr("")) != [] && |feeds| == 0
    ensures failure == Some(GenerationFailed) <==>
              CanStart(st, config, feeds) && AnyEligible(st, config.value, feeds) && reply.None?
    ensures failure == Some(SiteBuildFailed) <==>
              CanStart(st, config, feeds) && (!AnyEligible(st, config.value, feeds) || reply.Some?) && !siteBuilds
    ensures failure.None? <==>
              CanStart(st, config, feeds) && (!AnyEligible(st, config.value, feeds) || reply.Some?) && siteBuilds
    ensures failure != Some(SiteBuildFailed) && failure.Some? ==> next == st
    ensures failure == Some(SiteBuildFailed) ==> next.ranFlag == st.ranFlag && next.lastRun == st.lastRun
    ensures failure == Some(SiteBuildFailed) && !AnyEligible(st, config.value, feeds) ==> next == st
    ensures failure == Some(SiteBuildFailed) && AnyEligible(st, config.value, feeds) ==>
              exists e :: IsPick(config.value.pick, feeds, LoadProcessed(st.processedText), st.articles, pick, e)
                      && ArchivedFrom(st, config.value, reply.GetOr(""), now, slugify, e, next)
    ensures failure.None? ==>
              && next.ranFlag
              && next.lastRun.Some?
              && next.lastRun.value.homepageUrl == SiteRoot(config.value.baseUrl.GetOr("")) + "/"
    ensures failure.None? && !next.lastRun.value.created ==>
              && next.articles == st.articles
              && next.processedText == st.processedText
              && next.lastRun.value.note == Some(NoCandidateNote)
              && !AnyEligible(st, config.value, feeds)
    ensures failure.None? && next.lastRun.value.created ==>
              exists e :: IsPick(config.value.pick, feeds, LoadProcessed(st.processedText), st.articles, pick, e)
                      && CreatedFrom(st, config.value, reply.GetOr(""), now, slugify, e, next)
  {
    next := st;
    if st.ranFlag {
      return next, Some(AlreadyRan);
    }
    if config.None? {
      return next, Some(MissingConfig);
    }
    var cfg := config.value;
    var base := Strip(cfg.baseUrl.GetOr(""));
    if base == [] {
      return next, Some(MissingBaseUrl);
    }
    var processed := LoadProcessed(st.processedText);
    var cand := PickCandidate(cfg.pick, feeds, processed, st.articles, pick);
    if cand.Failure? {
      return next, Some(PickFailed(NoFeeds));
    }
    var homepage := SiteRoot(cfg.baseUrl.GetOr("")) + "/";
    if cand.value.None? {
      if !siteBuilds {
        return next, Some(SiteBuildFailed);
      }
      var last := LastRun(false, "", None, "", "", Some(NoCandidateNote), homepage);
      return Store(true, st.processedText, st.articles, Some(last)), None;
    }
    var c := cand.value.value;
    assert IsPick(cfg.pick, feeds, processed, st.articles, pick, c);
    if reply.None? {
      return next, Some(GenerationFailed);
    }
    var entry := NewArticle(c, reply.value, now, slugify);
    var processedText := AppendProcessed(st.processedText, c.link);
    var articles := [entry] + st.articles;
    assert articles[1..] == st.articles;
    next := Store(st.ranFlag, processedText, articles, st.lastRun);
    assert ArchivedFrom(st, cfg, reply.value, now, slugify, c, next);
    if !siteBuilds {
      return next, Some(SiteBuildFailed);
    }
    var last := LastRun(true, SiteRoot(base) + entry.path, Some(entry.path), c.title, c.link,
                        None, homepage);
    next := Store(true, processedText, articles, Some(last));
    failure := None;
    assert CreatedFrom(st, cfg, reply.value, now, slugify, c, next);
  }

  /** The link of a created article is recorded: the normal form it is checked under
      becomes part of the processed set, so the same entry is not eligible again. This
      holds for links whose normal form is one line ending in a non-space (see
      `NormalizeUrlNotIdempotent` for the others). */
  lemma CreatedLinkNotPickedAgain(processedText: string, e: Entry, keywords: seq<string>,
                                  articles: seq<Article>)
    requires OneLine(NormalizeUrl(e.link))
    requires !IsSpace(NormalizeUrl(e.link)[|NormalizeUrl(e.link)| - 1])
    ensures NormalizeUrl(e.link) in LoadProcessed(AppendProcessed(processedText, e.link))
    ensures !Eligible(e, LoadProcessed(AppendProcessed(processedText, e.link)), keywords, articles)
  {
    AppendRecordsLink(processedText, e.link);
  }

  /** The repository can be run once: after a run that succeeds, running again on the
      stored state stops before doing anything, and after one that fails before writing,
      running again fails the same way. A failed site build is the exception: it leaves
      the flag unset, so the next run goes ahead. */
  method RunTwice(st: Store, config: Option<RunConfig>, feeds: seq<seq<Entry>>, pick: nat,
                  reply: Option<string>, siteBuilds: bool, now: Moment, slugify: string -> string)
    returns (first: Option<RunError>, second: Option<RunError>, last: Store)
    ensures first.None? ==> second == Some(AlreadyRan)
    ensures first.Some? && first != Some(SiteBuildFailed) ==> second == first
    ensures first == Some(SiteBuildFailed) ==> second != Some(AlreadyRan)
    ensures second == Some(AlreadyRan) ==> first.None? || st.ranFlag
  {
    var mid;
    mid, first := RunOnce(st, config, feeds, pick, reply, siteBuilds, now, slugify);
    last, second := RunOnce(mid, config, feeds, pick, reply, siteBuilds, now, slugify);
  }
}

=== FILE: selection.dfy ===
/** Candidate picking in `pipeline/generate.py`: the keyword blocklist (`is_blocked`) and
    the novelty filter and choice of `pick_candidate`. The feeds arrive already fetched,
    one entry list per configured RSS URL, and `random.choice` becomes an index `pick`
    into the survivors. */
module Selection {
  import opened Wrappers
  import opened Text
  import opened Util
  import opened Sorting
  import opened Reddit
  import opened Archive

  // ---------------------------------------------------------------------------
  // is_blocked
  // ---------------------------------------------------------------------------

  /** The keyword loop over an already lower-cased title: the first keyword found ends it. */
  function AnyKeywordIn(t: string, keywords: seq<string>): bool {
    if |keywords| == 0 then false
    else Contains(t, Lower(keywords[0])) || AnyKeywordIn(t, keywords[1..])
  }

  /** `is_blocked(title, blocked_kw)`. */
  function IsBlocked(title: string, keywords: seq<string>): bool {
    AnyKeywordIn(Lower(title), keywords)
  }

  lemma {:induction false} AnyKeywordInIff(t: string, keywords: seq<string>)
    ensures AnyKeywordIn(t, keywords) <==>
            exists i :: 0 <= i < |keywords| && Contains(t, Lower(keywords[i]))
  {
    if |keywords| > 0 {
      AnyKeywordInIff(t, keywords[1..]);
      if exists i :: 0 <= i < |keywords| && Contains(t, Lower(keywords[i])) {
        var i :| 0 <= i < |keywords| && Contains(t, Lower(keywords[i]));
        if i > 0 {
          assert keywords[1..][i - 1] == keywords[i];
        }
      }
      if AnyKeywordIn(t, keywords[1..]) {
        var i :| 0 <= i < |keywords[1..]| && Contains(t, Lower(keywords[1..][i]));
        assert keywords[i + 1] == keywords[1..][i];
      }
    }
  }

  /** A title is blocked exactly when some lower-cased keyword occurs in the lower-cased
      title. */
  lemma IsBlockedIff(title: string, keywords: seq<string>)
    ensures IsBlocked(title, keywords) <==>
            exists i :: 0 <= i < |keywords| && Contains(Lower(title), Lower(keywords[i]))
  {
    AnyKeywordInIff(Lower(title), keywords);
  }

  /** An empty keyword occurs in every title, so it blocks everything. */
  lemma EmptyKeywordBlocksAll(title: string, keywords: seq<string>, i: nat)
    requires i < |keywords| && keywords[i] == []
    ensures IsBlocked(title, keywords)
  {
    assert Lower(keywords[i]) == [];
    EmptyIsContained(Lower(title));
    IsBlockedIff(title, keywords);
  }

  /** No keywords block nothing. */
  lemma NoKeywordsBlockNothing(title: string)
    ensures !IsBlocked(title, [])
  {
  }

  /** The blocklist does not see ASCII letter case in the title. */
  lemma IsBlockedIgnoresAsciiCase(title: string, keywords: seq<string>)
    ensures IsBlocked(AsciiUpper(title), keywords) == IsBlocked(title, keywords)
  {
    LowerIgnoresAsciiCase(title);
  }

  // ---------------------------------------------------------------------------
  // pick_candidate
  // ---------------------------------------------------------------------------

  /** The configuration `pick_candidate` reads: `safety.blocked_keywords` and
      `generation.pick_random`. */
  datatype Config = Config(blockedKeywords: seq<string>, pickRandom: bool)

  /** The one error `pick_candidate` raises: `feeds.reddit_rss` is empty. */
  datatype PickError = NoFeeds

  /** An entry's title is a near duplicate of an archived title: Jaccard similarity of
      their token sets at least 0.78, against some archive title that is not empty. */
  predicate NearDuplicate(title: string, articles: seq<Article>) {
    exists i :: 0 <= i < |articles| && articles[i].title != []
                && TooSimilar(Jaccard(SimpleTokens(title), SimpleTokens(articles[i].title)))
  }

  /** An entry survives the loop of `pick_candidate`: its normalised link is non-empty and
      not yet processed, its title is not blocked, and it is no near duplicate. */
  predicate Eligible(e: Entry, processed: set<string>, keywords: seq<string>, articles: seq<Article>) {
    && NormalizeUrl(e.link) != []
    && NormalizeUrl(e.link) !in processed
    && !IsBlocked(e.title, keywords)
    && !NearDuplicate(e.title, articles)
  }

  /** The survivors, in feed order and then entry order. */
  function Survivors(cfg: Config, feeds: seq<seq<Entry>>, processed: set<string>,
                     articles: seq<Article>): seq<Entry>
  {
    Filter(Flatten(feeds), e => Eligible(e, processed, cfg.blockedKeywords, articles))
  }

  /** `e` is the entry `pick_candidate` returns: an eligible entry of the feeds that is
      the first eligible one in feed-then-entry order, or, with `pick_random`, survivor
      number `pick mod n`. */
  predicate IsPick(cfg: Config, feeds: seq<seq<Entry>>, processed: set<string>,
                   articles: seq<Article>, pick: nat, e: Entry)
  {
    && e in Flatten(feeds)
    && Eligible(e, processed, cfg.blockedKeywords, articles)
    && (!cfg.pickRandom ==>
          exists i :: 0 <= i < |Flatten(feeds)| && Flatten(feeds)[i] == e
                      && forall j :: 0 <= j < i ==> !Eligible(Flatten(feeds)[j], processed, cfg.blockedKeywords, articles))
    && (cfg.pickRandom ==>
          |Survivors(cfg, feeds, processed, articles)| > 0
          && e == Survivors(cfg, feeds, processed, articles)[pick % |Survivors(cfg, feeds, processed, articles)|])
  }

  /** `pick_candidate(cfg, processed, articles)`. The chosen entry keeps its image URL
      and kind, which is what the code copies into `image_url` and `image_kind`. */
  method PickCandidate(cfg: Config, feeds: seq<seq<Entry>>, processed: set<string>,
                       articles: seq<Article>, pick: nat)
    returns (r: Result<Option<Entry>, PickError>)
    ensures r.Failure? <==> |feeds| == 0
    ensures r.Success? && r.value.None? <==>
            |feeds| > 0 && forall e :: e in Flatten(feeds) ==> !Eligible(e, processed, cfg.blockedKeywords, articles)
    ensures r.Success? && r.value.Some? ==> IsPick(cfg, feeds, processed, articles, pick, r.value.value)
  {
    if |feeds| == 0 {
      return Failure(NoFeeds);
    }
    var eligible := e => Eligible(e, processed, cfg.blockedKeywords, articles);
    assert forall e :: eligible(e) == Eligible(e, processed, cfg.blockedKeywords, articles);
    var chosen := ChooseFlat(feeds, eligible, cfg.pickRandom, pick);
    assert Survivors(cfg, feeds, processed, articles) == Filter(Flatten(feeds), eligible);
    if chosen.Some? {
      ChoiceIsPick(cfg, feeds, processed, articles, pick, eligible, chosen.value);
    }
    r := Success(chosen);
  }

  /** What `ChooseFlat` promises of its choice under a test that agrees with `Eligible`
      is what `IsPick` asks of the picked entry. */
  lemma ChoiceIsPick(cfg: Config, feeds: seq<seq<Entry>>, processed: set<string>,
                     articles: seq<Article>, pick: nat, p: Entry -> bool, x: Entry)
    requires forall e :: p(e) == Eligible(e, processed, cfg.blockedKeywords, articles)
    requires Survivors(cfg, feeds, processed, articles) == Filter(Flatten(feeds), p)
    requires x in Flatten(feeds) && p(x)
    requires !cfg.pickRandom ==>
               exists i :: 0 <= i < |Flatten(feeds)| && Flatten(feeds)[i] == x
                           && forall j :: 0 <= j < i ==> !p(Flatten(feeds)[j])
    requires cfg.pickRandom ==>
               |Filter(Flatten(feeds), p)| > 0 && x == Filter(Flatten(feeds), p)[pick % |Filter(Flatten(feeds), p)|]
    ensures IsPick(cfg, feeds, processed, articles, pick, x)
  {
    var f := Flatten(feeds);
    var s := Survivors(cfg, feeds, processed, articles);
    assert Eligible(x, processed, cfg.blockedKeywords, articles);
    if !cfg.pickRandom {
      var i :| 0 <= i < |f| && f[i] == x && forall j :: 0 <= j < i ==> !p(f[j]);
      forall j | 0 <= j < i
        ensures !Eligible(f[j], processed, cfg.blockedKeywords, articles)
      {
        assert !p(f[j]);
      }
    } else {
      assert |s| > 0 && x == s[pick % |s|];
    }
  }

  /** With `pick_random` set, every survivor is chosen for some value of the random index:
      the choice ranges over exactly the survivors. */
  lemma EverySurvivorCanBePicked(cfg: Config, feeds: seq<seq<Entry>>, processed: set<string>,
                                 articles: seq<Article>, e: Entry)
    requires e in Survivors(cfg, feeds, processed, articles)
    ensures exists pick: nat :: var s := Survivors(cfg, feeds, processed, articles);
                                pick < |s| && s[pick % |s|] == e
  {
    ChoiceReaches(Survivors(cfg, feeds, processed, articles), e);
  }
}

=== FILE: site.dfy ===
/** The decisions of `build_site` in `pipeline/generate.py` that do not render a template:
    the sitemap's URL list and the Open Graph image of an article page, with the image
    extension `_guess_ext_from_url` picks. The download itself is an input: whether the
    cached file already exists and what fetching the image gave. */
module Site {
  import opened Wrappers
  import opened Text
  import opened Archive

  // ---------------------------------------------------------------------------
  // _guess_ext_from_url
  // ---------------------------------------------------------------------------

  /** The extensions `_guess_ext_from_url` tries, in order. */
  const ImageExts: seq<string> := [".jpg", ".jpeg", ".png", ".webp"]

  /** `_guess_ext_from_url(u)`, given `urlparse(u).path`, or `None` where `urlparse`
      raises (the code then uses the empty path). */
  function GuessExt(urlPath: Option<string>): string {
    ExtOf(Lower(urlPath.GetOr("")))
  }

  /** The extension chosen for the lower-cased path `p`. */
  function ExtOf(p: string): string {
    if EndsWith(p, ".jpg") then ".jpg"
    else if EndsWith(p, ".jpeg") then ".jpeg"
    else if EndsWith(p, ".png") then ".png"
    else if EndsWith(p, ".webp") then ".webp"
    else ".jpg"
  }

  lemma EndsWithChar(p: string, x: string, k: nat)
    requires EndsWith(p, x) && 1 <= k <= |x|
    ensures p[|p| - k] == x[|x| - k]
  {
    assert p[|p| - |x|..][|x| - k] == p[|p| - k];
  }

  /** No path ends with two of the extensions at once. */
  lemma ExtsExclusive(p: string, x: string, y: string)
    requires x in ImageExts && y in ImageExts && x != y
    ensures !(EndsWith(p, x) && EndsWith(p, y))
  {
    if EndsWith(p, x) && EndsWith(p, y) {
      EndsWithChar(p, x, 1);
      EndsWithChar(p, y, 1);
      EndsWithChar(p, x, 2);
      EndsWithChar(p, y, 2);
      EndsWithChar(p, x, 3);
      EndsWithChar(p, y, 3);
    }
  }

  /** The extension chosen for a path is the one it ends with, or `.jpg` when it ends
      with none of them. */
  lemma ExtOfSpec(p: string)
    ensures ExtOf(p) in ImageExts
    ensures forall x :: x in ImageExts && EndsWith(p, x) ==> ExtOf(p) == x
    ensures (forall x :: x in ImageExts ==> !EndsWith(p, x)) ==> ExtOf(p) == ".jpg"
  {
    forall x | x in ImageExts && EndsWith(p, x)
      ensures ExtOf(p) == x
    {
      var r := ExtOf(p);
      if r != x && EndsWith(p, r) {
        ExtsExclusive(p, x, r);
      }
    }
  }

  /** The guess is always one of the four extensions: the one the lower-cased path ends
      with, or `.jpg` when it ends with none. Since no path ends with two of them, the
      order in which the code tries them does not matter. */
  lemma GuessExtSpec(urlPath: Option<string>)
    ensures GuessExt(urlPath) in ImageExts
    ensures forall x :: x in ImageExts && EndsWith(Lower(urlPath.GetOr("")), x) ==> GuessExt(urlPath) == x
    ensures (forall x :: x in ImageExts ==> !EndsWith(Lower(urlPath.GetOr("")), x)) ==> GuessExt(urlPath) == ".jpg"
  {
    ExtOfSpec(Lower(urlPath.GetOr("")));
  }

  /** The guess does not see the case of ASCII letters in the path. */
  lemma GuessExtIgnoresAsciiCase(path: string)
    ensures GuessExt(Some(AsciiUpper(path))) == GuessExt(Some(path))
  {
    LowerIgnoresAsciiCase(path);
    assert GuessExt(Some(AsciiUpper(path))) == ExtOf(Lower(AsciiUpper(path)));
  }

  // ---------------------------------------------------------------------------
  // cache_og_image
  // ---------------------------------------------------------------------------

  /** What fetching the image gave: the number of bytes read, or an exception. */
  datatype Download = Downloaded(size: nat) | DownloadFailed

  /** `base_url.rstrip("/")`, the prefix of every site URL. */
  function SiteRoot(baseUrl: string): string {
    RStripChar(baseUrl, '/')
  }

  /** The returned URL of `cache_og_image(cfg, site_dir, base_url, src_url, article_id)`.
      `urlPath` is the path `urlparse` gives for the stripped source, `cached` says
      whether the file under `og/` exists already, `download` what the fetch gave when it
      does not. */
  function CacheOgImage(baseUrl: string, srcUrl: string, articleId: string,
                        urlPath: Option<string>, cached: bool, download: Download): string
  {
    if Strip(srcUrl) == [] then ""
    else if !cached && download.DownloadFailed? then ""
    else SiteRoot(baseUrl) + "/og/" + articleId + GuessExt(urlPath)
  }

  /** Whether `cache_og_image` writes the image file. */
  function CacheWrites(srcUrl: string, cached: bool, download: Download): bool {
    Strip(srcUrl) != [] && !cached && download.Downloaded? && download.size > 0
  }

  /** The image URL is empty exactly when there is no source or its fetch failed, and
      otherwise names the article's file under `/og/` with a guessed extension. */
  lemma CacheOgImageSpec(baseUrl: string, srcUrl: string, articleId: string,
                         urlPath: Option<string>, cached: bool, download: Download)
    ensures var r := CacheOgImage(baseUrl, srcUrl, articleId, urlPath, cached, download);
            && (r == [] <==> Strip(srcUrl) == [] || (!cached && download.DownloadFailed?))
            && (r != [] ==> exists ext :: ext in ImageExts &&
                              r == SiteRoot(baseUrl) + "/og/" + articleId + ext)
  {
    GuessExtSpec(urlPath);
    var r := CacheOgImage(baseUrl, srcUrl, articleId, urlPath, cached, download);
    if r != [] {
      var ext := GuessExt(urlPath);
      assert r == SiteRoot(baseUrl) + "/og/" + articleId + ext;
    }
  }

  /** An image already cached is never fetched again: the download outcome changes
      neither the URL nor whether anything is written. */
  lemma CachedNeverDownloads(baseUrl: string, srcUrl: string, articleId: string,
                             urlPath: Option<string>, d1: Download, d2: Download)
    ensures CacheOgImage(baseUrl, srcUrl, articleId, urlPath, true, d1)
            == CacheOgImage(baseUrl, srcUrl, articleId, urlPath, true, d2)
    ensures !CacheWrites(srcUrl, true, d1)
  {
  }

  /** A fetch that succeeds with no bytes writes nothing, yet the page still links the
      file it did not write. */
  lemma EmptyDownloadStillLinked(baseUrl: string, srcUrl: string, articleId: string,
                                 urlPath: Option<string>)
    requires Strip(srcUrl) != []
    ensures !CacheWrites(srcUrl, false, Downloaded(0))
    ensures CacheOgImage(baseUrl, srcUrl, articleId, urlPath, false, Downloaded(0)) != []
  {
  }

  /** The `og_image` of an article page: empty when `og.cache_images` is off. */
  function PageOgImage(cacheEnabled: bool, baseUrl: string, article: Article,
                       urlPath: Option<string>, cached: bool, download: Download): string
  {
    if cacheEnabled then
      CacheOgImage(baseUrl, article.heroImage, article.id.GetOr("article"), urlPath, cached, download)
    else ""
  }

  /** A page has an image exactly when caching is on, the article has a hero image and
      it was cached or fetched; the image is then the article's file under `/og/`,
      named by its id or `article` when it has none. */
  lemma PageOgImageSpec(cacheEnabled: bool, baseUrl: string, article: Article,
                        urlPath: Option<string>, cached: bool, download: Download)
    ensures var r := PageOgImage(cacheEnabled, baseUrl, article, urlPath, cached, download);
            && (r != [] <==> cacheEnabled && Strip(article.heroImage) != [] && (cached || download.Downloaded?))
            && (r != [] ==> exists ext :: ext in ImageExts &&
                              r == SiteRoot(baseUrl) + "/og/" + article.id.GetOr("article") + ext)
  {
    CacheOgImageSpec(baseUrl, article.heroImage, article.id.GetOr("article"), urlPath, cached, download);
  }

  // ---------------------------------------------------------------------------
  // The sitemap
  // ---------------------------------------------------------------------------

  /** The `urls` list of `build_site`: the home page, then every article in archive
      order. */
  function SitemapUrls(baseUrl: string, articles: seq<Article>): seq<string> {
    var root := SiteRoot(baseUrl);
    [root + "/"] + seq(|articles|, i requires 0 <= i < |articles| => root + articles[i].path)
  }

  /** The sitemap lists the home page first and then one URL per archive article, each
      under the site root; no article is missed. */
  lemma SitemapCoversArchive(baseUrl: string, articles: seq<Article>)
    ensures var r := SitemapUrls(baseUrl, articles);
            && |r| == |articles| + 1
            && r[0] == SiteRoot(baseUrl) + "/"
            && (forall u :: u in r ==> StartsWith(u, SiteRoot(baseUrl)))
            && (forall a :: a in articles ==> SiteRoot(baseUrl) + a.path in r)
  {
    var r := SitemapUrls(baseUrl, articles);
    var root := SiteRoot(baseUrl);
    forall u | u in r
      ensures StartsWith(u, root)
    {
      var k :| 0 <= k < |r| && r[k] == u;
      if k == 0 {
        assert u[..|root|] == root;
      } else {
        assert u == root + articles[k - 1].path;
        assert u[..|root|] == root;
      }
    }
    forall a | a in articles
      ensures root + a.path in r
    {
      var k :| 0 <= k < |articles| && articles[k] == a;
      assert r[k + 1] == root + a.path;
    }
  }
}

=== FILE: sorting.dfy ===
/** Sequence helpers shared by the ranking code: `Take` (Python's `xs[:k]`), `Filter`
    (a list comprehension with a condition), and a stable descending sort, which is what
    Python's `sorted(xs, key=..., reverse=True)` and `list.sort(..., reverse=True)` are:
    elements whose keys tie keep their original relative order. */
module Sorting {
  import opened Wrappers

  /** `ge` is a total preorder: any two elements compare, and comparison chains. */
  ghost predicate TotalPreorder<T(!new)>(ge: (T, T) -> bool) {
    && (forall x, y :: ge(x, y) || ge(y, x))
    && (forall x, y, z :: ge(x, y) && ge(y, z) ==> ge(x, z))
  }

  ghost predicate SortedBy<T>(s: seq<T>, ge: (T, T) -> bool) {
    forall i, j :: 0 <= i < j < |s| ==> ge(s[i], s[j])
  }

  predicate Tie<T>(x: T, y: T, ge: (T, T) -> bool) {
    ge(x, y) && ge(y, x)
  }

  /** Python's `xs[:k]`. */
  function Take<T>(s: seq<T>, k: nat): (r: seq<T>)
    ensures |r| == if k < |s| then k else |s|
    ensures r == s[..|r|]
  {
    if k < |s| then s[..k] else s
  }

  /** `[x for x in s if p(x)]`. */
  function Filter<T>(s: seq<T>, p: T -> bool): (r: seq<T>)
    ensures |r| <= |s|
  {
    if |s| == 0 then [] else (if p(s[0]) then [s[0]] else []) + Filter(s[1..], p)
  }

  /** `Filter` keeps exactly the elements that satisfy `p`. */
  lemma {:induction false} FilterMembers<T>(s: seq<T>, p: T -> bool)
    ensures forall i :: 0 <= i < |Filter(s, p)| ==> Filter(s, p)[i] in s && p(Filter(s, p)[i])
    ensures forall i :: 0 <= i < |s| && p(s[i]) ==> s[i] in Filter(s, p)
  {
    if |s| > 0 {
      FilterMembers(s[1..], p);
      var r := Filter(s, p);
      var head := if p(s[0]) then [s[0]] else [];
      assert r == head + Filter(s[1..], p);
      forall i | 0 <= i < |r|
        ensures r[i] in s && p(r[i])
      {
        if i >= |head| {
          assert r[i] == Filter(s[1..], p)[i - |head|];
          assert r[i] in s[1..];
        }
      }
      forall i | 0 <= i < |s| && p(s[i])
        ensures s[i] in r
      {
        if i > 0 {
          assert s[i] == s[1..][i - 1];
        }
      }
    }
  }

  lemma {:induction false} FilterAppend<T>(a: seq<T>, b: seq<T>, p: T -> bool)
    ensures Filter(a + b, p) == Filter(a, p) + Filter(b, p)
  {
    if |a| == 0 {
      assert a + b == b;
    } else {
      var head := if p(a[0]) then [a[0]] else [];
      assert (a + b)[1..] == a[1..] + b;
      assert Filter(a + b, p) == head + Filter(a[1..] + b, p);
      FilterAppend(a[1..], b, p);
      assert head + (Filter(a[1..], p) + Filter(b, p)) == (head + Filter(a[1..], p)) + Filter(b, p);
    }
  }

  /** The elements of `s` that tie with `x`, in their order in `s`. A sort is stable when
      it leaves every such subsequence as it was. */
  function Tied<T>(s: seq<T>, x: T, ge: (T, T) -> bool): seq<T> {
    if |s| == 0 then [] else (if Tie(s[0], x, ge) then [s[0]] else []) + Tied(s[1..], x, ge)
  }

  lemma {:induction false} TiedAppend<T>(a: seq<T>, b: seq<T>, x: T, ge: (T, T) -> bool)
    ensures Tied(a + b, x, ge) == Tied(a, x, ge) + Tied(b, x, ge)
  {
    if |a| == 0 {
      assert a + b == b;
    } else {
      var head := if Tie(a[0], x, ge) then [a[0]] else [];
      assert (a + b)[0] == a[0];
      assert (a + b)[1..] == a[1..] + b;
      calc {
        Tied(a + b, x, ge);
        head + Tied(a[1..] + b, x, ge);
        { TiedAppend(a[1..], b, x, ge); }
        head + (Tied(a[1..], x, ge) + Tied(b, x, ge));
        (head + Tied(a[1..], x, ge)) + Tied(b, x, ge);
      }
    }
  }

  lemma {:induction false} TiedNone<T>(s: seq<T>, x: T, ge: (T, T) -> bool)
    requires forall i :: 0 <= i < |s| ==> !Tie(s[i], x, ge)
    ensures Tied(s, x, ge) == []
  {
    if |s| > 0 {
      TiedNone(s[1..], x, ge);
    }
  }

  /** Inserts `x` after every element that is at least as large, so that `x` follows the
      elements it ties with. */
  function Insert<T>(x: T, s: seq<T>, ge: (T, T) -> bool): seq<T> {
    if |s| == 0 then [x]
    else if ge(s[0], x) then [s[0]] + Insert(x, s[1..], ge)
    else [x] + s
  }

  /** Stable sort into non-increasing order, inserting the elements of `s` front to back. */
  function SortDesc<T>(s: seq<T>, ge: (T, T) -> bool): seq<T> {
    if |s| == 0 then [] else Insert(s[|s| - 1], SortDesc(s[..|s| - 1], ge), ge)
  }

  lemma {:induction false} InsertPermutes<T>(x: T, s: seq<T>, ge: (T, T) -> bool)
    ensures multiset(Insert(x, s, ge)) == multiset(s) + multiset{x}
  {
    if |s| > 0 && ge(s[0], x) {
      InsertPermutes(x, s[1..], ge);
      assert s == [s[0]] + s[1..];
    }
  }

  lemma {:induction false} InsertSorted<T(!new)>(x: T, s: seq<T>, ge: (T, T) -> bool)
    requires TotalPreorder(ge)
    requires SortedBy(s, ge)
    ensures SortedBy(Insert(x, s, ge), ge)
  {
    if |s| > 0 {
      if ge(s[0], x) {
        var t := Insert(x, s[1..], ge);
        InsertSorted(x, s[1..], ge);
        InsertPermutes(x, s[1..], ge);
        forall j | 0 <= j < |t|
          ensures ge(s[0], t[j])
        {
          assert t[j] in multiset(t);
          assert t[j] in multiset(s[1..]) || t[j] == x;
          if t[j] != x {
            var k :| 0 <= k < |s[1..]| && s[1..][k] == t[j];
            assert s[k + 1] == t[j];
          }
        }
      } else {
        assert ge(x, s[0]);
        forall i, j | 0 <= i < j < |[x] + s|
          ensures ge(([x] + s)[i], ([x] + s)[j])
        {
          if i == 0 {
            assert ge(s[0], s[j - 1]) || j - 1 == 0;
          }
        }
      }
    }
  }

  lemma {:induction false} InsertTied<T(!new)>(x: T, s: seq<T>, y: T, ge: (T, T) -> bool)
    requires TotalPreorder(ge)
    requires SortedBy(s, ge)
    ensures Tied(Insert(x, s, ge), y, ge) == Tied(s, y, ge) + (if Tie(x, y, ge) then [x] else [])
  {
    var extra := if Tie(x, y, ge) then [x] else [];
    if |s| == 0 {
    } else if ge(s[0], x) {
      var head := if Tie(s[0], y, ge) then [s[0]] else [];
      var t := Insert(x, s[1..], ge);
      SortedTail(s, ge);
      InsertTied(x, s[1..], y, ge);
      assert Insert(x, s, ge) == [s[0]] + t;
      assert ([s[0]] + t)[1..] == t;
      calc {
        Tied([s[0]] + t, y, ge);
        head + Tied(t, y, ge);
        head + (Tied(s[1..], y, ge) + extra);
        (head + Tied(s[1..], y, ge)) + extra;
        Tied(s, y, ge) + extra;
      }
    } else {
      assert Insert(x, s, ge) == [x] + s;
      assert ([x] + s)[1..] == s;
      assert Tied([x] + s, y, ge) == extra + Tied(s, y, ge);
      if Tie(x, y, ge) {
        NoTieBelow(x, s, y, ge);
        TiedNone(s, y, ge);
      }
    }
  }

  /** Nothing in a sorted sequence that starts strictly below `x` ties with what `x`
      ties with. */
  lemma NoTieBelow<T(!new)>(x: T, s: seq<T>, y: T, ge: (T, T) -> bool)
    requires TotalPreorder(ge)
    requires SortedBy(s, ge)
    requires |s| > 0 && !ge(s[0], x) && Tie(x, y, ge)
    ensures forall i :: 0 <= i < |s| ==> !Tie(s[i], y, ge)
  {
    forall i | 0 <= i < |s|
      ensures !Tie(s[i], y, ge)
    {
      if i > 0 {
        assert ge(s[0], s[i]);
      }
    }
  }

  /** `SortDesc` sorts ... */
  lemma {:induction false} SortDescSorted<T(!new)>(s: seq<T>, ge: (T, T) -> bool)
    requires TotalPreorder(ge)
    ensures SortedBy(SortDesc(s, ge), ge)
  {
    if |s| > 0 {
      SortDescSorted(s[..|s| - 1], ge);
      InsertSorted(s[|s| - 1], SortDesc(s[..|s| - 1], ge), ge);
    }
  }

  /** ... permutes ... */
  lemma {:induction false} SortDescPermutes<T>(s: seq<T>, ge: (T, T) -> bool)
    ensures multiset(SortDesc(s, ge)) == multiset(s)
  {
    if |s| > 0 {
      var init := s[..|s| - 1];
      var x := s[|s| - 1];
      SortDescPermutes(init, ge);
      InsertPermutes(x, SortDesc(init, ge), ge);
      assert s == init + [x];
    }
  }

  /** ... and is stable. */
  lemma {:induction false} SortDescStable<T(!new)>(s: seq<T>, ge: (T, T) -> bool, y: T)
    requires TotalPreorder(ge)
    ensures Tied(SortDesc(s, ge), y, ge) == Tied(s, y, ge)
  {
    if |s| > 0 {
      var init := s[..|s| - 1];
      var x := s[|s| - 1];
      SortDescStable(init, ge, y);
      SortDescSorted(init, ge);
      InsertTied(x, SortDesc(init, ge), y, ge);
      assert s == init + [x];
      TiedAppend(init, [x], y, ge);
    }
  }

  /** `SortDesc` sorts, permutes, and is stable. */
  lemma SortDescCorrect<T(!new)>(s: seq<T>, ge: (T, T) -> bool)
    requires TotalPreorder(ge)
    ensures SortedBy(SortDesc(s, ge), ge)
    ensures multiset(SortDesc(s, ge)) == multiset(s)
    ensures forall y :: Tied(SortDesc(s, ge), y, ge) == Tied(s, y, ge)
  {
    SortDescSorted(s, ge);
    SortDescPermutes(s, ge);
    forall y
      ensures Tied(SortDesc(s, ge), y, ge) == Tied(s, y, ge)
    {
      SortDescStable(s, ge, y);
    }
  }

  /** `p` holds of everything at least as large as something it holds of. */
  ghost predicate UpClosed<T(!new)>(p: T -> bool, ge: (T, T) -> bool) {
    forall x, y :: p(y) && ge(x, y) ==> p(x)
  }

  /** In a sequence sorted by `ge`, a condition that is closed upwards under `ge` holds on
      a prefix; so filtering after truncating equals truncating after filtering. */
  lemma FilterTakeOfSorted<T(!new)>(s: seq<T>, k: nat, p: T -> bool, ge: (T, T) -> bool)
    requires SortedBy(s, ge)
    requires UpClosed(p, ge)
    ensures Filter(Take(s, k), p) == Take(Filter(s, p), k)
  {
    var m := UpClosedPrefix(s, p, ge);
    FilterTakeOfPrefix(s, k, p, m);
  }

  /** In a sequence sorted by `ge`, a condition closed upwards holds exactly on the
      first `m` elements, for some `m`. */
  lemma {:induction false} UpClosedPrefix<T(!new)>(s: seq<T>, p: T -> bool, ge: (T, T) -> bool)
    returns (m: nat)
    requires SortedBy(s, ge)
    requires UpClosed(p, ge)
    ensures m <= |s|
    ensures forall i :: 0 <= i < |s| ==> (p(s[i]) <==> i < m)
  {
    if |s| == 0 {
      m := 0;
    } else if !p(s[0]) {
      AllFailAfterFailure(s, p, ge);
      m := 0;
    } else {
      SortedTail(s, ge);
      var m' := UpClosedPrefix(s[1..], p, ge);
      m := m' + 1;
      forall i | 0 < i < |s|
        ensures p(s[i]) <==> i < m
      {
        assert s[i] == s[1..][i - 1];
      }
    }
  }

  /** Filtering after truncating equals truncating after filtering, for a condition that
      holds exactly on a prefix. */
  lemma {:induction false} FilterTakeOfPrefix<T>(s: seq<T>, k: nat, p: T -> bool, m: nat)
    requires m <= |s|
    requires forall i :: 0 <= i < |s| ==> (p(s[i]) <==> i < m)
    ensures Filter(Take(s, k), p) == Take(Filter(s, p), k)
  {
    if |s| == 0 || k == 0 {
    } else if m > 0 {
      var x, tail := s[0], s[1..];
      assert forall i :: 0 <= i < |tail| ==> tail[i] == s[i + 1];
      FilterTakeOfPrefix(tail, k - 1, p, m - 1);
      FilterTakeCons(x, tail, k, p);
      assert s == [x] + tail;
    } else {
      NoneFiltered(s, p);
      NoneFiltered(Take(s, k), p);
    }
  }

  /** The step of `FilterTakeOfSorted` for a head that `p` keeps. */
  lemma FilterTakeCons<T>(x: T, tail: seq<T>, k: nat, p: T -> bool)
    requires k > 0 && p(x)
    requires Filter(Take(tail, k - 1), p) == Take(Filter(tail, p), k - 1)
    ensures Filter(Take([x] + tail, k), p) == Take(Filter([x] + tail, p), k)
  {
    TakeCons(x, tail, k);
    FilterCons(x, Take(tail, k - 1), p);
    FilterCons(x, tail, p);
    TakeCons(x, Filter(tail, p), k);
  }

  lemma AllFailAfterFailure<T(!new)>(s: seq<T>, p: T -> bool, ge: (T, T) -> bool)
    requires |s| > 0 && !p(s[0])
    requires SortedBy(s, ge)
    requires UpClosed(p, ge)
    ensures forall i :: 0 <= i < |s| ==> !p(s[i])
  {
    forall i | 0 < i < |s|
      ensures !p(s[i])
    {
      assert ge(s[0], s[i]);
    }
  }

  lemma SortedTail<T>(s: seq<T>, ge: (T, T) -> bool)
    requires |s| > 0 && SortedBy(s, ge)
    ensures SortedBy(s[1..], ge)
  {
    forall i, j | 0 <= i < j < |s[1..]|
      ensures ge(s[1..][i], s[1..][j])
    {
      assert ge(s[i + 1], s[j + 1]);
    }
  }

  lemma TakeCons<T>(x: T, s: seq<T>, k: nat)
    requires k > 0
    ensures Take([x] + s, k) == [x] + Take(s, k - 1)
  {
    assert ([x] + s)[1..] == s;
  }

  lemma FilterCons<T>(x: T, s: seq<T>, p: T -> bool)
    ensures Filter([x] + s, p) == (if p(x) then [x] else []) + Filter(s, p)
  {
    assert ([x] + s)[1..] == s;
  }

  lemma {:induction false} NoneFiltered<T>(s: seq<T>, p: T -> bool)
    requires forall i :: 0 <= i < |s| ==> !p(s[i])
    ensures Filter(s, p) == []
  {
    if |s| > 0 {
      NoneFiltered(s[1..], p);
    }
  }

  /** The defined results of `f` over `s`, in order: a loop that skips the elements
      for which `f` gives nothing. */
  function FilterMap<A, B>(s: seq<A>, f: A -> Option<B>): (r: seq<B>)
    ensures |r| <= |s|
  {
    if |s| == 0 then []
    else
      var init := FilterMap(s[..|s| - 1], f);
      var last := f(s[|s| - 1]);
      if last.Some? then init + [last.value] else init
  }

  /** Whatever `f` promises of each of its results holds of every element of `FilterMap`. */
  lemma {:induction false} FilterMapAll<A, B>(s: seq<A>, f: A -> Option<B>, p: B -> bool)
    requires forall x :: f(x).Some? ==> p(f(x).value)
    ensures forall k :: 0 <= k < |FilterMap(s, f)| ==> p(FilterMap(s, f)[k])
  {
    if |s| > 0 {
      FilterMapAll(s[..|s| - 1], f, p);
    }
  }

  lemma FilterMapStep<A, B>(s: seq<A>, i: nat, f: A -> Option<B>)
    requires i < |s|
    ensures FilterMap(s[..i + 1], f)
              == FilterMap(s[..i], f) + (if f(s[i]).Some? then [f(s[i]).value] else [])
  {
    assert s[..i + 1][..i] == s[..i];
  }

  /** The results from a prefix of `s` begin the results from all of `s`. */
  lemma {:induction false} FilterMapPrefix<A, B>(s: seq<A>, i: nat, f: A -> Option<B>)
    requires i <= |s|
    ensures var p := FilterMap(s[..i], f);
            var a := FilterMap(s, f);
            |p| <= |a| && a[..|p|] == p
    decreases |s|
  {
    if i < |s| {
      var init := s[..|s| - 1];
      assert init[..i] == s[..i];
      FilterMapPrefix(init, i, f);
    } else {
      assert s[..i] == s;
    }
  }

  /** A loop over `s` that appends each defined `f(x)` and stops as soon as it holds
      `cap` results: the first `cap` results of `FilterMap`. */
  method FilterMapUpTo<A, B>(s: seq<A>, f: A -> Option<B>, cap: nat) returns (r: seq<B>)
    requires cap >= 1
    ensures r == Take(FilterMap(s, f), cap)
  {
    r := [];
    var i := 0;
    while i < |s|
      invariant 0 <= i <= |s|
      invariant r == FilterMap(s[..i], f)
      invariant |r| < cap
    {
      var y := f(s[i]);
      FilterMapStep(s, i, f);
      if y.Some? {
        r := r + [y.value];
      }
      i := i + 1;
      if |r| >= cap {
        FilterMapPrefix(s, i, f);
        return;
      }
    }
    assert s[..i] == s;
  }

  /** The concatenation of a list of lists, outer order first: the visiting order of two
      nested `for` loops. */
  function Flatten<T>(ss: seq<seq<T>>): seq<T> {
    if |ss| == 0 then [] else Flatten(ss[..|ss| - 1]) + ss[|ss| - 1]
  }

  lemma FlattenStep<T>(ss: seq<seq<T>>, i: nat)
    requires i < |ss|
    ensures Flatten(ss[..i + 1]) == Flatten(ss[..i]) + ss[i]
  {
    assert ss[..i + 1][..i] == ss[..i];
  }

  /** An element of the concatenation is an element of one of the lists, and back. */
  lemma {:induction false} FlattenMember<T>(ss: seq<seq<T>>, x: T)
    ensures x in Flatten(ss) <==> exists i :: 0 <= i < |ss| && x in ss[i]
  {
    if |ss| > 0 {
      var init := ss[..|ss| - 1];
      FlattenMember(init, x);
      if x in Flatten(init) {
        var i :| 0 <= i < |init| && x in init[i];
        assert ss[i] == init[i];
      }
      if exists i :: 0 <= i < |ss| && x in ss[i] {
        var i :| 0 <= i < |ss| && x in ss[i];
        if i < |ss| - 1 {
          assert init[i] == ss[i];
        }
      }
    }
  }

  /** Extending the scanned prefix of `xs` by one element extends the filtered result by
      that element exactly when it satisfies `p`. */
  lemma FilterPrefixStep<T>(done: seq<T>, xs: seq<T>, j: nat, p: T -> bool)
    requires j < |xs|
    ensures Filter(done + xs[..j + 1], p)
            == Filter(done + xs[..j], p) + (if p(xs[j]) then [xs[j]] else [])
  {
    assert done + xs[..j + 1] == (done + xs[..j]) + [xs[j]];
    FilterAppend(done + xs[..j], [xs[j]], p);
    assert Filter([xs[j]], p) == (if p(xs[j]) then [xs[j]] else []) + Filter([], p);
  }

  /** Two nested loops that keep, in visiting order, the elements satisfying `p`. */
  method FilterFlatten<T>(ss: seq<seq<T>>, p: T -> bool) returns (r: seq<T>)
    ensures r == Filter(Flatten(ss), p)
  {
    r := [];
    var i := 0;
    while i < |ss|
      invariant 0 <= i <= |ss|
      invariant r == Filter(Flatten(ss[..i]), p)
    {
      var xs := ss[i];
      ghost var done := Flatten(ss[..i]);
      var j := 0;
      assert done + xs[..j] == done;
      while j < |xs|
        invariant 0 <= j <= |xs|
        invariant r == Filter(done + xs[..j], p)
      {
        FilterPrefixStep(done, xs, j, p);
        if p(xs[j]) {
          r := r + [xs[j]];
        }
        j := j + 1;
      }
      assert xs[..j] == xs;
      FlattenStep(ss, i);
      i := i + 1;
    }
    assert ss[..i] == ss;
  }

  /** The first element kept by `Filter` is the first element of `s` satisfying `p`. */
  lemma {:induction false} FilterFirst<T>(s: seq<T>, p: T -> bool)
    requires Filter(s, p) != []
    ensures exists i :: 0 <= i < |s| && s[i] == Filter(s, p)[0] && p(s[i])
                        && forall j :: 0 <= j < i ==> !p(s[j])
  {
    if p(s[0]) {
      assert Filter(s, p)[0] == s[0];
    } else {
      assert Filter(s, p) == Filter(s[1..], p);
      FilterFirst(s[1..], p);
      var i :| 0 <= i < |s[1..]| && s[1..][i] == Filter(s[1..], p)[0] && p(s[1..][i])
               && forall j :: 0 <= j < i ==> !p(s[1..][j]);
      assert s[i + 1] == s[1..][i];
      forall j | 0 <= j < i + 1
        ensures !p(s[j])
      {
        if j > 0 {
          assert s[j] == s[1..][j - 1];
        }
      }
    }
  }

  /** Filtering keeps a sorted sequence sorted. */
  lemma {:induction false} FilterSorted<T>(s: seq<T>, p: T -> bool, ge: (T, T) -> bool)
    requires SortedBy(s, ge)
    ensures SortedBy(Filter(s, p), ge)
  {
    if |s| > 0 {
      SortedTail(s, ge);
      FilterSorted(s[1..], p, ge);
      FilterMembers(s[1..], p);
      var rest := Filter(s[1..], p);
      if p(s[0]) {
        forall j | 0 <= j < |rest|
          ensures ge(s[0], rest[j])
        {
          var k :| 0 <= k < |s[1..]| && s[1..][k] == rest[j];
          assert s[k + 1] == rest[j];
        }
      }
    }
  }

  /** A prefix of a sorted sequence is sorted. */
  lemma TakeSorted<T>(s: seq<T>, k: nat, ge: (T, T) -> bool)
    requires SortedBy(s, ge)
    ensures SortedBy(Take(s, k), ge)
  {
  }

  /** `Filter` keeps nothing exactly when nothing satisfies `p`. */
  lemma FilterEmptyIff<T>(s: seq<T>, p: T -> bool)
    ensures Filter(s, p) == [] <==> forall x :: x in s ==> !p(x)
  {
    FilterMembers(s, p);
    if Filter(s, p) == [] {
      forall x | x in s
        ensures !p(x)
      {
        var i :| 0 <= i < |s| && s[i] == x;
      }
    } else {
      assert Filter(s, p)[0] in s;
    }
  }

  /** `s[pick % |s|]`, the model of `random.choice(s)`, reaches every element of `s`. */
  lemma ChoiceReaches<T>(s: seq<T>, x: T)
    requires x in s
    ensures exists pick: nat :: pick < |s| && s[pick % |s|] == x
  {
    var i :| 0 <= i < |s| && s[i] == x;
    assert i % |s| == i;
  }

  /** The choice at the end of a filtering loop over nested lists: nothing when no element
      satisfies `p`; otherwise the `pick`-th survivor (modulo their number) when `random`,
      else the first. */
  method ChooseFlat<T>(ss: seq<seq<T>>, p: T -> bool, random: bool, pick: nat) returns (r: Option<T>)
    ensures r.None? <==> forall x :: x in Flatten(ss) ==> !p(x)
    ensures r.Some? ==> r.value in Flatten(ss) && p(r.value)
    ensures r.Some? && !random ==>
              exists i :: 0 <= i < |Flatten(ss)| && Flatten(ss)[i] == r.value
                          && forall j :: 0 <= j < i ==> !p(Flatten(ss)[j])
    ensures r.Some? && random ==>
              |Filter(Flatten(ss), p)| > 0 && r.value == Filter(Flatten(ss), p)[pick % |Filter(Flatten(ss), p)|]
  {
    var candidates := FilterFlatten(ss, p);
    FilterEmptyIff(Flatten(ss), p);
    FilterMembers(Flatten(ss), p);
    if |candidates| == 0 {
      return None;
    }
    if random {
      r := Some(candidates[pick % |candidates|]);
    } else {
      FilterFirst(Flatten(ss), p);
      r := Some(candidates[0]);
    }
  }
}

=== FILE: text.dfy ===
/** The pieces of Python's `str` and `re` behaviour that the pipeline relies on:
    whitespace (`str.isspace`, `\s`), `strip`/`rstrip`, `lower`, the `in` operator on
    strings, `startswith`/`endswith`, and the letter equivalences that an IGNORECASE
    regular expression uses for ASCII letters. */
module Text {

  /** `str.isspace()`: the characters that `strip()`, `split()` and the regex class `\s`
      treat as whitespace. */
  predicate IsSpace(c: char) {
    || ('\t' <= c <= '\r')
    || ('\U{1C}' <= c <= ' ')
    || c == '\U{85}' || c == '\U{A0}' || c == '\U{1680}'
    || ('\U{2000}' <= c <= '\U{200A}')
    || c == '\U{2028}' || c == '\U{2029}' || c == '\U{202F}' || c == '\U{205F}' || c == '\U{3000}'
  }

  predicate IsLineBreak(c: char) {
    c == '\n' || c == '\r' || c == '\U{0B}' || c == '\U{0C}' || ('\U{1C}' <= c <= '\U{1E}')
    || c == '\U{85}' || c == '\U{2028}' || c == '\U{2029}'
  }

  lemma LineBreakIsSpace(c: char)
    requires IsLineBreak(c)
    ensures IsSpace(c)
  {
  }

  /** The index where the run of whitespace that ends at `j` starts, going no lower
      than `lo`. */
  function TrailStart(s: string, lo: nat, j: nat): (k: nat)
    requires lo <= j <= |s|
    ensures lo <= k <= j
    ensures forall i :: k <= i < j ==> IsSpace(s[i])
    ensures k == lo || !IsSpace(s[k - 1])
    decreases j - lo
  {
    if j > lo && IsSpace(s[j - 1]) then TrailStart(s, lo, j - 1) else j
  }

  /** `s.lstrip()`. */
  function LStrip(s: string): (r: string)
    ensures |r| <= |s| && r == s[|s| - |r|..]
    ensures forall i :: 0 <= i < |s| - |r| ==> IsSpace(s[i])
    ensures r == [] || !IsSpace(r[0])
  {
    SpaceRunEndSpaces(s, 0);
    s[SpaceRunEnd(s, 0)..]
  }

  /** `s.rstrip()`. */
  function RStrip(s: string): (r: string)
    ensures |r| <= |s| && r == s[..|r|]
    ensures forall i :: |r| <= i < |s| ==> IsSpace(s[i])
    ensures r == [] || !IsSpace(r[|r| - 1])
  {
    s[..TrailStart(s, 0, |s|)]
  }

  /** `s.strip()`: the text between the leading and the trailing whitespace. */
  function Strip(s: string): (r: string)
    ensures r == [] || (!IsSpace(r[0]) && !IsSpace(r[|r| - 1]))
    ensures var a := SpaceRunEnd(s, 0); a + |r| <= |s| && r == s[a..a + |r|]
  {
    var a := SpaceRunEnd(s, 0);
    s[a..TrailStart(s, a, |s|)]
  }

  /** What `Strip` drops is whitespace on both sides. */
  lemma StripSpaces(s: string)
    ensures var a := SpaceRunEnd(s, 0); var r := Strip(s);
              && (forall i :: 0 <= i < a ==> IsSpace(s[i]))
              && (forall i :: a + |r| <= i < |s| ==> IsSpace(s[i]))
  {
    SpaceRunEndSpaces(s, 0);
  }

  /** The whitespace run from `i` ends at the first non-space. */
  lemma {:induction false} SpaceRunEndIs(s: string, i: nat, k: nat)
    requires i <= k <= |s|
    requires forall j :: i <= j < k ==> IsSpace(s[j])
    requires k == |s| || !IsSpace(s[k])
    ensures SpaceRunEnd(s, i) == k
    decreases k - i
  {
    if i < k {
      SpaceRunEndIs(s, i + 1, k);
    }
  }

  /** `TrailStart` is determined by the last non-space. */
  lemma TrailStartIs(s: string, lo: nat, j: nat, k: nat)
    requires lo < k <= j <= |s| && !IsSpace(s[k - 1])
    requires forall i :: k <= i < j ==> IsSpace(s[i])
    ensures TrailStart(s, lo, j) == k
  {
  }

  /** `strip` keeps exactly the text between whitespace-only ends: `x[a..k]`, when
      everything before `a` and from `k` on is whitespace and `x[a..k]` starts and ends
      with a non-space (or is empty). */
  lemma StripIs(x: string, a: nat, k: nat)
    requires a <= k <= |x|
    requires forall i :: 0 <= i < a ==> IsSpace(x[i])
    requires forall i :: k <= i < |x| ==> IsSpace(x[i])
    requires a == k || (!IsSpace(x[a]) && !IsSpace(x[k - 1]))
    ensures Strip(x) == x[a..k]
  {
    if a < k {
      SpaceRunEndIs(x, 0, a);
      TrailStartIs(x, a, |x|, k);
    } else {
      SpaceRunEndIs(x, 0, |x|);
    }
  }

  /** Whitespace in front of a suffix makes no difference once stripped. */
  lemma {:induction false} StripSkipsSpace(s: string, m: nat, c: nat)
    requires m <= c <= |s|
    requires forall i :: m <= i < c ==> IsSpace(s[i])
    ensures Strip(s[m..]) == Strip(s[c..])
    decreases c - m
  {
    if m < c {
      assert s[m..][0] == s[m] && s[m..][1..] == s[m + 1..];
      StripDropsFirst(s[m..]);
      StripSkipsSpace(s, m + 1, c);
    }
  }

  /** One leading whitespace character makes no difference once stripped. */
  lemma StripDropsFirst(y: string)
    requires |y| > 0 && IsSpace(y[0])
    ensures Strip(y) == Strip(y[1..])
  {
    SpaceRunEndTail(y, 0);
    var a := SpaceRunEnd(y[1..], 0);
    assert y[1 + a..] == y[1..][a..];
    assert LStrip(y) == LStrip(y[1..]);
    StripIsRStripOfLStrip(y);
    StripIsRStripOfLStrip(y[1..]);
  }

  lemma {:induction false} SpaceRunEndTail(y: string, i: nat)
    requires 0 < |y| && i <= |y| - 1
    ensures SpaceRunEnd(y, i + 1) == 1 + SpaceRunEnd(y[1..], i)
    decreases |y| - i
  {
    if i < |y| - 1 && IsSpace(y[i + 1]) {
      SpaceRunEndTail(y, i + 1);
    }
  }

  lemma {:induction false} SpaceRunEndShift(c: char, x: string, i: nat)
    requires IsSpace(c) && i <= |x|
    ensures SpaceRunEnd([c] + x, i + 1) == 1 + SpaceRunEnd(x, i)
    decreases |x| - i
  {
    if i < |x| && IsSpace(x[i]) {
      SpaceRunEndShift(c, x, i + 1);
    }
  }

  /** Stripping both ends is stripping the left end, then the right. */
  lemma StripIsRStripOfLStrip(s: string)
    ensures Strip(s) == RStrip(LStrip(s))
  {
    var a := SpaceRunEnd(s, 0);
    var l := s[a..];
    TrailStartShift(s, a, |s|);
  }

  lemma {:induction false} TrailStartShift(s: string, a: nat, j: nat)
    requires a <= j <= |s|
    ensures TrailStart(s[a..], 0, j - a) == TrailStart(s, a, j) - a
    decreases j - a
  {
    if j > a {
      assert s[a..][j - a - 1] == s[j - 1];
      TrailStartShift(s, a, j - 1);
    }
  }

  /** A string without whitespace at either end is its own `strip()`. */
  lemma StripFixed(r: string)
    requires r == [] || (!IsSpace(r[0]) && !IsSpace(r[|r| - 1]))
    ensures Strip(r) == r
  {
  }

  /** Stripping adds no character. */
  lemma StripAddsNothing(s: string, c: char)
    requires c !in s
    ensures c !in Strip(s)
  {
    var r := Strip(s);
    var a := SpaceRunEnd(s, 0);
    forall k | 0 <= k < |r|
      ensures r[k] != c
    {
      assert r[k] == s[a + k];
    }
  }

  /** `s.rstrip(c)` for a single character `c`. */
  function RStripChar(s: string, c: char): (r: string)
    ensures |r| <= |s| && r == s[..|r|]
    ensures forall i :: |r| <= i < |s| ==> s[i] == c
    ensures r == [] || r[|r| - 1] != c
  {
    if |s| > 0 && s[|s| - 1] == c then RStripChar(s[..|s| - 1], c) else s
  }

  /** The index just past the run of whitespace that starts at `i`. */
  function SpaceRunEnd(s: string, i: nat): (r: nat)
    requires i <= |s|
    ensures i <= r <= |s|
    ensures r == |s| || !IsSpace(s[r])
    decreases |s| - i
  {
    if i < |s| && IsSpace(s[i]) then SpaceRunEnd(s, i + 1) else i
  }

  /** Everything the run from `i` passes over is whitespace. */
  lemma {:induction false} SpaceRunEndSpaces(s: string, i: nat)
    requires i <= |s|
    ensures forall k :: i <= k < SpaceRunEnd(s, i) ==> IsSpace(s[k])
    decreases |s| - i
  {
    if i < |s| && IsSpace(s[i]) {
      SpaceRunEndSpaces(s, i + 1);
    }
  }

  predicate OccursAt(s: string, t: string, i: int) {
    0 <= i && i + |t| <= |s| && s[i..i + |t|] == t
  }

  /** Python's `t in s` on strings. */
  predicate Contains(s: string, t: string) {
    exists i :: 0 <= i <= |s| - |t| && OccursAt(s, t, i)
  }

  predicate StartsWith(s: string, t: string) {
    |t| <= |s| && s[..|t|] == t
  }

  predicate EndsWith(s: string, t: string) {
    |t| <= |s| && s[|s| - |t|..] == t
  }

  lemma EmptyIsContained(s: string)
    ensures Contains(s, "")
  {
    assert OccursAt(s, "", 0);
  }

  lemma ContainsInPrefix(s: string, t: string, u: string)
    requires Contains(s, t)
    ensures Contains(s + u, t)
  {
    var i :| 0 <= i <= |s| - |t| && OccursAt(s, t, i);
    assert (s + u)[i..i + |t|] == s[i..i + |t|];
    assert OccursAt(s + u, t, i);
  }

  /** Python's `str.lower()` on one character. Modelled: ASCII and Latin-1 capitals,
      U+0130 (which lowers to "i" followed by U+0307) and U+212A KELVIN SIGN (which
      lowers to "k"). */
  function LowerChar(c: char): string {
    if 'A' <= c <= 'Z' then [(c as int + 32) as char]
    else if '\U{C0}' <= c <= '\U{DE}' && c != '\U{D7}' then [(c as int + 32) as char]
    else if c == '\U{130}' then ['i', '\U{307}']
    else if c == '\U{212A}' then ['k']
    else [c]
  }

  /** `s.lower()`. */
  function Lower(s: string): string {
    if |s| == 0 then [] else LowerChar(s[0]) + Lower(s[1..])
  }

  function AsciiUpperChar(c: char): char {
    if 'a' <= c <= 'z' then (c as int - 32) as char else c
  }

  /** `s` with its ASCII lower-case letters upper-cased, used to state case insensitivity. */
  function AsciiUpper(s: string): (r: string)
    ensures |r| == |s|
  {
    if |s| == 0 then [] else [AsciiUpperChar(s[0])] + AsciiUpper(s[1..])
  }

  /** `AsciiUpper` works character by character. */
  lemma {:induction false} AsciiUpperAt(s: string)
    ensures forall i :: 0 <= i < |s| ==> AsciiUpper(s)[i] == AsciiUpperChar(s[i])
  {
    if |s| > 0 {
      AsciiUpperAt(s[1..]);
      assert AsciiUpper(s) == [AsciiUpperChar(s[0])] + AsciiUpper(s[1..]);
    }
  }

  lemma {:induction false} LowerIgnoresAsciiCase(s: string)
    ensures Lower(AsciiUpper(s)) == Lower(s)
  {
    if |s| > 0 {
      assert AsciiUpper(s) == [AsciiUpperChar(s[0])] + AsciiUpper(s[1..]);
      assert AsciiUpper(s)[1..] == AsciiUpper(s[1..]);
      LowerIgnoresAsciiCase(s[1..]);
    }
  }

  /** Whether `c` matches the pattern character `p` under `re.IGNORECASE`, for a pattern
      character that is a lower-case ASCII letter or a non-letter. Python's engine also
      lets "i" match U+0130 and U+0131, "s" match U+017F and "k" match U+212A. */
  predicate FoldEq(c: char, p: char) {
    || c == p
    || ('a' <= p <= 'z' && c as int == p as int - 32)
    || (p == 'i' && (c == '\U{130}' || c == '\U{131}'))
    || (p == 's' && c == '\U{17F}')
    || (p == 'k' && c == '\U{212A}')
  }

  /** `s` begins with the case-insensitive literal `pat`. */
  predicate FoldPrefix(s: string, pat: string) {
    |pat| <= |s| && forall i {:trigger pat[i]} :: 0 <= i < |pat| ==> FoldEq(s[i], pat[i])
  }

  /** The case-insensitive literal `pat` occurs in `s` at `j`. */
  predicate FoldAt(s: string, j: nat, pat: string) {
    j + |pat| <= |s| && forall i {:trigger pat[i]} :: 0 <= i < |pat| ==> FoldEq(s[j + i], pat[i])
  }

  /** Concatenation regroups; stated once so that proofs need not search for it. */
  lemma AppendAssoc<T>(a: seq<T>, b: seq<T>, c: seq<T>)
    ensures a + (b + c) == (a + b) + c
  {
  }

  /** The number of newline characters in `s[lo..hi]`, counted by position. */
  function NewlinesIn(s: string, lo: nat, hi: nat): (n: nat)
    requires lo <= hi <= |s|
    ensures n <= hi - lo
    decreases hi - lo
  {
    if lo == hi then 0 else NewlinesIn(s, lo, hi - 1) + (if s[hi - 1] == '\n' then 1 else 0)
  }

  /** A stretch without a newline counts none. */
  lemma {:induction false} NewlinesInFree(s: string, lo: nat, hi: nat)
    requires lo <= hi <= |s|
    requires forall i :: lo <= i < hi ==> s[i] != '\n'
    ensures NewlinesIn(s, lo, hi) == 0
    decreases hi - lo
  {
    if lo < hi {
      NewlinesInFree(s, lo, hi - 1);
    }
  }

  /** Cutting the stretch at `m` splits its newlines between the two parts. */
  lemma {:induction false} NewlinesInSplit(s: string, lo: nat, m: nat, hi: nat)
    requires lo <= m <= hi <= |s|
    ensures NewlinesIn(s, lo, hi) == NewlinesIn(s, lo, m) + NewlinesIn(s, m, hi)
    decreases hi - m
  {
    if m < hi {
      NewlinesInSplit(s, lo, m, hi - 1);
    }
  }

  /** A stretch inside another holds no more newlines than it. */
  lemma NewlinesInWithin(s: string, lo: nat, hi: nat, lo': nat, hi': nat)
    requires lo <= lo' <= hi' <= hi <= |s|
    ensures NewlinesIn(s, lo', hi') <= NewlinesIn(s, lo, hi)
  {
    NewlinesInSplit(s, lo, lo', hi);
    NewlinesInSplit(s, lo', hi', hi);
  }

  /** The index of the first `c` at or after `i`, or `|s|` when there is none. */
  function IndexFrom(s: string, c: char, i: nat): (r: nat)
    requires i <= |s|
    ensures i <= r <= |s|
    ensures forall k :: i <= k < r ==> s[k] != c
    ensures r < |s| ==> s[r] == c
    decreases |s| - i
  {
    if i == |s| || s[i] == c then i else IndexFrom(s, c, i + 1)
  }
}

=== FILE: util.dfy ===
/** pipeline/util.py: URL normalisation, title tokens, Jaccard similarity and the one
    sanitisation step applied to generated HTML. */
module Util {
  import opened Text

  // ---------------------------------------------------------------------------
  // normalize_url
  // ---------------------------------------------------------------------------

  predicate IsMarker(c: char) {
    c == '?' || c == '#'
  }

  /** Where the last line of `s` starts: just past its last newline, or 0. */
  function LastLineStart(s: string): (k: nat)
    ensures k <= |s|
    ensures k > 0 ==> s[k - 1] == '\n'
    ensures forall i :: k <= i < |s| ==> s[i] != '\n'
  {
    if |s| == 0 then 0
    else if s[|s| - 1] == '\n' then |s|
    else LastLineStart(s[..|s| - 1])
  }

  /** The first `?` or `#` at or after `k`, or `|s|`. */
  function FirstMarkerFrom(s: string, k: nat): (m: nat)
    requires k <= |s|
    ensures k <= m <= |s|
    ensures forall i :: k <= i < m ==> !IsMarker(s[i])
    ensures m < |s| ==> IsMarker(s[m])
    decreases |s| - k
  {
    if k == |s| || IsMarker(s[k]) then k else FirstMarkerFrom(s, k + 1)
  }

  /** Where `re.sub(r"[?#].*$", "", s)` starts cutting a string that does not end in a
      newline: `.` does not cross a newline and `$` needs the end of the string, so the
      match is the first `?` or `#` of the last line, through to the end. */
  function QueryCut(s: string): (m: nat)
    ensures LastLineStart(s) <= m <= |s|
  {
    FirstMarkerFrom(s, LastLineStart(s))
  }

  /** `re.sub(r"[?#].*$", "", s)`. Without MULTILINE, `$` also matches just before a
      final newline, which the substitution then keeps. */
  function DropQueryFragment(s: string): (r: string)
    ensures (|s| > 0 && s[|s| - 1] == '\n') ==>
              r == s[..QueryCut(s[..|s| - 1])] + "\n"
    ensures !(|s| > 0 && s[|s| - 1] == '\n') ==>
              && |r| <= |s| && r == s[..|r|]
              && (forall i :: LastLineStart(s) <= i < |r| ==> !IsMarker(s[i]))
              && (|r| < |s| ==> IsMarker(s[|r|]) && LastLineStart(s) <= |r|)
  {
    var body := if |s| > 0 && s[|s| - 1] == '\n' then s[..|s| - 1] else s;
    body[..QueryCut(body)] + s[|body|..]
  }

  /** `normalize_url`: strip whitespace, cut the query or fragment, drop trailing slashes. */
  function NormalizeUrl(u: string): (r: string)
    ensures StartsWith(Strip(u), r)
    ensures r == [] || r[|r| - 1] != '/'
    ensures var s := Strip(u);
              && |r| <= QueryCut(s)
              && (forall i :: |r| <= i < QueryCut(s) ==> s[i] == '/')
              && (forall i :: LastLineStart(s) <= i < |r| ==> !IsMarker(r[i]))
    ensures '\n' !in u ==> '?' !in r && '#' !in r
  {
    var s := Strip(u);
    CutStripped(s);
    StrippedHasNoNewline(u);
    RStripChar(DropQueryFragment(s), '/')
  }

  /** The facts behind `NormalizeUrl`'s contract, for an already stripped `s`. */
  lemma CutStripped(s: string)
    requires s == [] || !IsSpace(s[|s| - 1])
    ensures var r := RStripChar(DropQueryFragment(s), '/');
              && StartsWith(s, r)
              && |r| <= QueryCut(s)
              && (forall i :: |r| <= i < QueryCut(s) ==> s[i] == '/')
              && (forall i :: LastLineStart(s) <= i < |r| ==> !IsMarker(r[i]))
              && (LastLineStart(s) == 0 ==> '?' !in r && '#' !in r)
  {
    StrippedDrop(s);
    CutPrefix(s[..QueryCut(s)], QueryCut(s), s, LastLineStart(s));
  }

  lemma StrippedDrop(s: string)
    requires s == [] || !IsSpace(s[|s| - 1])
    ensures DropQueryFragment(s) == s[..QueryCut(s)]
  {
  }

  lemma CutPrefix(d: string, m: nat, s: string, first: nat)
    requires m <= |s| && d == s[..m]
    requires forall i :: first <= i < m ==> !IsMarker(s[i])
    ensures var r := RStripChar(d, '/');
              && StartsWith(s, r)
              && |r| <= m
              && (forall i :: |r| <= i < m ==> s[i] == '/')
              && (forall i :: first <= i < |r| ==> !IsMarker(r[i]))
              && (first == 0 ==> '?' !in r && '#' !in r)
  {
    var r := RStripChar(d, '/');
    assert forall i :: 0 <= i < |r| ==> r[i] == s[i];
    if first == 0 {
      assert forall c :: c in r ==> !IsMarker(c);
    }
  }

  lemma StrippedHasNoNewline(u: string)
    ensures '\n' !in u ==> LastLineStart(Strip(u)) == 0
  {
  }

  /** A one-line URL with a query or fragment after a trailing slash loses both:
      `"https://x.com/a/?q=1#frag"` (with `a` = `"https://x.com/a"`, `m` = `'?'`,
      `q` = `"q=1#frag"`) normalises to `"https://x.com/a"`. */
  lemma NormalizeUrlDropsQuery(a: string, m: char, q: string)
    requires |a| > 0 && !IsSpace(a[0]) && a[|a| - 1] != '/'
    requires forall i :: 0 <= i < |a| ==> !IsMarker(a[i]) && a[i] != '\n'
    requires IsMarker(m)
    requires '\n' !in q && (q == [] || !IsSpace(q[|q| - 1]))
    ensures NormalizeUrl(a + "/" + [m] + q) == a
  {
    var u := a + "/" + [m] + q;
    DropsQueryLayout(a, m, q, u);
    NormalizeStrippedAt(u, |a| + 1);
    SlashOnce(a);
  }

  /** The shape of the URL in `NormalizeUrlDropsQuery`: already stripped, with its cut
      just past the slash. */
  lemma DropsQueryLayout(a: string, m: char, q: string, u: string)
    requires |a| > 0 && !IsSpace(a[0]) && a[|a| - 1] != '/'
    requires forall i :: 0 <= i < |a| ==> !IsMarker(a[i]) && a[i] != '\n'
    requires IsMarker(m)
    requires '\n' !in q && (q == [] || !IsSpace(q[|q| - 1]))
    requires u == a + "/" + [m] + q
    ensures !IsSpace(u[|u| - 1]) && Strip(u) == u
    ensures QueryCut(u) == |a| + 1 && u[..|a| + 1] == a + "/"
  {
    var n := |a|;
    assert u[0] == a[0];
    assert u[|u| - 1] == if q == [] then m else q[|q| - 1];
    StripFixed(u);
    forall i | 0 <= i < |u|
      ensures u[i] != '\n'
    {
      if i > n + 1 {
        assert u[i] == q[i - n - 2];
      }
    }
    LastLineStartIs(u, 0);
    FirstMarkerIs(u, 0, n + 1);
    assert u[..n + 1] == a + "/";
  }

  /** A stripped URL normalises to its text before the cut, less trailing slashes. */
  lemma NormalizeStrippedAt(u: string, n: nat)
    requires u != [] && !IsSpace(u[|u| - 1]) && Strip(u) == u && QueryCut(u) == n
    ensures NormalizeUrl(u) == RStripChar(u[..n], '/')
  {
    StrippedDrop(u);
  }

  lemma FirstMarkerIs(x: string, k: nat, m: nat)
    requires k <= m < |x| && IsMarker(x[m])
    requires forall i :: k <= i < m ==> !IsMarker(x[i])
    ensures FirstMarkerFrom(x, k) == m
    decreases m - k
  {
    if k < m {
      FirstMarkerIs(x, k + 1, m);
    }
  }

  lemma SlashOnce(a: string)
    requires |a| > 0 && a[|a| - 1] != '/'
    ensures RStripChar(a + "/", '/') == a
  {
    assert (a + "/")[..|a|] == a;
  }

  lemma LastLineStartIs(x: string, k: nat)
    requires k <= |x|
    requires k == 0 || x[k - 1] == '\n'
    requires forall i :: k <= i < |x| ==> x[i] != '\n'
    ensures LastLineStart(x) == k
  {
  }

  lemma NoMarkerFrom(x: string, k: nat)
    requires k <= |x|
    requires forall i :: k <= i < |x| ==> !IsMarker(x[i])
    ensures FirstMarkerFrom(x, k) == |x|
  {
  }

  /** `normalize_url` is idempotent on every URL whose normal form does not end in
      whitespace. */
  lemma NormalizeUrlIdempotent(u: string)
    requires NormalizeUrl(u) == [] || !IsSpace(NormalizeUrl(u)[|NormalizeUrl(u)| - 1])
    ensures NormalizeUrl(NormalizeUrl(u)) == NormalizeUrl(u)
  {
    var s := Strip(u);
    var r := NormalizeUrl(u);
    if r != [] {
      assert r[0] == s[0];
    }
    StripFixed(r);
    CutOfNormalized(s, r);
    StrippedDrop(r);
    assert DropQueryFragment(r) == r;
  }

  /** Nothing is left to cut in a normalised URL. */
  lemma CutOfNormalized(s: string, r: string)
    requires |r| <= QueryCut(s) && r == s[..|r|]
    requires forall i :: |r| <= i < QueryCut(s) ==> s[i] == '/'
    requires forall i :: LastLineStart(s) <= i < |r| ==> !IsMarker(r[i])
    ensures QueryCut(r) == |r|
  {
    var first := LastLineStart(s);
    assert first <= |r|;
    assert forall i :: first <= i < |r| ==> r[i] == s[i];
    LastLineStartIs(r, first);
    NoMarkerFrom(r, first);
  }

  /** Without that restriction idempotence fails: the whitespace before a removed slash
      survives the first pass and is stripped by the second. */
  lemma NormalizeUrlNotIdempotent()
    ensures NormalizeUrl("a /") == "a "
    ensures NormalizeUrl("a ") == "a"
  {
    var u := "a /";
    assert LStrip(u) == u && RStrip(u) == u;
    assert Strip(u) == u;
    NoMarkerFrom(u, 0);
    LastLineStartIs(u, 0);
    assert RStripChar(u, '/') == "a ";
    var v := "a ";
    assert LStrip(v) == v;
    assert RStrip(v) == "a";
    NoMarkerFrom("a", 0);
    LastLineStartIs("a", 0);
  }

  // ---------------------------------------------------------------------------
  // simple_tokens
  // ---------------------------------------------------------------------------

  predicate IsTokenChar(c: char) {
    'a' <= c <= 'z' || '0' <= c <= '9'
  }

  /** The characters `[a-z0-9\s]` that the scrub keeps. */
  predicate Kept(c: char) {
    IsTokenChar(c) || IsSpace(c)
  }

  /** The index just past the run of characters, starting at `i`, that the scrub replaces. */
  function RejectRunEnd(s: string, i: nat): (r: nat)
    requires i <= |s|
    ensures i <= r <= |s|
    ensures r == |s| || Kept(s[r])
    decreases |s| - i
  {
    if i < |s| && !Kept(s[i]) then RejectRunEnd(s, i + 1) else i
  }

  /** `re.sub(r"[^a-z0-9\s]+", " ", s)`: every maximal run of other characters becomes
      one space. */
  function Scrub(s: string): (r: string)
    ensures forall i :: 0 <= i < |r| ==> Kept(r[i])
    decreases |s|
  {
    if |s| == 0 then []
    else if Kept(s[0]) then [s[0]] + Scrub(s[1..])
    else [' '] + Scrub(s[RejectRunEnd(s, 1)..])
  }

  /** The index just past the run of non-whitespace characters starting at `i`. */
  function WordEnd(s: string, i: nat): (r: nat)
    requires i <= |s|
    ensures i <= r <= |s|
    ensures forall k :: i <= k < r ==> !IsSpace(s[k])
    ensures r == |s| || IsSpace(s[r])
    decreases |s| - i
  {
    if i < |s| && !IsSpace(s[i]) then WordEnd(s, i + 1) else i
  }

  /** `s.split()`: the maximal runs of non-whitespace characters, in order. */
  function Words(s: string): (ws: seq<string>)
    ensures forall i :: 0 <= i < |ws| ==> ws[i] != []
    ensures forall i, j :: 0 <= i < |ws| && 0 <= j < |ws[i]| ==> !IsSpace(ws[i][j]) && ws[i][j] in s
    decreases |s|
  {
    if |s| == 0 then []
    else if IsSpace(s[0]) then Words(s[1..])
    else
      var n := WordEnd(s, 0);
      [s[..n]] + Words(s[n..])
  }

  /** `simple_tokens`: the set of lower-cased alphanumeric words longer than two characters. */
  function SimpleTokens(title: string): (r: set<string>)
    ensures forall w :: w in r ==> |w| >= 3 && forall j :: 0 <= j < |w| ==> IsTokenChar(w[j])
  {
    var scrubbed := Scrub(Lower(title));
    var ws := Words(scrubbed);
    assert forall i, j :: 0 <= i < |ws| && 0 <= j < |ws[i]| ==> IsTokenChar(ws[i][j]) by {
      forall i, j | 0 <= i < |ws| && 0 <= j < |ws[i]|
        ensures IsTokenChar(ws[i][j])
      {
        var c := ws[i][j];
        var k :| 0 <= k < |scrubbed| && scrubbed[k] == c;
        assert Kept(scrubbed[k]);
      }
    }
    set w | w in ws && |w| > 2
  }

  /** `s[i..j]` is a maximal run of non-whitespace characters of `s`. */
  predicate WordAt(s: string, i: nat, j: nat) {
    && i < j <= |s|
    && (i == 0 || IsSpace(s[i - 1]))
    && (j == |s| || IsSpace(s[j]))
    && forall k :: i <= k < j ==> !IsSpace(s[k])
  }

  /** A run of a suffix of `s` is a run of `s`, if the suffix starts after a space or the
      run does not start the suffix ... */
  lemma RunToWhole(s: string, d: nat, i: nat, j: nat)
    requires d <= |s| && WordAt(s[d..], i, j)
    requires i > 0 || d == 0 || IsSpace(s[d - 1])
    ensures WordAt(s, i + d, j + d) && s[d..][i..j] == s[i + d..j + d]
  {
    var t := s[d..];
    assert forall k :: 0 <= k < |t| ==> t[k] == s[k + d];
  }

  /** ... and a run of `s` inside the suffix is a run of the suffix. */
  lemma RunToSuffix(s: string, d: nat, i: nat, j: nat)
    requires d <= i && WordAt(s, i, j)
    ensures WordAt(s[d..], i - d, j - d) && s[d..][i - d..j - d] == s[i..j]
  {
    var t := s[d..];
    assert forall k :: 0 <= k < |t| ==> t[k] == s[k + d];
  }

  /** `w` is one of the maximal runs of non-whitespace characters of `s`. */
  predicate RunOf(s: string, w: string) {
    exists i: nat, j: nat :: i < j <= |s| && WordAt(s, i, j) && s[i..j] == w
  }

  lemma RunOfWitness(s: string, i: nat, j: nat)
    requires WordAt(s, i, j)
    ensures RunOf(s, s[i..j])
  {
  }

  /** `Words(s)` holds exactly the maximal runs of non-whitespace characters of `s`. */
  lemma WordsAreRuns(s: string, w: string)
    ensures w in Words(s) <==> RunOf(s, w)
  {
    if w in Words(s) {
      var i, j := WordPlace(s, w);
      RunOfWitness(s, i, j);
    }
    if RunOf(s, w) {
      var i: nat, j: nat :| i < j <= |s| && WordAt(s, i, j) && s[i..j] == w;
      RunInWords(s, i, j);
    }
  }

  /** Every maximal run is one of the words. */
  lemma {:induction false} RunInWords(s: string, i: nat, j: nat)
    requires WordAt(s, i, j)
    ensures s[i..j] in Words(s)
    decreases |s|, 1
  {
    if IsSpace(s[0]) {
      assert i > 0;
      RunToSuffix(s, 1, i, j);
      RunInWords(s[1..], i - 1, j - 1);
    } else {
      RunInWordsFromRun(s, i, j);
    }
  }

  /** The same, for `s` starting with a run. */
  lemma {:induction false} RunInWordsFromRun(s: string, i: nat, j: nat)
    requires WordAt(s, i, j) && !IsSpace(s[0])
    ensures s[i..j] in Words(s)
    decreases |s|, 0
  {
    var n := WordEnd(s, 0);
    assert Words(s) == [s[..n]] + Words(s[n..]);
    FirstRunPlace(s, n, i, j);
    if i > 0 {
      RunToSuffix(s, n, i, j);
      RunInWords(s[n..], i - n, j - n);
    }
  }

  /** Every word is a maximal run, found at `s[i..j]`. */
  lemma {:induction false} WordPlace(s: string, w: string) returns (i: nat, j: nat)
    requires w in Words(s)
    ensures WordAt(s, i, j) && s[i..j] == w
    decreases |s|, 1
  {
    if IsSpace(s[0]) {
      var a, b := WordPlace(s[1..], w);
      RunToWhole(s, 1, a, b);
      i, j := a + 1, b + 1;
    } else {
      i, j := WordPlaceFromRun(s, w);
    }
  }

  /** The same, for `s` starting with a run. */
  lemma {:induction false} WordPlaceFromRun(s: string, w: string) returns (i: nat, j: nat)
    requires w in Words(s) && !IsSpace(s[0])
    ensures WordAt(s, i, j) && s[i..j] == w
    decreases |s|, 0
  {
    var n := WordEnd(s, 0);
    if w == s[..n] {
      assert WordAt(s, 0, n);
      i, j := 0, n;
    } else {
      LaterWord(s, n, w);
      var a, b := WordPlace(s[n..], w);
      RunAfterFirst(s, n, a, b);
      i, j := a + n, b + n;
    }
  }

  /** A word of `s` other than its first is a word of what follows the first. */
  lemma LaterWord(s: string, n: nat, w: string)
    requires |s| > 0 && !IsSpace(s[0]) && n == WordEnd(s, 0)
    requires w in Words(s) && w != s[..n]
    ensures w in Words(s[n..])
  {
    assert Words(s) == [s[..n]] + Words(s[n..]);
  }

  /** A run of what follows the first run of `s` is a run of `s`. */
  lemma RunAfterFirst(s: string, n: nat, a: nat, b: nat)
    requires |s| > 0 && !IsSpace(s[0]) && n == WordEnd(s, 0)
    requires WordAt(s[n..], a, b)
    ensures WordAt(s, a + n, b + n) && s[n..][a..b] == s[a + n..b + n]
  {
    assert s[n..][0] == s[n];
    RunToWhole(s, n, a, b);
  }

  /** A run of `s` either is the first run `s[0..n]` or starts after it. */
  lemma FirstRunPlace(s: string, n: nat, i: nat, j: nat)
    requires |s| > 0 && !IsSpace(s[0]) && n == WordEnd(s, 0)
    requires WordAt(s, i, j)
    ensures i == 0 ==> j == n
    ensures i > 0 ==> i > n
  {
    if i > 0 {
      assert IsSpace(s[i - 1]);
    }
  }

  /** The tokens of a title are exactly the maximal runs longer than two characters of the
      lower-cased title with every stretch outside `[a-z0-9\s]` made one space. */
  lemma SimpleTokensAreRuns(title: string, w: string)
    ensures var s := Scrub(Lower(title));
      w in SimpleTokens(title) <==> |w| > 2 && RunOf(s, w)
  {
    var s := Scrub(Lower(title));
    WordsAreRuns(s, w);
    assert w in SimpleTokens(title) <==> w in Words(s) && |w| > 2;
  }

  /** Token extraction does not see ASCII letter case. */
  lemma SimpleTokensIgnoreAsciiCase(title: string)
    ensures SimpleTokens(AsciiUpper(title)) == SimpleTokens(title)
  {
    LowerIgnoresAsciiCase(title);
  }

  // ---------------------------------------------------------------------------
  // jaccard, as an exact ratio
  // ---------------------------------------------------------------------------

  /** A non-negative rational `num / den`; the denominators built here are positive. */
  datatype Ratio = Ratio(num: nat, den: nat)

  /** The denominator, read as 1 when it is 0; `Jaccard` never builds a zero one, and
      reading it so makes `RatioGe` a total preorder on every `Ratio`. */
  function Den(r: Ratio): (d: nat)
    ensures d > 0 && (r.den > 0 ==> d == r.den)
  {
    if r.den == 0 then 1 else r.den
  }

  /** `x >= y` as rationals. */
  predicate RatioGe(x: Ratio, y: Ratio) {
    x.num * Den(y) >= y.num * Den(x)
  }

  /** `jaccard`: 1 for two empty sets, 0 when exactly one is empty, otherwise the size of
      the intersection over the size of the union. */
  function Jaccard<T>(a: set<T>, b: set<T>): (r: Ratio)
    ensures 0 < r.den && r.num <= r.den
    ensures a == {} && b == {} ==> r.num == r.den
    ensures (a == {}) != (b == {}) ==> r.num == 0
    ensures a != {} && b != {} ==> r.num * |a + b| == |a * b| * r.den
  {
    if a == {} && b == {} then Ratio(1, 1)
    else if a == {} || b == {} then Ratio(0, 1)
    else
      assert a <= a + b;
      assert a * b <= a + b;
      SubsetCard(a * b, a + b);
      Ratio(|a * b|, |a + b|)
  }

  lemma SubsetCard<T>(x: set<T>, y: set<T>)
    requires x <= y
    ensures |x| <= |y|
    ensures |x| == |y| ==> x == y
  {
    assert y == x + (y - x);
    assert |y| == |x| + |y - x|;
    if |x| == |y| {
      assert y - x == {};
    }
  }

  /** Jaccard similarity does not depend on the order of its arguments. */
  lemma JaccardSymmetric<T>(a: set<T>, b: set<T>)
    ensures Jaccard(a, b) == Jaccard(b, a)
  {
    assert a * b == b * a;
    assert a + b == b + a;
  }

  /** Similarity 1 means the two sets are equal. */
  lemma JaccardOneIffEqual<T>(a: set<T>, b: set<T>)
    ensures Jaccard(a, b).num == Jaccard(a, b).den <==> a == b
  {
    if a != {} && b != {} {
      SubsetCard(a * b, a + b);
      if a == b {
        assert a * b == a + b;
      }
      if |a * b| == |a + b| {
        assert a * b == a + b;
        assert a <= a * b;
        assert b <= a * b;
      }
    }
  }

  /** `jaccard({x, y}, {y, z}) = 1/3` for three distinct elements. */
  lemma JaccardExample<T>(x: T, y: T, z: T)
    requires x != y && y != z && x != z
    ensures RatioGe(Jaccard({x, y}, {y, z}), Ratio(1, 3))
    ensures RatioGe(Ratio(1, 3), Jaccard({x, y}, {y, z}))
  {
    assert {x, y} * {y, z} == {y};
    assert {x, y} + {y, z} == {x, y, z};
  }

  lemma RatioGeTotal(x: Ratio, y: Ratio)
    ensures RatioGe(x, y) || RatioGe(y, x)
  {
  }

  lemma RatioGeTransitive(x: Ratio, y: Ratio, z: Ratio)
    requires RatioGe(x, y) && RatioGe(y, z)
    ensures RatioGe(x, z)
  {
    CrossTransitive(x.num, Den(x), y.num, Den(y), z.num, Den(z));
  }

  /** `a/da >= b/db >= c/dc` implies `a/da >= c/dc`, for positive denominators. */
  lemma CrossTransitive(a: int, da: int, b: int, db: int, c: int, dc: int)
    requires da > 0 && db > 0 && dc > 0
    requires a * db >= b * da && b * dc >= c * db
    ensures a * dc >= c * da
  {
    MulMonotone(a * db, b * da, dc);
    MulMonotone(b * dc, c * db, da);
    assert (a * db) * dc == (a * dc) * db;
    assert (b * da) * dc == (b * dc) * da;
    assert (c * db) * da == (c * da) * db;
    MulCancel(a * dc, c * da, db);
  }

  lemma MulMonotone(a: int, b: int, c: nat)
    requires a >= b
    ensures a * c >= b * c
  {
  }

  lemma MulCancel(a: int, b: int, c: int)
    requires c > 0 && a * c >= b * c
    ensures a >= b
  {
    assert a * c - b * c == (a - b) * c;
  }

  /** The near-duplicate threshold: similarity at least 0.78. */
  predicate TooSimilar(r: Ratio) {
    100 * r.num >= 78 * Den(r)
  }

  /** The related-articles threshold: similarity above 0.05. */
  predicate AboveRelatedCutoff(r: Ratio) {
    20 * r.num > Den(r)
  }

  /** A ratio at least as large as one above the cutoff is above it too. */
  lemma AboveRelatedCutoffUp(x: Ratio, y: Ratio)
    requires RatioGe(x, y) && AboveRelatedCutoff(y)
    ensures AboveRelatedCutoff(x)
  {
    CrossAbove(x.num, Den(x), y.num, Den(y));
  }

  /** `a/da >= b/db > 1/20` implies `a/da > 1/20`, for positive denominators. */
  lemma CrossAbove(a: int, da: int, b: int, db: int)
    requires da > 0 && db > 0
    requires a * db >= b * da && 20 * b > db
    ensures 20 * a > da
  {
    MulMonotone(20 * b, db + 1, da);
    assert (20 * b) * da == 20 * (b * da);
    assert (db + 1) * da == db * da + da;
    assert (20 * a) * db == 20 * (a * db);
    assert (20 * a) * db > da * db;
    if 20 * a <= da {
      MulMonotone(da, 20 * a, db);
    }
  }

  // ---------------------------------------------------------------------------
  // sanitize_llm_html
  // ---------------------------------------------------------------------------

  /** A character of the regex class `\w`: one for which `str.isalnum()` holds, or `_`.
      Up to U+00FF this is exact. Above it the Unicode category table is not modelled:
      every non-space character counts, except General Punctuation (U+2000 to U+206F)
      and the ideographic comma, full stop and ditto mark (U+3001 to U+3003). */
  predicate IsWordChar(c: char) {
    || 'a' <= c <= 'z' || 'A' <= c <= 'Z' || '0' <= c <= '9' || c == '_'
    || c == '\U{AA}' || c == '\U{B2}' || c == '\U{B3}' || c == '\U{B5}'
    || c == '\U{B9}' || c == '\U{BA}' || ('\U{BC}' <= c <= '\U{BE}')
    || ('\U{C0}' <= c <= '\U{FF}' && c != '\U{D7}' && c != '\U{F7}')
    || (c > '\U{FF}' && !IsSpace(c) && !('\U{2000}' <= c <= '\U{206F}')
        && !('\U{3001}' <= c <= '\U{3003}'))
  }

  /** `t` begins with `\s*script\b`, ignoring case: what has to follow a `<` for the
      sanitiser to rewrite it. */
  predicate ScriptAfterSpaces(t: string) {
    var j := SpaceRunEnd(t, 0);
    FoldPrefix(t[j..], "script") && (j + 6 == |t| || !IsWordChar(t[j + 6]))
  }

  /** The pattern `(?is)<\s*script\b` matches at the start of `s`. */
  predicate OpenerAt(s: string) {
    |s| > 0 && s[0] == '<' && ScriptAfterSpaces(s[1..])
  }

  /** No position of `s` starts a match of the pattern. */
  predicate NoOpener(s: string) {
    forall i :: 0 <= i < |s| ==> !OpenerAt(s[i..])
  }

  /** The length of the match at the start of `s`. */
  function OpenerLength(s: string): (n: nat)
    requires OpenerAt(s)
    ensures 7 <= n <= |s|
  {
    1 + SpaceRunEnd(s[1..], 0) + 6
  }

  /** `sanitize_llm_html`: every match, scanning left to right, becomes "&lt;script". */
  function Sanitize(s: string): string
    decreases |s|
  {
    if |s| == 0 then []
    else if OpenerAt(s) then "&lt;script" + Sanitize(s[OpenerLength(s)..])
    else [s[0]] + Sanitize(s[1..])
  }

  lemma SanitizeHead(x: string)
    requires |x| > 0
    ensures |Sanitize(x)| > 0
    ensures Sanitize(x)[0] == if OpenerAt(x) then '&' else x[0]
  {
  }

  /** A stretch without `<` passes through unchanged. */
  lemma {:induction false} SanitizeNoLt(x: string, k: nat)
    requires k <= |x|
    requires forall i :: 0 <= i < k ==> x[i] != '<'
    ensures Sanitize(x) == x[..k] + Sanitize(x[k..])
  {
    if k > 0 {
      assert !OpenerAt(x);
      assert Sanitize(x) == [x[0]] + Sanitize(x[1..]);
      SanitizeNoLt(x[1..], k - 1);
      assert x[1..][k - 1..] == x[k..];
      assert x[..k] == [x[0]] + x[1..][..k - 1];
      AppendAssoc([x[0]], x[1..][..k - 1], Sanitize(x[k..]));
    }
  }

  lemma SpaceShift(c: char, x: string)
    requires IsSpace(c)
    ensures ScriptAfterSpaces([c] + x) <==> ScriptAfterSpaces(x)
  {
    SpaceRunEndShift(c, x, 0);
    var j := SpaceRunEnd(x, 0);
    assert SpaceRunEnd([c] + x, 0) == j + 1;
    assert ([c] + x)[j + 1..] == x[j..];
  }

  /** Sanitising cannot create the text that follows `<` in a match. */
  lemma {:induction false} ScriptAfterSpacesBack(t: string)
    requires ScriptAfterSpaces(Sanitize(t))
    ensures ScriptAfterSpaces(t)
    decreases |t|
  {
    var r := Sanitize(t);
    assert |t| > 0;
    SanitizeHead(t);
    if OpenerAt(t) {
      assert false;
    } else if IsSpace(t[0]) {
      assert r == [t[0]] + Sanitize(t[1..]);
      SpaceShift(t[0], Sanitize(t[1..]));
      ScriptAfterSpacesBack(t[1..]);
      SpaceShift(t[0], t[1..]);
      assert t == [t[0]] + t[1..];
    } else {
      assert r == [t[0]] + Sanitize(t[1..]);
      PlainHeadBack(t);
    }
  }

  /** The case of `ScriptAfterSpacesBack` where `t` starts with a letter. */
  lemma PlainHeadBack(t: string)
    requires |t| > 0 && !OpenerAt(t) && !IsSpace(t[0])
    requires ScriptAfterSpaces([t[0]] + Sanitize(t[1..]))
    ensures ScriptAfterSpaces(t)
  {
    var r := [t[0]] + Sanitize(t[1..]);
    assert SpaceRunEnd(r, 0) == 0;
    assert r[0..] == r;
    LaterLt(t, IndexFrom(t, '<', 1));
    SixKept(t);
    assert SpaceRunEnd(t, 0) == 0;
    assert t[0..] == t;
    assert FoldPrefix(t, "script");
  }

  /** When `t[1..6]` holds no `<`, sanitising keeps the first six characters, and the
      seventh is kept too unless it starts a match. */
  lemma SixKept(t: string)
    requires |t| >= 6 && forall i :: 1 <= i < 6 ==> t[i] != '<'
    ensures var r := [t[0]] + Sanitize(t[1..]);
            && |r| >= 6 && r[..6] == t[..6]
            && (|r| > 6 <==> |t| > 6)
            && (|r| > 6 ==> r[6] == t[6] || (r[6] == '&' && t[6] == '<'))
  {
    var x := t[1..];
    assert forall i :: 0 <= i < 5 ==> x[i] == t[i + 1];
    SanitizeNoLt(x, 5);
    var tail := Sanitize(x[5..]);
    assert x[5..] == t[6..];
    var r := [t[0]] + Sanitize(x);
    assert r == [t[0]] + x[..5] + tail;
    assert r[..6] == t[..6];
    if |t| > 6 {
      SanitizeHead(t[6..]);
      assert r[6] == tail[0];
    } else {
      assert tail == [];
    }
  }

  /** Helper for `ScriptAfterSpacesBack`: the five letters after the first one cannot
      come from a rewritten or a kept `<`. */
  lemma LaterLt(t: string, k: nat)
    requires |t| > 0 && !OpenerAt(t) && !IsSpace(t[0])
    requires FoldPrefix([t[0]] + Sanitize(t[1..]), "script")
    requires k == IndexFrom(t, '<', 1)
    ensures k >= 6
  {
    if k < 6 {
      if k == |t| {
        ShortNoFold(t);
      } else {
        LtBreaksFold(t, k);
      }
    }
  }

  lemma ShortNoFold(t: string)
    requires 0 < |t| < 6
    requires forall i :: 1 <= i < |t| ==> t[i] != '<'
    ensures !FoldPrefix([t[0]] + Sanitize(t[1..]), "script")
  {
    var x := t[1..];
    assert forall i :: 0 <= i < |x| ==> x[i] == t[i + 1];
    SanitizeNoLt(x, |x|);
    assert x[|x|..] == [];
    assert |Sanitize(x)| == |x|;
  }

  lemma LtBreaksFold(t: string, k: nat)
    requires 1 <= k < 6 && k < |t|
    requires t[k] == '<' && forall i :: 1 <= i < k ==> t[i] != '<'
    ensures !FoldPrefix([t[0]] + Sanitize(t[1..]), "script")
  {
    var x := t[1..];
    var u := t[k..];
    assert x[k - 1..] == u;
    SanitizeNoLt(x, k - 1);
    var rest := Sanitize(x);
    assert rest == x[..k - 1] + Sanitize(u);
    SanitizeHead(u);
    var c := Sanitize(u)[0];
    assert rest[k - 1] == c;
    LetterNotFold(c, "script"[k]);
  }

  lemma LetterNotFold(c: char, p: char)
    requires c == '&' || c == '<'
    requires p in "script"
    ensures !FoldEq(c, p)
  {
  }

  /** After sanitising, nothing matches `(?is)<\s*script\b`. */
  lemma {:induction false} SanitizeRemovesOpeners(s: string)
    ensures NoOpener(Sanitize(s))
    decreases |s|
  {
    if |s| > 0 {
      if OpenerAt(s) {
        var rest := s[OpenerLength(s)..];
        SanitizeRemovesOpeners(rest);
        EscapedClean(Sanitize(rest));
      } else {
        SanitizeRemovesOpeners(s[1..]);
        if s[0] == '<' && ScriptAfterSpaces(Sanitize(s[1..])) {
          ScriptAfterSpacesBack(s[1..]);
        }
        ConsClean(s[0], Sanitize(s[1..]));
      }
    }
  }

  lemma EscapedClean(x: string)
    requires NoOpener(x)
    ensures NoOpener("&lt;script" + x)
  {
    var p := "&lt;script";
    var r := p + x;
    forall i | 0 <= i < |r|
      ensures !OpenerAt(r[i..])
    {
      if i >= |p| {
        assert r[i..] == x[i - |p|..];
      } else {
        assert r[i..][0] == p[i];
      }
    }
  }

  lemma ConsClean(c: char, x: string)
    requires NoOpener(x)
    requires !(c == '<' && ScriptAfterSpaces(x))
    ensures NoOpener([c] + x)
  {
    var r := [c] + x;
    forall i | 0 <= i < |r|
      ensures !OpenerAt(r[i..])
    {
      if i > 0 {
        assert r[i..] == x[i - 1..];
      } else {
        assert r[0..] == r;
        assert r[1..] == x;
      }
    }
  }

  /** A string with no match is returned unchanged. */
  lemma {:induction false} SanitizeKeepsClean(s: string)
    requires NoOpener(s)
    ensures Sanitize(s) == s
    decreases |s|
  {
    if |s| > 0 {
      assert s[0..] == s;
      assert forall i :: 0 <= i < |s[1..]| ==> s[1..][i..] == s[i + 1..];
      SanitizeKeepsClean(s[1..]);
    }
  }

  /** Sanitising changes a string exactly when something in it matches, and so doing it
      twice is the same as doing it once. */
  lemma SanitizeFixedIff(s: string)
    ensures Sanitize(s) == s <==> NoOpener(s)
    ensures Sanitize(Sanitize(s)) == Sanitize(s)
  {
    SanitizeRemovesOpeners(s);
    if NoOpener(s) {
      SanitizeKeepsClean(s);
    }
    SanitizeKeepsClean(Sanitize(s));
  }

  /** `\b` after "script": a tag is rewritten whatever its case and spacing ... */
  lemma SanitizeRewritesTag()
    ensures Sanitize("< SCRIPT>") == "&lt;script>"
  {
    var s := "< SCRIPT>";
    assert SpaceRunEnd(s[1..], 0) == 1;
    assert OpenerAt(s);
    assert s[OpenerLength(s)..] == ">";
  }

  /** ... while a longer word, in ASCII or Latin-1, is kept. */
  lemma SanitizeKeepsLongerWord()
    ensures Sanitize("<scripta") == "<scripta"
    ensures Sanitize("<script\U{E4}") == "<script\U{E4}"
  {
    KeptAfterLt("<scripta");
    KeptAfterLt("<script\U{E4}");
  }

  lemma KeptAfterLt(s: string)
    requires |s| == 8 && s[0] == '<' && s[1..7] == "script" && IsWordChar(s[7])
    ensures Sanitize(s) == s
  {
    var t := s[1..];
    assert forall i :: 0 <= i < 6 ==> t[i] == s[1..7][i] == "script"[i];
    assert t[0] == 's' && t[6] == s[7];
    assert SpaceRunEnd(t, 0) == 0;
    assert !OpenerAt(s);
    SanitizeNoLt(t, 7);
    assert s == [s[0]] + s[1..];
  }
}

=== FILE: wrappers.dfy ===
/** Optional values and results with an error branch, used for the places where the
    pipeline returns `None` or raises. */
module Wrappers {

  datatype Option<+T> = None | Some(value: T) {

    /** The value, or `default` when there is none (Python's `x or default`). */
    function GetOr(default: T): T {
      match this
      case Some(v) => v
      case None => default
    }
  }

  datatype Result<+R, +E> = Success(value: R) | Failure(error: E)
}
